=== FILE: README.md ===
# Budget periods and recurring subscriptions of Personal-finance-Tracker, in Dafny

This project models the bookkeeping core of Personal-finance-Tracker. That core is the serverless `budget`, `expense` and `goal` functions, the older Express routers they replaced, and three small pieces of front-end logic. Everything is written as pure functions over immutable data: a handler is a function `Store -> (reply, Store)`, and a rejected request leaves the store unchanged.

Here is what the model covers.

- **Calendar** (`calendar.dfy`). Calendar days with JavaScript's `new Date(y, m, d)` day overflow and `setMonth(+1)`.
- **Recurrence projector** (`projector.dfy`). This expands a subscription (start date, cycle, amount) into the days it falls due inside a budget window, with an optional `<= today` cutoff. There are two versions:
  - the handlers' loop exactly as written (`MonthlyLoop`, `YearlyAsWritten`, `ProjectAsWritten`), which every view, `/fetch` and the archiver run;
  - the intended projector (`Occurrences`), which visits every calendar month or year of the window.

  The loop as written only ever leaves due days out, and each view is proved to stay within what the intended projector would give. Four inputs show the loop missing due days; see Findings.
- **Ledger views.**
  - The per-day series (`daily.dfy`).
  - The per-category sums and percentages (`categories.dfy`).
  - The merged ledger, with synthetic subscription rows sorted newest first (`allview.dfy`).
  - The fetched balance `max(0, current - projected)`.
- **Budget periods and the archiver** (`archive.dfy`, `budgets.dfy`). `/create` over an existing budget and every `/update` write their changes in order:
  1. a history record holding the period's expenses, its projected payments and an achievement label;
  2. the deletion of the user's expenses;
  3. the reset or override of the budget.

  The two handlers use different achievement rules, and both are modelled.
- **Expense ledger** (`expenses.dfy`):
  - `/add` checks that a budget exists and that the balance is large enough, then lowers the balance;
  - `/delete` gives the amount back;
  - `/edit` never touches a balance;
  - `/duration` filters by date.
- **Older Express routes** (`legacy_expense.dfy`, `legacy_budget.dfy`): the same ledger without subscriptions, and the update's date-order check.
- **Goals** (`goals.dfy`): creation behind an owner check, lookup by email, the `saved` increment, override-if-defined, and delete.
- **Front-end rules**:
  - the goals page's edit form, save guards, congratulations rule, list updates and accomplished split (`goal_page.dfy`);
  - the sign-up form's validator, including the email pattern (`signup.dfy`);
  - the reward coupon tier (`reward.dfy`).

Some inputs that the code reads from outside become parameters:
- "Today" (`new Date()`) is the parameter `today`.
- A new record's id is the store's counter `nextId`.
- An optional body field is an `Option`.

Dates are calendar days ordered by `Key`. The type `CalDate` admits only real days (`Valid`), as a JavaScript `Date` always holds one.

Where the code and the system's own description differ, the model follows the code:
- The serverless `/create` does not check that the start date comes before the end date. Only the older `/update` checks date order.
- The archiver copies all of the user's expenses into the history record, not only those inside the old window.
- The serverless daily view adds every payment of the window, with no `today` cutoff. The category and merged views stop at `today`. The three views therefore agree only once the window has closed (`ExpenseService.ViewsAgree`). Before that, the daily view can only run ahead (`ExpenseService.DailyRunsAhead`).
- `/create` names an achievement ("Frugal Master", for a remaining share of 85% to 90%), while `/update` ranks the period in medal tiers.

## Model

| member | source | states |
|---|---|---|
| Calendar.MakeDate | netlify/functions/expense.js:106 | `new Date(y, m, d)` is always a real day. A day number inside the month is kept. A day past the month's end rolls into the next month by the excess. |
| Calendar.AddMonth | netlify/functions/expense.js:111 | `setMonth(getMonth() + 1)` moves forward one calendar month, or two when the day does not exist in the next month. |
| Entities.CycleName | netlify/functions/expense.js:103-113 | The stored cycle string is "Monthly" exactly for a monthly subscription and "Yearly" exactly for a yearly one, so every other string projects nothing. |
| Entities.SubCategory | netlify/functions/expense.js:164 | `sub.category \|\| 'Subscription'` is never empty, and it is the stored category whenever that is not empty. |
| Projector.MonthlyLoop | netlify/functions/expense.js:102-112 | The monthly loop as written ends because `temp` gains at least a month per pass. Every day it emits is valid, inside the window and not after the cutoff. It emits at most one day per month it visits. |
| Projector.YearlyAsWritten | netlify/functions/expense.js:113-121 | The yearly branch emits at most one day, only in the window start's calendar year, and only one that passes the window test. |
| Projector.ProjectAsWritten | netlify/functions/budget.js:59-88 | Every projected day passes the emission test. A monthly subscription runs the `setMonth` loop from the window's start, and a yearly one tries its anniversary in the start's year. A cycle other than Monthly or Yearly projects nothing. |
| Projector.Occurrences | netlify/functions/budget.js:221-233 | The intended projector emits only days that pass the window test and the optional `today` cutoff. |
| Projector.OccurrencesExact | netlify/functions/expense.js:102-121 | A day is projected if and only if it passes the emission test and is the due day, `new Date(y, m, anchor)`, of a calendar month (or year) of the window. |
| Projector.OccurrencesIncreasing | netlify/functions/expense.js:102-112 | Projected days are strictly increasing, so no day is projected twice. |
| Projector.OccurrencesCount | netlify/functions/expense.js:102-121 | The number of payments is at most the number of calendar months the window touches for a monthly subscription, and the number of calendar years for a yearly one. A single month can still hold two payments: a due day of 31 rolls April's payment into 1 May. |
| Projector.CutoffIsFilter | netlify/functions/expense.js:155-160 | The `subDate <= today` projection is exactly the full-window projection cut at `today`. |
| Projector.CutoffAfterWindow | netlify/functions/budget.js:226 | When the window ends no later than `today`, the cutoff removes nothing. |
| Projector.AsWrittenWithinCorrected | netlify/functions/budget.js:144-172 | Every day the loop as written emits is also projected by `Occurrences`. The loop only ever omits due days. |
| Projector.ProjectAsWrittenIncreasing | netlify/functions/expense.js:102-121 | The days the handlers' loop projects are strictly increasing, so it never counts a day twice. |
| Projector.ProjectAsWrittenCutoff | netlify/functions/expense.js:155-160 | The loop's walk of `temp` does not depend on `today`. So the `subDate <= today` projection is exactly the uncut projection cut at `today`. |
| Projector.ProjectAsWrittenAfterWindow | netlify/functions/budget.js:226 | When the window ends no later than `today`, the loop's cutoff removes nothing. |
| Projector.AsWrittenShorter | netlify/functions/budget.js:221-233 | The loop as written never projects more payments than the intended projector. |
| Projector.AsWrittenMissesShortFebruary | src/components/Home/setBudget.jsx:52-57 | The budget form sets the window 31 Jan to 2 Mar 2024 for a 31 Jan start. On it, a payment due on the 15th is never projected, while 15 Feb is in the window and due. |
| Projector.QuarterOfMonthlyPayments | netlify/functions/expense.js:102-112 | A monthly subscription anchored on the 15th, over January to March 2024, falls due on the 15th of each month under both definitions. |
| Projector.AsWrittenMissesLastMonth | netlify/functions/expense.js:104-111 | Window 20 Jan to 10 Mar 2024 with anchor day 5: the loop emits only 5 Feb, while 5 Mar is in the window and is due. |
| Projector.AsWrittenSkipsFebruary | netlify/functions/expense.js:111 | From 31 Jan 2024, `setMonth(+1)` lands on 2 Mar. The loop never visits February and misses 28 Feb. |
| Projector.AsWrittenYearlyMissesNewYear | netlify/functions/expense.js:113-121 | Window 15 Dec 2024 to 14 Jan 2025 with a 1 January anniversary: the yearly branch emits nothing, although 1 Jan 2025 is due. |
| Ledger.UserSubs | netlify/functions/expense.js:74 | `Subscription.find({ user })` holds exactly the user's subscriptions. |
| Ledger.ProjectedTotalNonNegative | netlify/functions/budget.js:216-234 | With no negative subscription amount, the projected total is not negative. |
| Ledger.ProjectedTotalCutoffBelow | netlify/functions/budget.js:226 | With non-negative amounts, the `<= today` total never exceeds the whole window's total. |
| Ledger.ProjectedTotalCutoffAfterWindow | netlify/functions/budget.js:216-234 | Once the window has closed, the `<= today` total equals the whole window's total. |
| Ledger.ProjectedTotalWithinIntended | netlify/functions/budget.js:221-234 | With non-negative amounts, the total the loop as written projects never exceeds the total of the payments actually due. |
| DailyTotals.TallyFrom | netlify/functions/expense.js:94-127 | Folding entries into the day map keeps the series ascending by day. It adds exactly the entries' days, and each day's total grows by exactly that day's entries. |
| DailyTotals.AtMostOncePerDay | netlify/functions/expense.js:102-112 | A subscription contributes at most one payment to any day. |
| DailyTotals.DailyViewContents | netlify/functions/expense.js:76-127 | The daily view is ascending. Each day holds that day's in-window expenses plus every subscription payment due that day, with no `today` cutoff. The totals add up to in-window spend plus the whole window's payments as the loop as written projects them. |
| DailyTotals.DailyViewWithinIntended | netlify/functions/expense.js:102-122 | With non-negative amounts, the daily series adds up to no more than the in-window spend plus every payment actually due in the window. |
| CategoryTotals.GroupFrom | netlify/functions/expense.js:214-218 | Grouping by category lists each category once, in first-seen order. The set of names is the items' categories, and each category's sum is the sum of its items. |
| CategoryTotals.Shares | netlify/functions/expense.js:250-254 | One share per category, carrying that category and its amount. |
| CategoryTotals.SharesAddUp | netlify/functions/expense.js:248-253 | Over a positive total, every percentage is `100 * amount / total` and they add up to 100. Over a total that is not positive, every percentage is 0. |
| CategoryTotals.CategoryViewContents | netlify/functions/expense.js:202-246 | With a budget, the category view holds the categories of the in-window expenses and of the subscriptions due up to `today`. Each category holds its spend plus `amount * count` of its subscriptions. The total is spend plus the projected payments up to `today`. |
| CategoryTotals.CategoryViewWithinIntended | netlify/functions/expense.js:225-245 | With non-negative amounts, the category sums add up to no more than the in-window spend plus every payment actually due up to `today`. |
| CategoryTotals.CategoryViewWithoutBudget | netlify/functions/expense.js:206-218 | Without a budget, the view groups all of the user's expenses and adds no subscription payment. |
| CategoryTotals.RawShares | backend/routes/Expense.js:129-133 | The older route's shares keep each category and amount, with `100 * amount / total` unguarded. |
| MergedLedger.SortDesc | netlify/functions/expense.js:193 | The merged ledger is sorted newest first and is a permutation of the rows gathered. |
| MergedLedger.SubRowsMembers | netlify/functions/expense.js:155-190 | A synthetic row exists if and only if it is built from one of the user's subscriptions and a day that subscription falls due up to `today`. |
| MergedLedger.AllViewContents | netlify/functions/expense.js:137-198 | The merged ledger is descending. Synthetic rows carry `isSubscription`, a non-empty category, an id built from the subscription and the day, and a day inside the window and not after `today`. Every other row is an in-window expense of the user. |
| MergedLedger.AllViewWithoutBudget | netlify/functions/expense.js:139-146 | Without a budget, the merged ledger holds exactly the user's expenses and no synthetic row. |
| MergedLedger.AllViewTotal | netlify/functions/expense.js:137-198 | With a budget, the merged ledger's amounts add up to the in-window spend plus the payments the loop projects up to `today`. |
| MergedLedger.AllViewMatchesCategories | netlify/functions/expense.js:225-245 | The merged ledger's amounts add up to the category view's total. |
| MergedLedger.SubRowsWithinIntended | netlify/functions/expense.js:155-173 | Every synthetic row is for a day on which the subscription is actually due up to `today`. The loop invents no payment. |
| MergedLedger.AllViewWithinIntended | netlify/functions/expense.js:155-190 | With non-negative amounts, the merged ledger adds up to no more than the in-window spend plus every payment actually due up to `today`. |
| Archive.FrugalMaster | netlify/functions/budget.js:97-98 | The `/create` label is "Frugal Master" or nothing. |
| Archive.FrugalMasterExact | netlify/functions/budget.js:97-98 | "Frugal Master" is given exactly when 85 <= `current / total * 100` <= 90. Over a negative total, which `/update` can store, both comparisons flip. A zero total follows JavaScript's `Infinity`/`NaN` rules and never earns it. |
| Archive.Tier | netlify/functions/budget.js:175-180 | The `/update` tier is always one of the four labels. |
| Archive.TierBands | netlify/functions/budget.js:175-180 | Over a positive total: Gold at 30% remaining or more, Silver from 15%, Bronze from 5%, otherwise Budget Finisher. Over a negative total every comparison flips: Gold when `100 * current <= 30 * total`, and so on down to Finisher. |
| Archive.TierMonotone | netlify/functions/budget.js:175-180 | Over positive totals, a larger remaining share never earns a lower tier. |
| Archive.TierZeroTotal | netlify/functions/budget.js:175 | Over a total of 0, a positive balance is Gold and any other balance is Budget Finisher. |
| Archive.SubTxsMembers | netlify/functions/budget.js:59-88 | An archived subscription transaction exists if and only if it comes from one of the subscriptions and a day it falls due in the old window. |
| Archive.SnapshotContents | netlify/functions/budget.js:44-99 | The history record copies the old total, balance and dates. It holds every expense of the user and every payment the loop projects in the window, and its amounts add up to those two totals. |
| Archive.SubTxsWithinIntended | netlify/functions/budget.js:59-88 | Every archived subscription payment is for a day on which the subscription was actually due in the closed window. |
| Archive.SnapshotWithinIntended | netlify/functions/budget.js:44-99 | With non-negative amounts, a history record's transactions add up to no more than the user's spend plus every payment actually due in the window. |
| Store.FindUser | netlify/functions/budget.js:36 | `User.findById` returns a stored user with that id, or reports that none has it. |
| Store.FindUserByEmail | netlify/functions/goal.js:45 | `User.findOne({ email })` returns the first stored user with that email, since emails are not unique, or reports that none has it. |
| Store.FindBudget | netlify/functions/expense.js:45 | `Budget.findOne({ user })` yields a stored budget of that user, or reports that the user has none. |
| Store.BudgetIndex | netlify/functions/budget.js:42 | `Budget.findOne({ user })` finds the first budget of the user, or reports that the user has none. |
| Store.ExpenseIndex | netlify/functions/expense.js:309 | `Expense.findById` finds a stored expense with that id, or reports that none has it. |
| Store.GoalIndex | netlify/functions/goal.js:79 | `Goal.findById` finds a stored goal with that id, or reports that none has it. |
| Store.DropExpensesOf | netlify/functions/budget.js:104 | `Expense.deleteMany({ user })` keeps exactly the other users' expenses. |
| BudgetService.Create | netlify/functions/budget.js:33-116 | `/create` fails if and only if the user is unknown, with 404 and no change. Otherwise the new budget has the given total and dates, and a balance equal to the total whatever the body says. |
| BudgetService.CreateOverExisting | netlify/functions/budget.js:90-114 | Over an existing budget, `/create` writes, in order, the history record, the deletion of the old budget, the deletion of the user's expenses, and the new budget. The record copies the old figures with the "Frugal Master" rule and holds every expense of the user. Nothing else changes. |
| BudgetService.CreateFirstBudget | netlify/functions/budget.js:107-114 | A user's first `/create` only appends the new budget. |
| BudgetService.CreateThenFind | netlify/functions/budget.js:103-114 | `/create` keeps one budget per user, and afterwards the user's budget is the new one. |
| BudgetService.Overridden | netlify/functions/budget.js:197-202 | A truthy total resets both the total and the balance; otherwise both stay. Truthiness is JavaScript's: the number 0 is falsy, but the text "0" from the budget form is truthy. Each date is replaced only when given. |
| BudgetService.TypedZeroResets | netlify/functions/budget.js:197-200 | A typed "0" resets the total and the balance to 0, while a JSON 0 changes nothing. |
| BudgetService.OverriddenIdempotent | netlify/functions/budget.js:197-202 | Applying the same overrides twice is the same as applying them once. |
| BudgetService.Update | netlify/functions/budget.js:119-126 | `/update` fails if and only if the user has no budget, with 404 and no change. |
| BudgetService.UpdateEffect | netlify/functions/budget.js:182-204 | `/update` appends one history record, removes the user's expenses and overrides the live budget in place. |
| BudgetService.UpdateArchives | netlify/functions/budget.js:129-205 | The update's record copies the old figures with the medal tier and holds every expense of the user. Afterwards the user's budget is the overridden one, and `/history` lists the new record first. |
| BudgetService.UpdateWithNoFields | netlify/functions/budget.js:191-204 | An `/update` with no fields closes the period but leaves the budget as it was. |
| BudgetService.Fetch | netlify/functions/budget.js:209-244 | `/fetch` fails if and only if the user has no budget, with 404. Otherwise it reports the stored total and a balance that is never negative. |
| BudgetService.FetchBalance | netlify/functions/budget.js:216-238 | The balance shown is `max(0, current - payments the loop projects up to today)`. It lies between 0 and the stored balance when that is not negative and no amount is negative. |
| BudgetService.FetchBalanceWithinIntended | netlify/functions/budget.js:216-238 | With non-negative amounts, the balance shown is never less than the stored balance minus every payment actually due up to `today`. |
| BudgetService.FetchMissesShortFebruary | netlify/functions/budget.js:221-238 | A budget of 1000 from 31 Jan to 2 Mar 2024 and a payment of 100 due on the 15th: on 10 Mar `/fetch` shows 1000, while the intended projection deducts 100. |
| BudgetService.HistoryOf | netlify/functions/budget.js:248-251 | `/history` lists exactly the user's history records. |
| ExpenseService.AddExpense | netlify/functions/expense.js:33-61 | `/add` returns 404 without a budget and 400 when the balance is below the amount, with no change in either case. Otherwise it stores the expense under a new id and lowers the user's balance by exactly the amount, which stays non-negative. No other budget changes. |
| ExpenseService.DeleteExpense | netlify/functions/expense.js:307-322 | `/delete` returns 404 for an unknown id, with no change. Otherwise it removes that one expense and adds its amount back onto the owner's budget, if there is one. |
| ExpenseService.EditExpense | netlify/functions/expense.js:290-304 | `/edit` returns 404 for an unknown id. Otherwise only that expense changes, keeping its id, and no budget moves. |
| ExpenseService.DailyExpenses | netlify/functions/expense.js:64-71 | The daily route fails if and only if the user has no budget, with 404. Otherwise the series is ascending. |
| ExpenseService.AllExpenses | netlify/functions/expense.js:137-198 | The merged-ledger route never rejects, and its rows are newest first. |
| ExpenseService.CategoryPercentage | netlify/functions/expense.js:202-259 | The category route never rejects, and no category is listed twice. |
| ExpenseService.Duration | netlify/functions/expense.js:263-287 | `/duration` returns 400 when either bound is missing, and 404 when no expense of the user lies between the bounds. Otherwise it returns exactly those expenses. |
| ExpenseService.AddThenDelete | netlify/functions/expense.js:309-321 | Adding an expense and then deleting it restores budgets and expenses. Only the id counter has moved. |
| ExpenseService.AddStaysNonNegative | netlify/functions/expense.js:50-56 | `/add` of a non-negative amount keeps every balance and every expense amount non-negative. |
| ExpenseService.DeleteStaysNonNegative | netlify/functions/expense.js:314-321 | `/delete` keeps every balance and every expense amount non-negative. |
| ExpenseService.EditStaysNonNegative | netlify/functions/expense.js:290-303 | `/edit` with a non-negative amount, or none, keeps every balance and every expense amount non-negative. |
| ExpenseService.EditWithEmptyPatch | netlify/functions/expense.js:294 | An `/edit` with an empty body leaves the store as it was. |
| ExpenseService.EditIdempotent | netlify/functions/expense.js:294 | Sending the same `/edit` twice is the same as sending it once, and the stored expense carries every field supplied. |
| ExpenseService.BalanceScenario | netlify/functions/expense.js:45-56 | A budget of 1000: an expense of 200 leaves 800, and a further 900 is refused with 400, leaving 800. |
| ExpenseService.ViewsAgree | netlify/functions/expense.js:102-122 | Once the window has closed, the daily series, the category sums and the merged ledger all total in-window spend plus the window's projected payments. |
| ExpenseService.DailyRunsAhead | netlify/functions/expense.js:226-237 | With non-negative amounts, the category total never exceeds the daily total. |
| LegacyExpense.LegacyDaily | backend/routes/Expense.js:45-87 | The older daily route returns 404 without a budget. Otherwise it gives ascending per-day sums of the in-window expenses only, on exactly their days. |
| LegacyExpense.LegacyDailyWithoutSubscriptions | backend/routes/Expense.js:60-76 | For a user without subscriptions, the older and the serverless daily routes agree. |
| LegacyExpense.LegacyAll | backend/routes/Expense.js:90-108 | `/all` returns 404 if and only if the user has no expense. Otherwise it returns exactly the user's expenses. |
| LegacyExpense.LegacyCategory | backend/routes/Expense.js:109-118 | The older category route returns 404 if and only if the user has no expense. |
| LegacyExpense.LegacyCategoryContents | backend/routes/Expense.js:119-133 | Each category of the user's expenses is listed once with its spend. The percentages share the total as denominator and add up to 100 of it, and the total is positive when every amount is. |
| LegacyBudget.LegacyCreate | backend/routes/Budget.js:5-30 | The older `/create` returns 404 if and only if the user is unknown. Otherwise it appends a budget with the balance as supplied and archives nothing. |
| LegacyBudget.LegacyCreateShadowed | backend/routes/Budget.js:15-24 | A second older `/create` for the same user is never found. The first budget keeps answering. |
| LegacyBudget.LegacyCreateFirst | backend/routes/Budget.js:17-24 | A user's first older `/create` is what later lookups find. |
| LegacyBudget.LegacyUpdate | backend/routes/Budget.js:32-57 | The older `/update` returns 404 without a budget, and 400 when both dates are given and the start is not before the end, with no change in either case. Otherwise it overrides the budget in place. |
| LegacyBudget.LegacyFetch | backend/routes/Budget.js:59-80 | The older `/fetch` returns the stored figures unchanged, or 404. |
| LegacyBudget.LegacyUpdateThenFetch | backend/routes/Budget.js:41-51 | After an accepted older `/update`, a fetch shows the overridden figures, and a supplied date pair is in order. A total is applied exactly when it is truthy, number or text. |
| GoalService.CreateGoal | netlify/functions/goal.js:30-39 | Goal creation returns 404 if and only if the user is unknown. Otherwise it stores the goal with the given fields under a new id, keeping ids unique. |
| GoalService.CreateUserGoal | netlify/functions/goal.js:42-62 | Creation by email returns 404 if and only if no user has the email. Otherwise it creates the goal for that user. |
| GoalService.GoalsByEmail | netlify/functions/goal.js:65-74 | `/by-email` returns 404 if and only if the email is unknown. Otherwise it returns exactly the goals of that user. |
| GoalService.LegacyGoalsByEmail | backend/routes/Goal.js:65-87 | The older email route also returns 404 when the user has no goals. Otherwise it returns the same goals. |
| GoalService.LegacyGoals | backend/routes/Goal.js:50-62 | `GET /goals` returns 404 if and only if the user is unknown. Otherwise it returns exactly that user's goals. |
| GoalService.UpdateSaved | netlify/functions/goal.js:77-91 | `/update-saved` returns 404 if and only if the goal is unknown. Otherwise a supplied delta is added to `saved`, and nothing else changes. |
| GoalService.LegacyPatchSaved | backend/routes/Goal.js:90-112 | `PATCH /goals/:id` also returns 404 when the goal's owner is gone. Otherwise it behaves as `/update-saved`. |
| GoalService.UpdateGoal | netlify/functions/goal.js:94-107 | Goal update returns 404 if and only if the goal is unknown. Otherwise `saved` and `amount` are each replaced only when given. |
| GoalService.DeleteGoal | netlify/functions/goal.js:110-119 | Goal delete returns 404 if and only if the goal is unknown. Otherwise it removes that goal. |
| GoalService.CreatedGoalIsListed | netlify/functions/goal.js:60-73 | A goal created for an email is listed for that email afterwards. |
| GoalService.DepositsAdd | netlify/functions/goal.js:84-87 | Saving `a` and then `b` has the same effect as saving `a + b`. |
| GoalService.UpdateGoalIdempotent | netlify/functions/goal.js:102-104 | Sending the same goal update twice is the same as sending it once. |
| GoalService.DeleteIsFinal | netlify/functions/goal.js:110-116 | With unique ids, a deleted goal is gone, and a second delete returns 404. |
| GoalPage.StartEdit | src/components/Home/Goal.jsx:49-51 | Opening the form copies the goal's figures, with `remaining = amount - saved`. |
| GoalPage.Typed | src/components/Home/Goal.jsx:57-64 | A keystroke sets the field to the parsed number, or 0. After a number, `remaining` equals `amount - saved`. After text that is not a number, it is `NaN`. |
| GoalPage.Save | src/components/Home/Goal.jsx:66-85 | A save is refused for `saved > amount` and only then by the first guard. A sent update carries the form's figures, with `saved <= amount`. |
| GoalPage.AfterSave | src/components/Home/Goal.jsx:86-88 | After a save, only goals with the matching id take the new amount and saved. Every other goal and the order are kept. |
| GoalPage.AfterDelete | src/components/Home/Goal.jsx:103 | After a delete, the list holds exactly the goals with another id. |
| GoalPage.TypingKeepsRemaining | src/components/Home/Goal.jsx:50-64 | Whatever is typed, `remaining` either agrees with the fields or is `NaN`. |
| GoalPage.SecondGuardNeverFires | src/components/Home/Goal.jsx:73-76 | For integer figures, the "cannot exceed the remaining amount" guard never fires on a form opened on a goal. A save is then sent if and only if `saved <= amount`. |
| GoalPage.CongratsExactly | src/components/Home/Goal.jsx:83-85 | After a sent save, the modal opens if and only if `saved >= amount`, which is if and only if `saved == amount`. |
| GoalPage.Partition | src/components/Home/Goal.jsx:113-114 | The accomplished and not-accomplished lists are disjoint, cover the goals, and together are as long as the list. |
| GoalPage.CongratsMeansAccomplished | src/components/Home/Goal.jsx:83-88 | A save that opens the modal puts the saved goal in the accomplished list. |
| GoalPage.DeleteKeepsOthers | src/components/Home/Goal.jsx:103 | A delete never lengthens the list, and a delete of an absent id leaves it unchanged. |
| SignUpForm.EmailShapeIsFacts | src/components/Auth/sign-up.jsx:37 | The email pattern matches if and only if: there is no white space, there is exactly one `@` and it is not first, and there is a `.` after it with text on both sides. |
| SignUpForm.CheckEmail | src/components/Auth/sign-up.jsx:37 | The two-scan check accepts an email if and only if the pattern `^[^\s@]+@[^\s@]+\.[^\s@]+$` matches it. |
| SignUpForm.Utf16Length | src/components/Auth/sign-up.jsx:36 | JavaScript's `.length` counts at least one and at most two code units per character. |
| SignUpForm.IsFormValid | src/components/Auth/sign-up.jsx:34-43 | The validator accepts if and only if all hold: username length >= 3, the email matches, password length >= 6, age from 18 to 100, and a chosen gender and working status. |
| SignUpForm.SubmitDisabled | src/components/Auth/sign-up.jsx:172 | The button is disabled if and only if the form is not valid. A disabled button has a failing condition to point at. |
| SignUpForm.DobNotChecked | src/components/Auth/sign-up.jsx:34-43 | The date of birth plays no part in validity. |
| SignUpForm.EmailAccepted | src/components/Auth/sign-up.jsx:37 | `ana@mail.com` and `a@b.c.d` match. |
| SignUpForm.EmailWithoutDot | src/components/Auth/sign-up.jsx:37 | `ana@mail` does not match. |
| SignUpForm.EmailWithoutLocalPart | src/components/Auth/sign-up.jsx:37 | `@mail.com` does not match. |
| SignUpForm.EmailWithTwoAts | src/components/Auth/sign-up.jsx:37 | `ana@@mail.com` does not match. |
| SignUpForm.EmailWithSpace | src/components/Auth/sign-up.jsx:37 | `ana @mail.com` does not match. |
| Reward.CouponFor | src/components/Home/Reward.jsx:45-49 | Up to 10000 gives the first coupon, up to 50000 the second, and above that the third. Exactly one applies to every amount. |
| Reward.CouponMonotone | src/components/Home/Reward.jsx:45-49 | A larger amount never earns a lesser coupon. |
| Reward.CouponEdges | src/components/Home/Reward.jsx:46-48 | 10000 and 10001, and 50000 and 50001, fall on either side of the band edges. |

## Left out

- HTTP transport: CORS, response helpers, path parsing, JSON parsing, Express wiring, and the 500 replies of the `catch` blocks. A handler's reply is `Done` or a `Fail` carrying 404 or 400.
- Persistence: Mongoose, `connectDB` and the `$group` aggregate. The store is a value holding sequences. `findOne` returns the first match, and a save appends or replaces in place. Each handler runs atomically, so the interleavings between the balance check and the decrement are not modelled.
- Authentication, the advisor, and subscription CRUD. These are foreign calls (hashing, tokens, a language model) or thin persistence. Only a subscription's stored fields are used.
- Time zones and the wall clock. Dates are calendar days: local-midnight `new Date(y, m, d)` and the UTC `toISOString` key of the daily view are taken to name the same day. `today` is a parameter.
- Floating point. Amounts are integers. Percentages are exact ratios before `toFixed(2)`, which is not modelled. `parseFloat` in the goals page yields an integer or `NaN`. The sign-up `age` is its numeric value, or `None` for text that is not a number.
- CategoryTotals.GroupFrom: category names that `Object.prototype` already holds are modelled as ordinary keys. The same holds for `CategoryTotals.CategoryViewContents` and `LegacyExpense.LegacyCategoryContents`. The handlers group into a plain `{}` at expense.js lines 214-218 and 241-242 and backend/routes/Expense.js lines 121-127, and category text is free input:
  - For "constructor", "toString", "valueOf" and the other inherited method names, `!acc[c]` is false. `+=` then appends the amount to the function's source text, so that category's sum becomes a string. In the serverless route the total then becomes a string too, `totalAmount > 0` is false, and every share is 0.
  - For "__proto__", the assignment is ignored and the category drops out of the reply.
  The model treats every name as a fresh numeric key.
- Key order of JavaScript objects. Category lists keep first-seen order. The rule that moves integer-like keys first in `Object.keys` is not modelled.
- Database order among expenses with the same date. `sort({ date: -1 })` is not stable across equal dates in the database. The model fixes one stable order.
- The older router's `/add`, `/duration` and `/edit` are the same code as the serverless ones and are covered by `ExpenseService.AddExpense`, `ExpenseService.Duration` and `ExpenseService.EditExpense`.
- The older goal router's `/create`, `/usercreate`, `DELETE /:id` and `PUT /:id` (backend/routes/Goal.js lines 6-46 and 114-147) are the same logic as the serverless goal handlers. They are covered by `GoalService.CreateGoal`, `GoalService.CreateUserGoal`, `GoalService.DeleteGoal` and `GoalService.UpdateGoal`.
- React rendering, navigation, the `fetch` and `axios` calls, and `window.confirm`. In the goals page only the state updates after a successful request are modelled.
- ExpenseService.DailyExpenses: states the reply and ascending order only. Its contents are stated by `DailyTotals.DailyViewContents` and `ExpenseService.ViewsAgree`.
- ExpenseService.AllExpenses: states ordering only. Its contents are stated by `MergedLedger.AllViewContents`.
- ExpenseService.CategoryPercentage: states distinct categories only. Its contents are stated by `CategoryTotals.CategoryViewContents` and `CategoryTotals.SharesAddUp`.
- BudgetService.Overridden: a total typed into the form is modelled as its text plus the number the database casts it to. Parsing that text is not modelled, and neither is the failed cast, answered 500, of text that spells no number. The same holds for `LegacyBudget.LegacyUpdate`.
- GoalPage.SecondGuardNeverFires: holds for integer figures only. In IEEE doubles, amount 1 with saved typed as 0.1 gives remaining 0.9 and `amount - remaining` = 0.09999999999999998 < 0.1, so the guard at Goal.jsx line 73 fires.
- LegacyExpense.LegacyCategory: states the reply only. Its contents are in `LegacyExpense.LegacyCategoryContents`. Over a zero total the percentages are `0 / 0`, which JavaScript turns into `NaN`. The model keeps the ratio with denominator 0.

## Findings

| source | as written | input that shows it | evidently intended | confidence | as-written member | corrected member |
|---|---|---|---|---|---|---|
| netlify/functions/expense.js:104-111 | the monthly loop runs while `temp <= end`, with `temp` starting on the window's start day | window 20 Jan to 10 Mar 2024, subscription due on the 5th: 5 Mar is in the window but never emitted | every month of the window is tried | high (not executed) | Projector.AsWrittenMissesLastMonth | Projector.OccurrencesExact |
| netlify/functions/expense.js:111 | `temp.setMonth(temp.getMonth() + 1)` from a 31st rolls past short months | window 31 Jan to 31 Mar 2024, subscription due on the 28th: `temp` jumps to 2 Mar and 28 Feb is never emitted | every month of the window is tried | high (not executed) | Projector.AsWrittenSkipsFebruary | Projector.OccurrencesExact |
| netlify/functions/expense.js:113-121 | a yearly subscription is tried in the window start's year only | window 15 Dec 2024 to 14 Jan 2025, anniversary 1 January: 1 Jan 2025 is never emitted | every year of the window is tried | medium (not executed) | Projector.AsWrittenYearlyMissesNewYear | Projector.OccurrencesExact |

Every site duplicates the loop: budget.js lines 59-88, 144-173 and 221-234, and expense.js lines 102-122, 155-190 and 225-245. The ledger views, the balance and the archiver are modelled with the loop as written, `Projector.ProjectAsWritten`, as the handlers run it. The corrected projector `Projector.Occurrences` is the reference:
- `Projector.AsWrittenWithinCorrected` proves that the loop as written only ever omits days the corrected projector emits.
- `Projector.AsWrittenShorter` and `Ledger.ProjectedTotalWithinIntended` bound each view's subscription total by the corrected one.

The second row is reached from the app's own budget form, which ends a window one `setMonth` after its start: from 31 January the window ends on 2 March. `Projector.AsWrittenMissesShortFebruary` and `BudgetService.FetchMissesShortFebruary` show a payment due on 15 February that `/fetch` never deducts.

=== FILE: allview.dfy ===
/** The merged ledger of `/all`: the user's expenses (inside the budget
    window when there is a budget) plus, with a budget, one synthetic record
    per subscription payment due up to `today`, sorted newest first by a
    stable sort.
 */
module MergedLedger {
  import opened Common
  import opened Calendar
  import opened Entities
  import opened Projector
  import opened Seqs
  import opened Ledger
  import opened CategoryTotals

  /** A stored expense keeps its own id; a synthetic record's
      `sub-<id>-<time>` id is determined by the subscription and the day. */
  datatype RowId = ExpenseId(id: nat) | SubscriptionId(sub: nat, day: CalDate)

  datatype Row = Row(
    id: RowId,
    user: UserId,
    category: string,
    name: string,
    amount: int,
    date: CalDate,
    description: string,
    isSubscription: bool)

  function ExpenseRow(e: Expense): Row {
    Row(ExpenseId(e.id), e.user, e.category, e.name, e.amount, e.date, e.description, false)
  }

  /** The record pushed for the payment of `s` due on `d`. */
  function SubRow(s: Subscription, d: CalDate): Row {
    Row(SubscriptionId(s.id, d), s.user, SubCategory(s), s.name + " (Subscription)", s.amount, d,
        "Recurring " + CycleName(s.cycle) + " payment", true)
  }

  function ExpenseRows(es: seq<Expense>): (r: seq<Row>)
    ensures |r| == |es|
    ensures forall i :: 0 <= i < |es| ==> r[i] == ExpenseRow(es[i])
  {
    seq(|es|, i requires 0 <= i < |es| => ExpenseRow(es[i]))
  }

  function DueRows(s: Subscription, ds: seq<CalDate>): (r: seq<Row>)
    ensures |r| == |ds|
    ensures forall i :: 0 <= i < |ds| ==> r[i] == SubRow(s, ds[i])
  {
    seq(|ds|, i requires 0 <= i < |ds| => SubRow(s, ds[i]))
  }

  /** One record per payment due up to `today`, subscription by subscription. */
  function SubRows(subs: seq<Subscription>, start: CalDate, end: CalDate, today: CalDate): seq<Row>
  {
    if subs == [] then []
    else DueRows(subs[0], ProjectAsWritten(subs[0], start, end, Some(today)))
         + SubRows(subs[1..], start, end, today)
  }

  predicate Descending(rs: seq<Row>) {
    forall i, j :: 0 <= i < j < |rs| ==> Key(rs[j].date) <= Key(rs[i].date)
  }

  /** Places `x` before the first row that is not newer than it, so rows of
      the same day keep their relative order. */
  function InsertDesc(x: Row, rs: seq<Row>): (r: seq<Row>)
    ensures multiset(r) == multiset(rs) + multiset{x}
  {
    if rs == [] then [x]
    else if Key(rs[0].date) <= Key(x.date) then [x] + rs
    else
      assert rs == [rs[0]] + rs[1..];
      [rs[0]] + InsertDesc(x, rs[1..])
  }

  /** Inserting a row no later than `k` among rows no later than `k`. */
  lemma {:induction false} InsertDescBelow(x: Row, rs: seq<Row>, k: int)
    requires Key(x.date) <= k && forall i :: 0 <= i < |rs| ==> Key(rs[i].date) <= k
    ensures forall i :: 0 <= i < |InsertDesc(x, rs)| ==> Key(InsertDesc(x, rs)[i].date) <= k
  {
    if rs != [] && Key(x.date) < Key(rs[0].date) {
      InsertDescBelow(x, rs[1..], k);
      var tail := InsertDesc(x, rs[1..]);
      assert InsertDesc(x, rs) == [rs[0]] + tail;
    }
  }

  /** A row no earlier than every row of a newest-first list may go in front of it. */
  lemma ConsDescending(h: Row, tail: seq<Row>)
    requires Descending(tail) && forall k :: 0 <= k < |tail| ==> Key(tail[k].date) <= Key(h.date)
    ensures Descending([h] + tail)
  {
    var r := [h] + tail;
    forall i, j | 0 <= i < j < |r| ensures Key(r[j].date) <= Key(r[i].date) {
      assert r[j] == tail[j - 1];
      if i > 0 { assert r[i] == tail[i - 1]; }
    }
  }

  /** Inserting into a newest-first list keeps it newest first. */
  lemma {:induction false} InsertDescOrdered(x: Row, rs: seq<Row>)
    requires Descending(rs)
    ensures Descending(InsertDesc(x, rs))
  {
    if rs != [] && Key(x.date) < Key(rs[0].date) {
      var tail := InsertDesc(x, rs[1..]);
      InsertDescOrdered(x, rs[1..]);
      InsertDescBelow(x, rs[1..], Key(rs[0].date));
      assert InsertDesc(x, rs) == [rs[0]] + tail;
      ConsDescending(rs[0], tail);
    } else if rs != [] {
      assert forall k :: 0 <= k < |rs| ==> Key(rs[k].date) <= Key(rs[0].date);
      ConsDescending(x, rs);
    }
  }

  /** `rows.sort((a, b) => new Date(b.date) - new Date(a.date))`: newest first,
      a permutation of its input. */
  function SortDesc(rs: seq<Row>): (r: seq<Row>)
    ensures Descending(r)
    ensures multiset(r) == multiset(rs)
  {
    if rs == [] then []
    else
      assert rs == [rs[0]] + rs[1..];
      InsertDescOrdered(rs[0], SortDesc(rs[1..]));
      InsertDesc(rs[0], SortDesc(rs[1..]))
  }

  /** The rows `/all` gathers before sorting. */
  function GatheredRows(es: seq<Expense>, subs: seq<Subscription>, u: UserId,
                        budget: Option<Budget>, today: CalDate): seq<Row>
  {
    match budget
    case None => ExpenseRows(UserExpenses(es, u))
    case Some(b) =>
      ExpenseRows(WindowExpenses(es, u, b.startDate, b.endDate))
      + SubRows(UserSubs(subs, u), b.startDate, b.endDate, today)
  }

  /** `GET /all/:user` of the serverless function. */
  function AllView(es: seq<Expense>, subs: seq<Subscription>, u: UserId,
                   budget: Option<Budget>, today: CalDate): seq<Row>
  {
    SortDesc(GatheredRows(es, subs, u, budget, today))
  }

  function RowTotal(rs: seq<Row>): int {
    Sum(rs, (r: Row) => r.amount)
  }

  // ---------------------------------------------------------------------
  // Lemmas

  /** One subscription's synthetic rows are exactly its due days. */
  lemma DueRowsMembers(s: Subscription, ds: seq<CalDate>, r: Row)
    ensures r in DueRows(s, ds) <==> exists d :: d in ds && r == SubRow(s, d)
  {
    if r in DueRows(s, ds) {
      var i :| 0 <= i < |ds| && DueRows(s, ds)[i] == r;
      assert ds[i] in ds;
    }
  }

  /** Every synthetic row comes from a payment due up to `today`. */
  lemma {:induction false} SubRowsSound(subs: seq<Subscription>, start: CalDate, end: CalDate,
                                        today: CalDate, r: Row)
    requires r in SubRows(subs, start, end, today)
    ensures exists s, d :: s in subs && d in ProjectAsWritten(s, start, end, Some(today)) && r == SubRow(s, d)
  {
    var s, rest := subs[0], subs[1..];
    var ds := ProjectAsWritten(s, start, end, Some(today));
    DueRowsMembers(s, ds, r);
    if r in DueRows(s, ds) {
      var d :| d in ds && r == SubRow(s, d);
      assert s in subs;
    } else {
      SubRowsSound(rest, start, end, today, r);
      var t, d :| t in rest && d in ProjectAsWritten(t, start, end, Some(today)) && r == SubRow(t, d);
      assert t in subs;
    }
  }

  /** Every payment due up to `today` has its synthetic row. */
  lemma {:induction false} SubRowsComplete(subs: seq<Subscription>, start: CalDate, end: CalDate,
                                           today: CalDate, s: Subscription, d: CalDate)
    requires s in subs && d in ProjectAsWritten(s, start, end, Some(today))
    ensures SubRow(s, d) in SubRows(subs, start, end, today)
  {
    var ds := ProjectAsWritten(subs[0], start, end, Some(today));
    if s == subs[0] {
      DueRowsMembers(s, ds, SubRow(s, d));
    } else {
      SubRowsComplete(subs[1..], start, end, today, s, d);
    }
  }

  /** The synthetic rows are exactly the payments due up to `today`. */
  lemma {:induction false} SubRowsMembers(subs: seq<Subscription>, start: CalDate, end: CalDate, today: CalDate, r: Row)
    ensures r in SubRows(subs, start, end, today) <==>
            exists s, d :: s in subs && d in ProjectAsWritten(s, start, end, Some(today)) && r == SubRow(s, d)
  {
    if r in SubRows(subs, start, end, today) {
      SubRowsSound(subs, start, end, today, r);
    }
    if exists s, d :: s in subs && d in ProjectAsWritten(s, start, end, Some(today)) && r == SubRow(s, d) {
      var s, d :| s in subs && d in ProjectAsWritten(s, start, end, Some(today)) && r == SubRow(s, d);
      SubRowsComplete(subs, start, end, today, s, d);
    }
  }

  lemma {:induction false} ExpenseRowsTotal(es: seq<Expense>)
    ensures RowTotal(ExpenseRows(es)) == Spent(es)
  {
    if es != [] {
      ExpenseRowsTotal(es[1..]);
      assert ExpenseRows(es)[1..] == ExpenseRows(es[1..]);
    }
  }

  lemma {:induction false} DueRowsTotal(s: Subscription, ds: seq<CalDate>)
    ensures RowTotal(DueRows(s, ds)) == s.amount * |ds|
  {
    if ds != [] {
      DueRowsTotal(s, ds[1..]);
      assert DueRows(s, ds)[1..] == DueRows(s, ds[1..]);
      assert s.amount * |ds| == s.amount + s.amount * |ds[1..]|;
    }
  }

  lemma {:induction false} SubRowsTotal(subs: seq<Subscription>, start: CalDate, end: CalDate, today: CalDate)
    ensures RowTotal(SubRows(subs, start, end, today)) == ProjectedTotal(subs, start, end, Some(today))
  {
    if subs != [] {
      var here := DueRows(subs[0], ProjectAsWritten(subs[0], start, end, Some(today)));
      SubRowsTotal(subs[1..], start, end, today);
      DueRowsTotal(subs[0], ProjectAsWritten(subs[0], start, end, Some(today)));
      SumConcat(here, SubRows(subs[1..], start, end, today), (r: Row) => r.amount);
    }
  }

  /** Inserting adds exactly the inserted row's amount. */
  lemma {:induction false} InsertDescTotal(x: Row, rs: seq<Row>)
    ensures RowTotal(InsertDesc(x, rs)) == x.amount + RowTotal(rs)
  {
    if rs != [] && Key(x.date) < Key(rs[0].date) {
      InsertDescTotal(x, rs[1..]);
      assert InsertDesc(x, rs)[1..] == InsertDesc(x, rs[1..]);
    } else if rs == [] {
      assert InsertDesc(x, rs)[1..] == [];
    } else {
      assert InsertDesc(x, rs)[1..] == rs;
    }
  }

  /** Sorting does not change the total. */
  lemma {:induction false} SortDescTotal(rs: seq<Row>)
    ensures RowTotal(SortDesc(rs)) == RowTotal(rs)
  {
    if rs != [] {
      SortDescTotal(rs[1..]);
      InsertDescTotal(rs[0], SortDesc(rs[1..]));
    }
  }

  /** What an expense row of the window says. */
  lemma ExpenseRowFacts(es: seq<Expense>, u: UserId, b: Budget, r: Row)
    requires r in ExpenseRows(WindowExpenses(es, u, b.startDate, b.endDate))
    ensures !r.isSubscription
    ensures exists e :: e in es && e.user == u && InWindow(e.date, b.startDate, b.endDate) && r == ExpenseRow(e)
  {
    var mine := WindowExpenses(es, u, b.startDate, b.endDate);
    var i :| 0 <= i < |mine| && ExpenseRows(mine)[i] == r;
    assert mine[i] in mine;
  }

  /** What a synthetic row of the window says. */
  lemma SubRowFacts(subs: seq<Subscription>, u: UserId, b: Budget, today: CalDate, r: Row)
    requires r in SubRows(UserSubs(subs, u), b.startDate, b.endDate, today)
    ensures r.isSubscription && r.category != "" && Emits(r.date, b.startDate, b.endDate, Some(today))
            && r.id.SubscriptionId? && r.id.day == r.date
    ensures exists s, d :: s in subs && s.user == u && d in ProjectAsWritten(s, b.startDate, b.endDate, Some(today))
                           && r == SubRow(s, d)
  {
    var theirs := UserSubs(subs, u);
    SubRowsMembers(theirs, b.startDate, b.endDate, today, r);
    var s, d :| s in theirs && d in ProjectAsWritten(s, b.startDate, b.endDate, Some(today)) && r == SubRow(s, d);
    var i :| 0 <= i < |ProjectAsWritten(s, b.startDate, b.endDate, Some(today))|
             && ProjectAsWritten(s, b.startDate, b.endDate, Some(today))[i] == d;
  }

  /** `/all` lists newest first exactly the rows it gathers: the user's
      in-window expenses, marked as not synthetic, and one synthetic row for
      every payment due up to `today`, whose id is built from the
      subscription and the day, whose category defaults to "Subscription",
      and whose day lies in the window and not after `today`. */
  lemma AllViewContents(es: seq<Expense>, subs: seq<Subscription>, u: UserId,
                        b: Budget, today: CalDate, r: Row)
    ensures Descending(AllView(es, subs, u, Some(b), today))
    ensures multiset(AllView(es, subs, u, Some(b), today))
            == multiset(ExpenseRows(WindowExpenses(es, u, b.startDate, b.endDate)))
               + multiset(SubRows(UserSubs(subs, u), b.startDate, b.endDate, today))
    ensures r in AllView(es, subs, u, Some(b), today) && r.isSubscription ==>
              exists s, d :: s in subs && s.user == u && d in ProjectAsWritten(s, b.startDate, b.endDate, Some(today))
                             && r == SubRow(s, d)
    ensures r in AllView(es, subs, u, Some(b), today) && r.isSubscription ==>
              r.category != "" && Emits(r.date, b.startDate, b.endDate, Some(today))
              && r.id.SubscriptionId? && r.id.day == r.date
    ensures r in AllView(es, subs, u, Some(b), today) && !r.isSubscription ==>
              exists e :: e in es && e.user == u && InWindow(e.date, b.startDate, b.endDate) && r == ExpenseRow(e)
  {
    var mine := WindowExpenses(es, u, b.startDate, b.endDate);
    var theirs := UserSubs(subs, u);
    var gathered := ExpenseRows(mine) + SubRows(theirs, b.startDate, b.endDate, today);
    assert multiset(gathered) == multiset(ExpenseRows(mine)) + multiset(SubRows(theirs, b.startDate, b.endDate, today));
    if r in AllView(es, subs, u, Some(b), today) {
      assert r in multiset(gathered);
      if r in ExpenseRows(mine) {
        ExpenseRowFacts(es, u, b, r);
      } else {
        assert r in SubRows(theirs, b.startDate, b.endDate, today);
        SubRowFacts(subs, u, b, today, r);
      }
    }
  }

  /** Rows built from expenses are never synthetic. */
  lemma ExpenseRowsPlain(es: seq<Expense>)
    ensures forall r :: r in ExpenseRows(es) ==> !r.isSubscription
  {
    forall r | r in ExpenseRows(es) ensures !r.isSubscription {
      var i :| 0 <= i < |es| && ExpenseRows(es)[i] == r;
    }
  }

  /** Without a budget `/all` is the user's expenses, newest first, and
      nothing synthetic. */
  lemma AllViewWithoutBudget(es: seq<Expense>, subs: seq<Subscription>, u: UserId, today: CalDate)
    ensures Descending(AllView(es, subs, u, None, today))
    ensures multiset(AllView(es, subs, u, None, today)) == multiset(ExpenseRows(UserExpenses(es, u)))
    ensures forall r :: r in AllView(es, subs, u, None, today) ==> !r.isSubscription
  {
    var rows := ExpenseRows(UserExpenses(es, u));
    var sorted := SortDesc(rows);
    assert AllView(es, subs, u, None, today) == sorted;
    ExpenseRowsPlain(UserExpenses(es, u));
    forall r | r in sorted ensures !r.isSubscription {
      assert r in multiset(sorted);
    }
  }

  /** With a budget, the rows of `/all` add up to the window's spend plus
      the payments due up to `today`. */
  lemma AllViewTotal(es: seq<Expense>, subs: seq<Subscription>, u: UserId, b: Budget, today: CalDate)
    ensures RowTotal(AllView(es, subs, u, Some(b), today))
            == Spent(WindowExpenses(es, u, b.startDate, b.endDate))
               + ProjectedTotal(UserSubs(subs, u), b.startDate, b.endDate, Some(today))
  {
    var mine := WindowExpenses(es, u, b.startDate, b.endDate);
    SortDescTotal(GatheredRows(es, subs, u, Some(b), today));
    ExpenseRowsTotal(mine);
    SubRowsTotal(UserSubs(subs, u), b.startDate, b.endDate, today);
    SumConcat(ExpenseRows(mine), SubRows(UserSubs(subs, u), b.startDate, b.endDate, today), (r: Row) => r.amount);
  }

  /** The rows of `/all` add up to the category sums of
      `/category-percentage`: both are the spend plus the payments due up to
      `today`. */
  lemma AllViewMatchesCategories(es: seq<Expense>, subs: seq<Subscription>, u: UserId,
                                 budget: Option<Budget>, today: CalDate)
    ensures RowTotal(AllView(es, subs, u, budget, today)) == TotalOf(CategorySums(es, subs, u, budget, today))
  {
    match budget
    case None =>
      SortDescTotal(GatheredRows(es, subs, u, budget, today));
      ExpenseRowsTotal(UserExpenses(es, u));
      CategoryViewWithoutBudget(es, subs, u, today, "");
    case Some(b) =>
      AllViewTotal(es, subs, u, b, today);
      CategoryViewContents(es, subs, u, b, today, "");
  }

  /** Every synthetic row `/all` builds is for a day the subscription is
      actually due: the loop as written invents no payment. */
  lemma SubRowsWithinIntended(subs: seq<Subscription>, start: CalDate, end: CalDate, today: CalDate, r: Row)
    requires r in SubRows(subs, start, end, today)
    ensures exists s, d :: s in subs && d in Occurrences(s, start, end, Some(today)) && r == SubRow(s, d)
  {
    SubRowsSound(subs, start, end, today, r);
    var s, d :| s in subs && d in ProjectAsWritten(s, start, end, Some(today)) && r == SubRow(s, d);
    AsWrittenWithinCorrected(s, start, end, Some(today), d);
  }

  /** With non-negative amounts the rows of `/all` never add up to more than
      the window's spend plus every payment actually due up to `today`. */
  lemma AllViewWithinIntended(es: seq<Expense>, subs: seq<Subscription>, u: UserId, b: Budget, today: CalDate)
    requires forall s :: s in subs ==> s.amount >= 0
    ensures RowTotal(AllView(es, subs, u, Some(b), today))
            <= Spent(WindowExpenses(es, u, b.startDate, b.endDate))
               + IntendedTotal(UserSubs(subs, u), b.startDate, b.endDate, Some(today))
  {
    AllViewTotal(es, subs, u, b, today);
    ProjectedTotalWithinIntended(UserSubs(subs, u), b.startDate, b.endDate, Some(today));
  }
}

=== FILE: archive.dfy ===
/** What a closed budget period keeps: every expense of the user (all of
    them, not only those inside the window) and every subscription payment
    of the closing window, with no `today` cutoff; and the two achievement
    rules, written with JavaScript's division semantics.
 */
module Archive {
  import opened Common
  import opened Calendar
  import opened Entities
  import opened Projector
  import opened Seqs
  import opened Ledger

  // ---------------------------------------------------------------------
  // Percent comparisons

  /** `current / total * 100 >= p`, read exactly. A zero total divides to
      `Infinity` (positive current), `-Infinity` (negative current) or `NaN`
      (zero current), and `NaN` compares false with everything. */
  predicate PercentAtLeast(current: int, total: int, p: int) {
    if total > 0 then 100 * current >= p * total
    else if total < 0 then 100 * current <= p * total
    else current > 0
  }

  /** `current / total * 100 <= p`, read exactly, with the same rules. */
  predicate PercentAtMost(current: int, total: int, p: int) {
    if total > 0 then 100 * current <= p * total
    else if total < 0 then 100 * current >= p * total
    else current < 0
  }

  /** The rule `/create` applies when it archives. */
  function FrugalMaster(current: int, total: int): (r: Option<string>)
    ensures r.Some? ==> r.value == "Frugal Master"
  {
    if PercentAtLeast(current, total, 85) && PercentAtMost(current, total, 90)
    then Some("Frugal Master") else None
  }

  const Gold := "\U{1F947} Gold Medal"
  const Silver := "\U{1F948} Silver Medal"
  const Bronze := "\U{1F949} Bronze Medal"
  const Finisher := "\U{2705} Budget Finisher"

  /** The tier table `/update` applies when it archives. */
  function Tier(current: int, total: int): (r: string)
    ensures r in {Gold, Silver, Bronze, Finisher}
  {
    if PercentAtLeast(current, total, 30) then Gold
    else if PercentAtLeast(current, total, 15) then Silver
    else if PercentAtLeast(current, total, 5) then Bronze
    else Finisher
  }

  /** The tiers from lowest to highest. */
  function Rank(tier: string): nat {
    if tier == Gold then 3 else if tier == Silver then 2 else if tier == Bronze then 1 else 0
  }

  // ---------------------------------------------------------------------
  // Archived transactions

  function ToTx(e: Expense): ArchivedTx {
    ArchivedTx(e.category, e.name, e.amount, e.date, e.description)
  }

  /** The transaction archived for the payment of `s` due on `d`. */
  function SubTx(s: Subscription, d: CalDate): ArchivedTx {
    ArchivedTx(SubCategory(s), s.name + " (Subscription)", s.amount, d,
               "Recurring " + CycleName(s.cycle) + " payment")
  }

  function ExpenseTxs(es: seq<Expense>): (r: seq<ArchivedTx>)
    ensures |r| == |es|
    ensures forall i :: 0 <= i < |es| ==> r[i] == ToTx(es[i])
  {
    seq(|es|, i requires 0 <= i < |es| => ToTx(es[i]))
  }

  function DueTxs(s: Subscription, ds: seq<CalDate>): (r: seq<ArchivedTx>)
    ensures |r| == |ds|
    ensures forall i :: 0 <= i < |ds| ==> r[i] == SubTx(s, ds[i])
  {
    seq(|ds|, i requires 0 <= i < |ds| => SubTx(s, ds[i]))
  }

  /** Every payment of the window, subscription by subscription. */
  function SubTxs(subs: seq<Subscription>, start: CalDate, end: CalDate): seq<ArchivedTx>
  {
    if subs == [] then []
    else DueTxs(subs[0], ProjectAsWritten(subs[0], start, end, None)) + SubTxs(subs[1..], start, end)
  }

  /** `archivedExpenses` for user `u` closing the window of budget `b`. */
  function ArchivedTxs(es: seq<Expense>, subs: seq<Subscription>, u: UserId, b: Budget): seq<ArchivedTx>
  {
    ExpenseTxs(UserExpenses(es, u)) + SubTxs(UserSubs(subs, u), b.startDate, b.endDate)
  }

  /** The history record written when budget `b` of user `u` is closed. */
  function Snapshot(es: seq<Expense>, subs: seq<Subscription>, u: UserId, b: Budget,
                    achievement: Option<string>): History
  {
    History(u, b.totalAmount, b.currentAmount, b.startDate, b.endDate,
            ArchivedTxs(es, subs, u, b), achievement)
  }

  function TxTotal(ts: seq<ArchivedTx>): int {
    Sum(ts, (t: ArchivedTx) => t.amount)
  }

  // ---------------------------------------------------------------------
  // Lemmas

  /** `/create` labels a period "Frugal Master" exactly when the share
      `current / total * 100` lies between 85 and 90. A negative total, which
      `/update` can store, flips both comparisons; a zero total never earns
      it. */
  lemma FrugalMasterExact(current: int, total: int)
    ensures total > 0 ==>
              (FrugalMaster(current, total).Some? <==> 85 * total <= 100 * current <= 90 * total)
    ensures total < 0 ==>
              (FrugalMaster(current, total).Some? <==> 90 * total <= 100 * current <= 85 * total)
    ensures total == 0 ==> FrugalMaster(current, total).None?
  {
  }

  /** Each tier is the band its threshold names. Over a negative total the
      comparisons flip, and the zero total is `TierZeroTotal`. */
  lemma TierBands(current: int, total: int)
    ensures total > 0 ==>
              && (Tier(current, total) == Gold <==> 100 * current >= 30 * total)
              && (Tier(current, total) == Silver <==> 15 * total <= 100 * current < 30 * total)
              && (Tier(current, total) == Bronze <==> 5 * total <= 100 * current < 15 * total)
              && (Tier(current, total) == Finisher <==> 100 * current < 5 * total)
    ensures total < 0 ==>
              && (Tier(current, total) == Gold <==> 100 * current <= 30 * total)
              && (Tier(current, total) == Silver <==> 30 * total < 100 * current <= 15 * total)
              && (Tier(current, total) == Bronze <==> 15 * total < 100 * current <= 5 * total)
              && (Tier(current, total) == Finisher <==> 100 * current > 5 * total)
  {
  }

  /** The tier never drops when the remaining share grows: if
      `c1 / t1 <= c2 / t2` for positive totals, the second tier ranks at
      least as high. */
  lemma TierMonotone(c1: int, t1: int, c2: int, t2: int)
    requires t1 > 0 && t2 > 0
    requires c1 * t2 <= c2 * t1
    ensures Rank(Tier(c1, t1)) <= Rank(Tier(c2, t2))
  {
    forall p | p in {30, 15, 5} && PercentAtLeast(c1, t1, p) ensures PercentAtLeast(c2, t2, p) {
      ShareAbove(c1, t1, c2, t2, p);
    }
  }

  lemma ShareAbove(c1: int, t1: int, c2: int, t2: int, p: int)
    requires t1 > 0 && t2 > 0 && c1 * t2 <= c2 * t1
    requires 100 * c1 >= p * t1
    ensures 100 * c2 >= p * t2
  {
    assert 100 * c1 * t2 >= p * t1 * t2 by {
      MulRight(100 * c1, p * t1, t2);
    }
    assert 100 * c1 * t2 <= 100 * c2 * t1 by {
      MulRight(c2 * t1, c1 * t2, 100);
    }
    assert (100 * c2) * t1 >= (p * t2) * t1;
    if 100 * c2 < p * t2 {
      MulRightStrict(100 * c2, p * t2, t1);
      assert false;
    }
  }

  lemma MulRight(a: int, b: int, c: int)
    requires a >= b && c >= 0
    ensures a * c >= b * c
  {
    assert a * c - b * c == (a - b) * c;
  }

  lemma MulRightStrict(a: int, b: int, c: int)
    requires a < b && c > 0
    ensures a * c < b * c
  {
    assert b * c - a * c == (b - a) * c;
  }

  /** A zero total leaves `NaN` or `-Infinity` unless something is left:
      any positive remainder over a zero total is `Infinity`, hence Gold. */
  lemma TierZeroTotal(current: int)
    ensures Tier(current, 0) == (if current > 0 then Gold else Finisher)
  {
  }

  lemma {:induction false} ExpenseTxsTotal(es: seq<Expense>)
    ensures TxTotal(ExpenseTxs(es)) == Spent(es)
  {
    if es != [] {
      ExpenseTxsTotal(es[1..]);
      assert ExpenseTxs(es)[1..] == ExpenseTxs(es[1..]);
    }
  }

  lemma {:induction false} DueTxsTotal(s: Subscription, ds: seq<CalDate>)
    ensures TxTotal(DueTxs(s, ds)) == s.amount * |ds|
  {
    if ds != [] {
      DueTxsTotal(s, ds[1..]);
      assert DueTxs(s, ds)[1..] == DueTxs(s, ds[1..]);
      assert s.amount * |ds| == s.amount + s.amount * |ds[1..]|;
    }
  }

  lemma {:induction false} SubTxsTotal(subs: seq<Subscription>, start: CalDate, end: CalDate)
    ensures TxTotal(SubTxs(subs, start, end)) == ProjectedTotal(subs, start, end, None)
  {
    if subs != [] {
      var here := DueTxs(subs[0], ProjectAsWritten(subs[0], start, end, None));
      SubTxsTotal(subs[1..], start, end);
      DueTxsTotal(subs[0], ProjectAsWritten(subs[0], start, end, None));
      SumConcat(here, SubTxs(subs[1..], start, end), (t: ArchivedTx) => t.amount);
    }
  }

  /** One subscription's payments are exactly its due days. */
  lemma DueTxsMembers(s: Subscription, ds: seq<CalDate>, t: ArchivedTx)
    ensures t in DueTxs(s, ds) <==> exists d :: d in ds && t == SubTx(s, d)
  {
    if t in DueTxs(s, ds) {
      var i :| 0 <= i < |ds| && DueTxs(s, ds)[i] == t;
      assert ds[i] in ds;
    }
  }

  /** Every archived payment comes from a due day of a subscription. */
  lemma {:induction false} SubTxsSound(subs: seq<Subscription>, start: CalDate, end: CalDate, t: ArchivedTx)
    requires t in SubTxs(subs, start, end)
    ensures exists s, d :: s in subs && d in ProjectAsWritten(s, start, end, None) && t == SubTx(s, d)
  {
    var s, rest := subs[0], subs[1..];
    var ds := ProjectAsWritten(s, start, end, None);
    DueTxsMembers(s, ds, t);
    if t in DueTxs(s, ds) {
      var d :| d in ds && t == SubTx(s, d);
      assert s in subs;
    } else {
      SubTxsSound(rest, start, end, t);
      var x, d :| x in rest && d in ProjectAsWritten(x, start, end, None) && t == SubTx(x, d);
      assert x in subs;
    }
  }

  /** Every due day of a subscription is archived. */
  lemma {:induction false} SubTxsComplete(subs: seq<Subscription>, start: CalDate, end: CalDate,
                                          s: Subscription, d: CalDate)
    requires s in subs && d in ProjectAsWritten(s, start, end, None)
    ensures SubTx(s, d) in SubTxs(subs, start, end)
  {
    var ds := ProjectAsWritten(subs[0], start, end, None);
    if s == subs[0] {
      DueTxsMembers(s, ds, SubTx(s, d));
    } else {
      SubTxsComplete(subs[1..], start, end, s, d);
    }
  }

  /** The archived payments are exactly the window's due days, without cutoff. */
  lemma {:induction false} SubTxsMembers(subs: seq<Subscription>, start: CalDate, end: CalDate, t: ArchivedTx)
    ensures t in SubTxs(subs, start, end) <==>
            exists s, d :: s in subs && d in ProjectAsWritten(s, start, end, None) && t == SubTx(s, d)
  {
    if t in SubTxs(subs, start, end) {
      SubTxsSound(subs, start, end, t);
    }
    if exists s, d :: s in subs && d in ProjectAsWritten(s, start, end, None) && t == SubTx(s, d) {
      var s, d :| s in subs && d in ProjectAsWritten(s, start, end, None) && t == SubTx(s, d);
      SubTxsComplete(subs, start, end, s, d);
    }
  }

  /** The snapshot copies the closing budget's figures, keeps every one of
      the user's expenses, whatever its date, holds a payment exactly for
      each due day of the closing window, and its transactions add up to
      the user's spend plus the window's projected payments. */
  lemma SnapshotContents(es: seq<Expense>, subs: seq<Subscription>, u: UserId, b: Budget,
                         achievement: Option<string>, t: ArchivedTx)
    ensures var h := Snapshot(es, subs, u, b, achievement);
            h.user == u && h.totalAmount == b.totalAmount && h.remainingAmount == b.currentAmount
            && h.startDate == b.startDate && h.endDate == b.endDate && h.achievement == achievement
    ensures forall e :: e in es && e.user == u ==> ToTx(e) in Snapshot(es, subs, u, b, achievement).expenses
    ensures t in Snapshot(es, subs, u, b, achievement).expenses <==>
              (exists e :: e in es && e.user == u && t == ToTx(e))
              || (exists s, d :: s in subs && s.user == u && d in ProjectAsWritten(s, b.startDate, b.endDate, None)
                                 && t == SubTx(s, d))
    ensures TxTotal(Snapshot(es, subs, u, b, achievement).expenses)
            == Spent(UserExpenses(es, u)) + ProjectedTotal(UserSubs(subs, u), b.startDate, b.endDate, None)
  {
    var mine := UserExpenses(es, u);
    var booked := ExpenseTxs(mine);
    var due := SubTxs(UserSubs(subs, u), b.startDate, b.endDate);
    ExpenseTxsTotal(mine);
    SubTxsTotal(UserSubs(subs, u), b.startDate, b.endDate);
    SumConcat(booked, due, (x: ArchivedTx) => x.amount);
    SubTxsMembers(UserSubs(subs, u), b.startDate, b.endDate, t);
    forall e | e in es && e.user == u ensures ToTx(e) in booked + due {
      var i :| 0 <= i < |mine| && mine[i] == e;
      assert booked[i] == ToTx(e);
    }
    if t in booked {
      var i :| 0 <= i < |booked| && booked[i] == t;
      assert mine[i] in mine;
    }
  }

  /** Every archived subscription payment is for a day the subscription was
      actually due in the closing window. */
  lemma SubTxsWithinIntended(subs: seq<Subscription>, start: CalDate, end: CalDate, t: ArchivedTx)
    requires t in SubTxs(subs, start, end)
    ensures exists s, d :: s in subs && d in Occurrences(s, start, end, None) && t == SubTx(s, d)
  {
    SubTxsSound(subs, start, end, t);
    var s, d :| s in subs && d in ProjectAsWritten(s, start, end, None) && t == SubTx(s, d);
    AsWrittenWithinCorrected(s, start, end, None, d);
  }

  /** With non-negative amounts a history record's transactions never add up
      to more than the user's spend plus every payment due in the window. */
  lemma SnapshotWithinIntended(es: seq<Expense>, subs: seq<Subscription>, u: UserId, b: Budget,
                               achievement: Option<string>)
    requires forall s :: s in subs ==> s.amount >= 0
    ensures TxTotal(Snapshot(es, subs, u, b, achievement).expenses)
            <= Spent(UserExpenses(es, u)) + IntendedTotal(UserSubs(subs, u), b.startDate, b.endDate, None)
  {
    var mine := UserExpenses(es, u);
    var due := SubTxs(UserSubs(subs, u), b.startDate, b.endDate);
    ExpenseTxsTotal(mine);
    SubTxsTotal(UserSubs(subs, u), b.startDate, b.endDate);
    SumConcat(ExpenseTxs(mine), due, (x: ArchivedTx) => x.amount);
    ProjectedTotalWithinIntended(UserSubs(subs, u), b.startDate, b.endDate, None);
  }
}

=== FILE: budgets.dfy ===
/** The budget-period handlers of the serverless `budget` function:
    `/create` and `/update` close the live period (history record first,
    then the resets), `/fetch` reports the balance net of the subscription
    payments due so far, `/history` lists the closed periods newest first.

    A handler's effect on the store is written as the list of writes it
    issues, in order, so that "archive before reset" is a statement about
    that list.
 */
module BudgetService {
  import opened Common
  import opened Calendar
  import opened Entities
  import opened Projector
  import opened Seqs
  import opened Ledger
  import opened Store
  import opened Archive
  import opened MergedLedger

  datatype Write =
    | SaveHistory(history: History)   // `new BudgetHistory(...).save()`
    | DeleteBudget(owner: UserId)     // `Budget.deleteOne({ _id: existingBudget._id })`
    | DeleteExpenses(owner: UserId)   // `Expense.deleteMany({ user })`
    | InsertBudget(budget: Budget)    // `new Budget(...).save()`
    | SaveBudget(budget: Budget)      // `existingBudget.save()`

  function ApplyWrite(st: Store, w: Write): Store {
    match w
    case SaveHistory(h) => st.(histories := st.histories + [h])
    case DeleteBudget(u) =>
      (match BudgetIndex(st, u)
       case None => st
       case Some(i) => st.(budgets := RemoveAt(st.budgets, i)))
    case DeleteExpenses(u) => st.(expenses := DropExpensesOf(st.expenses, u))
    case InsertBudget(b) => st.(budgets := st.budgets + [b])
    case SaveBudget(b) =>
      (match BudgetIndex(st, b.user)
       case None => st
       case Some(i) => SetBudget(st, i, b))
  }

  /** The writes, issued in order. */
  function Apply(st: Store, ws: seq<Write>): Store
    decreases |ws|
  {
    if ws == [] then st else Apply(ApplyWrite(st, ws[0]), ws[1..])
  }

  /** Every user has at most one budget: what `/create`'s delete-then-insert
      maintains. */
  predicate OneBudgetEach(st: Store) {
    DistinctOwners(st.budgets)
  }

  predicate DistinctOwners(bs: seq<Budget>) {
    forall i, j :: 0 <= i < j < |bs| ==> bs[i].user != bs[j].user
  }

  /** Appending a budget for a user who had none keeps owners distinct,
      and `findOne` then finds the appended budget. */
  lemma AppendOwner(kept: seq<Budget>, nb: Budget)
    requires DistinctOwners(kept) && forall b :: b in kept ==> b.user != nb.user
    ensures DistinctOwners(kept + [nb])
    ensures FirstIndex(kept + [nb], (b: Budget) => b.user == nb.user) == Some(|kept|)
  {
    var all := kept + [nb];
    forall j | 0 <= j < |kept| ensures all[j].user != nb.user {
      assert all[j] == kept[j] && kept[j] in kept;
    }
    FirstIndexAt(all, (b: Budget) => b.user == nb.user, |kept|);
  }

  /** Removing the user's budget leaves distinct owners, none of them the user. */
  lemma RemoveOwner(bs: seq<Budget>, i: nat, u: UserId)
    requires DistinctOwners(bs) && i < |bs| && bs[i].user == u
    ensures DistinctOwners(RemoveAt(bs, i))
    ensures forall b :: b in RemoveAt(bs, i) ==> b.user != u
  {
    var kept := RemoveAt(bs, i);
    forall j | 0 <= j < |kept| ensures kept[j].user != u {
      if j < i { assert kept[j] == bs[j]; }
      else { assert kept[j] == bs[j + 1]; }
    }
    forall a, c | 0 <= a < c < |kept| ensures kept[a].user != kept[c].user {
      var a' := if a < i then a else a + 1;
      var c' := if c < i then c else c + 1;
      assert kept[a] == bs[a'] && kept[c] == bs[c'];
    }
  }

  // ---------------------------------------------------------------------
  // POST /create

  /** The writes `/create` issues once the user is found. */
  function CreateWrites(st: Store, u: UserId, total: int, start: CalDate, end: CalDate): seq<Write>
  {
    var nb := Budget(u, total, total, start, end);
    match FindBudget(st, u)
    case None => [InsertBudget(nb)]
    case Some(prev) =>
      [SaveHistory(Snapshot(st.expenses, st.subscriptions, u, prev, FrugalMaster(prev.currentAmount, prev.totalAmount))),
       DeleteBudget(u), DeleteExpenses(u), InsertBudget(nb)]
  }

  /** `POST /create`. The body's `currentAmount` is accepted and ignored. */
  function Create(st: Store, u: UserId, total: int, bodyCurrent: Option<int>,
                  start: CalDate, end: CalDate): (r: (Reply<Budget>, Store))
    ensures r.0.Fail? <==> FindUser(st, u).None?
    ensures r.0.Fail? ==> r.0.status == NotFound && r.1 == st
    ensures r.0.Done? ==> r.0.value.user == u && r.0.value.totalAmount == total
                          && r.0.value.currentAmount == total
                          && r.0.value.startDate == start && r.0.value.endDate == end
  {
    if FindUser(st, u).None? then (Fail(NotFound), st)
    else (Done(Budget(u, total, total, start, end)), Apply(st, CreateWrites(st, u, total, start, end)))
  }

  // ---------------------------------------------------------------------
  // PUT /update/:id

  /** The overrides `/update` applies: a truthy total resets both the total
      and the balance; each date is replaced only when it is supplied. */
  function Overridden(b: Budget, total: Option<BodyFigure>, start: Option<CalDate>, end: Option<CalDate>): (r: Budget)
    ensures r.user == b.user
    ensures Truthy(total) ==> r.totalAmount == total.value.n && r.currentAmount == total.value.n
    ensures !Truthy(total) ==> r.totalAmount == b.totalAmount && r.currentAmount == b.currentAmount
    ensures r.startDate == start.GetOr(b.startDate) && r.endDate == end.GetOr(b.endDate)
  {
    var b1 := if Truthy(total) then b.(totalAmount := total.value.n, currentAmount := total.value.n) else b;
    var b2 := if start.Some? then b1.(startDate := start.value) else b1;
    if end.Some? then b2.(endDate := end.value) else b2
  }

  /** The writes `/update` issues for the live budget `b` of user `u`. */
  function UpdateWrites(st: Store, u: UserId, b: Budget, total: Option<BodyFigure>,
                        start: Option<CalDate>, end: Option<CalDate>): seq<Write>
  {
    [SaveHistory(Snapshot(st.expenses, st.subscriptions, u, b, Some(Tier(b.currentAmount, b.totalAmount)))),
     DeleteExpenses(u),
     SaveBudget(Overridden(b, total, start, end))]
  }

  /** `PUT /update/:id`, where `id` is the user. */
  function Update(st: Store, u: UserId, total: Option<BodyFigure>, start: Option<CalDate>,
                  end: Option<CalDate>): (r: (Reply<Budget>, Store))
    ensures r.0.Fail? <==> FindBudget(st, u).None?
    ensures r.0.Fail? ==> r.0.status == NotFound && r.1 == st
  {
    match FindBudget(st, u)
    case None => (Fail(NotFound), st)
    case Some(b) =>
      (Done(Overridden(b, total, start, end)), Apply(st, UpdateWrites(st, u, b, total, start, end)))
  }

  // ---------------------------------------------------------------------
  // GET /fetch/:userId and GET /history/:userId

  datatype BudgetSummary = BudgetSummary(totalAmount: int, currentAmount: int,
                                         startDate: CalDate, endDate: CalDate)

  /** `Math.max(0, currentAmount - subscriptionTotal)`, where the total counts
      the payments due up to `today`. */
  function DisplayBalance(st: Store, b: Budget, today: CalDate): int
  {
    Max(0, b.currentAmount - ProjectedTotal(UserSubs(st.subscriptions, b.user), b.startDate, b.endDate, Some(today)))
  }

  /** `GET /fetch/:userId`: a read, so the store is not part of the result. */
  function Fetch(st: Store, u: UserId, today: CalDate): (r: Reply<BudgetSummary>)
    ensures r.Fail? <==> FindBudget(st, u).None?
    ensures r.Fail? ==> r.status == NotFound
    ensures r.Done? ==> r.value.currentAmount >= 0
    ensures r.Done? ==> r.value.totalAmount == FindBudget(st, u).value.totalAmount
  {
    match FindBudget(st, u)
    case None => Fail(NotFound)
    case Some(b) => Done(BudgetSummary(b.totalAmount, DisplayBalance(st, b, today), b.startDate, b.endDate))
  }

  /** `BudgetHistory.find({ user }).sort({ archivedDate: -1 })`: histories are
      appended as they are archived, so newest first is the reverse of the
      store's order. */
  function HistoryOf(st: Store, u: UserId): (r: seq<History>)
    ensures forall h :: h in r <==> h in st.histories && h.user == u
  {
    var mine := Filter(st.histories, (h: History) => h.user == u);
    ReverseMembers(mine);
    Reverse(mine)
  }

  function Reverse<T>(xs: seq<T>): (r: seq<T>)
    ensures |r| == |xs|
    ensures forall i :: 0 <= i < |xs| ==> r[i] == xs[|xs| - 1 - i]
  {
    seq(|xs|, i requires 0 <= i < |xs| => xs[|xs| - 1 - i])
  }

  lemma ReverseMembers<T>(xs: seq<T>)
    ensures forall x :: x in Reverse(xs) <==> x in xs
  {
    var r := Reverse(xs);
    forall x | x in xs ensures x in r {
      var i :| 0 <= i < |xs| && xs[i] == x;
      assert r[|xs| - 1 - i] == x;
    }
  }

  // ---------------------------------------------------------------------
  // Lemmas

  lemma ApplyCons(st: Store, w: Write, ws: seq<Write>)
    ensures Apply(st, [w] + ws) == Apply(ApplyWrite(st, w), ws)
  {
    assert ([w] + ws)[1..] == ws;
  }

  /** Four writes applied one after the other. */
  lemma ApplyFour(st: Store, a: Write, b: Write, c: Write, d: Write)
    ensures Apply(st, [a, b, c, d]) == ApplyWrite(ApplyWrite(ApplyWrite(ApplyWrite(st, a), b), c), d)
  {
    var s1 := ApplyWrite(st, a);
    var s2 := ApplyWrite(s1, b);
    var s3 := ApplyWrite(s2, c);
    ApplyCons(st, a, [b, c, d]);
    ApplyCons(s1, b, [c, d]);
    ApplyCons(s2, c, [d]);
    ApplyCons(s3, d, []);
    assert [a, b, c, d] == [a] + [b, c, d];
    assert [b, c, d] == [b] + [c, d];
    assert [c, d] == [c] + [d];
    assert [d] == [d] + [];
  }

  /** The writes `/create` issues over an existing budget. */
  lemma CreateArchive(st: Store, u: UserId, total: int, bodyCurrent: Option<int>,
                           start: CalDate, end: CalDate)
    requires FindUser(st, u).Some? && FindBudget(st, u).Some?
    ensures var prev := FindBudget(st, u).value;
            var ws := CreateWrites(st, u, total, start, end);
            var h := ws[0].history;
            |ws| == 4 && ws[0].SaveHistory? && ws[1] == DeleteBudget(u) && ws[2] == DeleteExpenses(u)
            && ws[3] == InsertBudget(Budget(u, total, total, start, end))
            && h.user == u && h.totalAmount == prev.totalAmount && h.remainingAmount == prev.currentAmount
            && h.startDate == prev.startDate && h.endDate == prev.endDate
            && h.achievement == FrugalMaster(prev.currentAmount, prev.totalAmount)
            && (forall e :: e in st.expenses && e.user == u ==> ToTx(e) in h.expenses)
  {
    var prev := FindBudget(st, u).value;
    SnapshotContents(st.expenses, st.subscriptions, u, prev, FrugalMaster(prev.currentAmount, prev.totalAmount),
                     ArchivedTx("", "", 0, start, ""));
  }

  /** The store once those writes are applied. */
  lemma CreateApplied(st: Store, u: UserId, total: int, bodyCurrent: Option<int>,
                           start: CalDate, end: CalDate)
    requires FindUser(st, u).Some? && FindBudget(st, u).Some?
    ensures var r := Create(st, u, total, bodyCurrent, start, end).1;
            var h := CreateWrites(st, u, total, start, end)[0].history;
            var i := BudgetIndex(st, u).value;
            r.histories == st.histories + [h]
            && r.budgets == RemoveAt(st.budgets, i) + [Budget(u, total, total, start, end)]
            && (forall e :: e in r.expenses <==> e in st.expenses && e.user != u)
            && r.users == st.users && r.subscriptions == st.subscriptions && r.goals == st.goals
  {
    var prev := FindBudget(st, u).value;
    var nb := Budget(u, total, total, start, end);
    var h := Snapshot(st.expenses, st.subscriptions, u, prev, FrugalMaster(prev.currentAmount, prev.totalAmount));
    assert CreateWrites(st, u, total, start, end) == [SaveHistory(h), DeleteBudget(u), DeleteExpenses(u), InsertBudget(nb)];
    ApplyFour(st, SaveHistory(h), DeleteBudget(u), DeleteExpenses(u), InsertBudget(nb));
    var s1 := ApplyWrite(st, SaveHistory(h));
    assert BudgetIndex(s1, u) == BudgetIndex(st, u) by {
      assert s1.budgets == st.budgets;
    }
  }

  /** `/create` over an existing budget writes the history record first,
      from the store as it was: it copies the prev budget's figures, applies
      the 85%-90% rule, and holds every expense the reset then deletes. Then
      it deletes the prev budget and all the user's expenses, and stores the
      new budget with its balance equal to its total. Nothing else changes. */
  lemma CreateOverExisting(st: Store, u: UserId, total: int, bodyCurrent: Option<int>,
                           start: CalDate, end: CalDate)
    requires FindUser(st, u).Some? && FindBudget(st, u).Some?
    ensures var prev := FindBudget(st, u).value;
            var ws := CreateWrites(st, u, total, start, end);
            var h := ws[0].history;
            |ws| == 4 && ws[0].SaveHistory? && ws[1] == DeleteBudget(u) && ws[2] == DeleteExpenses(u)
            && ws[3] == InsertBudget(Budget(u, total, total, start, end))
            && h.user == u && h.totalAmount == prev.totalAmount && h.remainingAmount == prev.currentAmount
            && h.startDate == prev.startDate && h.endDate == prev.endDate
            && h.achievement == FrugalMaster(prev.currentAmount, prev.totalAmount)
            && (forall e :: e in st.expenses && e.user == u ==> ToTx(e) in h.expenses)
    ensures var r := Create(st, u, total, bodyCurrent, start, end).1;
            var h := CreateWrites(st, u, total, start, end)[0].history;
            var i := BudgetIndex(st, u).value;
            r.histories == st.histories + [h]
            && r.budgets == RemoveAt(st.budgets, i) + [Budget(u, total, total, start, end)]
            && (forall e :: e in r.expenses <==> e in st.expenses && e.user != u)
            && r.users == st.users && r.subscriptions == st.subscriptions && r.goals == st.goals
  {
    CreateArchive(st, u, total, bodyCurrent, start, end);
    CreateApplied(st, u, total, bodyCurrent, start, end);
  }

  /** A user's first `/create` only stores the new budget. */
  lemma CreateFirstBudget(st: Store, u: UserId, total: int, bodyCurrent: Option<int>,
                          start: CalDate, end: CalDate)
    requires FindUser(st, u).Some? && FindBudget(st, u).None?
    ensures var r := Create(st, u, total, bodyCurrent, start, end).1;
            r == st.(budgets := st.budgets + [Budget(u, total, total, start, end)])
  {
    ApplyCons(st, InsertBudget(Budget(u, total, total, start, end)), []);
    assert [InsertBudget(Budget(u, total, total, start, end))] + [] == [InsertBudget(Budget(u, total, total, start, end))];
  }

  /** `/create` keeps one budget per user, and afterwards the user's budget
      is the new one, whatever `currentAmount` the body carried. */
  lemma CreateThenFind(st: Store, u: UserId, total: int, bodyCurrent: Option<int>,
                       start: CalDate, end: CalDate)
    requires OneBudgetEach(st) && FindUser(st, u).Some?
    ensures var r := Create(st, u, total, bodyCurrent, start, end).1;
            OneBudgetEach(r) && FindBudget(r, u) == Some(Budget(u, total, total, start, end))
  {
    var nb := Budget(u, total, total, start, end);
    var r := Create(st, u, total, bodyCurrent, start, end).1;
    var kept: seq<Budget>;
    if FindBudget(st, u).Some? {
      CreateApplied(st, u, total, bodyCurrent, start, end);
      var i := BudgetIndex(st, u).value;
      kept := RemoveAt(st.budgets, i);
      RemoveOwner(st.budgets, i, u);
    } else {
      CreateFirstBudget(st, u, total, bodyCurrent, start, end);
      kept := st.budgets;
    }
    assert r.budgets == kept + [nb];
    AppendOwner(kept, nb);
  }

  /** The store `/update` leaves: one more history record, none of the
      user's expenses, and the live budget overridden in place. */
  lemma UpdateEffect(st: Store, u: UserId, total: Option<BodyFigure>, start: Option<CalDate>, end: Option<CalDate>)
    requires FindBudget(st, u).Some?
    ensures var b := FindBudget(st, u).value;
            var ws := UpdateWrites(st, u, b, total, start, end);
            Update(st, u, total, start, end).1
            == st.(histories := st.histories + [ws[0].history],
                   expenses := DropExpensesOf(st.expenses, u),
                   budgets := st.budgets[BudgetIndex(st, u).value := Overridden(b, total, start, end)])
  {
    var b := FindBudget(st, u).value;
    var i := BudgetIndex(st, u).value;
    var ws := UpdateWrites(st, u, b, total, start, end);
    var s1 := ApplyWrite(st, ws[0]);
    var s2 := ApplyWrite(s1, ws[1]);
    assert s2.budgets == st.budgets;
    assert BudgetIndex(s2, u) == Some(i);
    ApplyCons(st, ws[0], ws[1..]);
    ApplyCons(s1, ws[1], ws[2..]);
    ApplyCons(s2, ws[2], []);
    assert ws[1..] == [ws[1]] + ws[2..];
    assert ws[2..] == [ws[2]] + [];
  }

  /** A record just appended for its user is the first `/history` lists. */
  lemma HistoryOfAppended(st: Store, h: History)
    ensures var l := HistoryOf(st.(histories := st.histories + [h]), h.user);
            |l| > 0 && l[0] == h
  {
    var mine := Filter(st.histories + [h], (x: History) => x.user == h.user);
    FilterAppend(st.histories, h, (x: History) => x.user == h.user);
    assert mine[|mine| - 1] == h;
  }

  /** A budget overridden in place, owner unchanged, is what `findOne` finds next. */
  lemma OverrideInPlace(st: Store, u: UserId, nb: Budget)
    requires BudgetIndex(st, u).Some? && nb.user == u
    ensures FindBudget(st.(budgets := st.budgets[BudgetIndex(st, u).value := nb]), u) == Some(nb)
  {
    var i := BudgetIndex(st, u).value;
    var bs := st.budgets[i := nb];
    forall j | 0 <= j < i ensures bs[j].user != u {
      assert bs[j] == st.budgets[j];
    }
    FirstIndexAt(bs, (x: Budget) => x.user == u, i);
  }

  /** The history record `/update` writes. */
  lemma UpdateRecord(st: Store, u: UserId, total: Option<BodyFigure>, start: Option<CalDate>, end: Option<CalDate>)
    requires FindBudget(st, u).Some?
    ensures var b := FindBudget(st, u).value;
            var h := UpdateWrites(st, u, b, total, start, end)[0].history;
            h.user == u && h.totalAmount == b.totalAmount && h.remainingAmount == b.currentAmount
            && h.startDate == b.startDate && h.endDate == b.endDate
            && h.achievement == Some(Tier(b.currentAmount, b.totalAmount))
            && (forall e :: e in st.expenses && e.user == u ==> ToTx(e) in h.expenses)
  {
    var b := FindBudget(st, u).value;
    SnapshotContents(st.expenses, st.subscriptions, u, b, Some(Tier(b.currentAmount, b.totalAmount)),
                     ArchivedTx("", "", 0, b.startDate, ""));
  }

  /** `/update` archives the live budget with the tier table, clears the
      user's expenses, and then the user's budget is the overridden one;
      the history record holds every expense the reset deletes and is the
      first one `/history` lists. */
  lemma UpdateArchives(st: Store, u: UserId, total: Option<BodyFigure>, start: Option<CalDate>, end: Option<CalDate>)
    requires FindBudget(st, u).Some?
    ensures var b := FindBudget(st, u).value;
            var r := Update(st, u, total, start, end);
            var h := UpdateWrites(st, u, b, total, start, end)[0].history;
            h.user == u && h.totalAmount == b.totalAmount && h.remainingAmount == b.currentAmount
            && h.startDate == b.startDate && h.endDate == b.endDate
            && h.achievement == Some(Tier(b.currentAmount, b.totalAmount))
            && (forall e :: e in st.expenses && e.user == u ==> ToTx(e) in h.expenses)
            && r.1.histories == st.histories + [h]
            && (forall e :: e in r.1.expenses <==> e in st.expenses && e.user != u)
            && FindBudget(r.1, u) == Some(r.0.value)
            && |r.1.budgets| == |st.budgets|
            && r.1.users == st.users && r.1.subscriptions == st.subscriptions && r.1.goals == st.goals
            && HistoryOf(r.1, u)[0] == h
  {
    var b := FindBudget(st, u).value;
    var i := BudgetIndex(st, u).value;
    var h := UpdateWrites(st, u, b, total, start, end)[0].history;
    var r := Update(st, u, total, start, end).1;
    UpdateRecord(st, u, total, start, end);
    UpdateEffect(st, u, total, start, end);
    OverrideInPlace(st, u, Overridden(b, total, start, end));
    HistoryOfAppended(st.(expenses := DropExpensesOf(st.expenses, u),
                          budgets := st.budgets[i := Overridden(b, total, start, end)]), h);
  }

  /** An `/update` with no fields supplied closes the period and leaves the
      budget as it was. */
  lemma UpdateWithNoFields(st: Store, u: UserId)
    requires FindBudget(st, u).Some?
    ensures Update(st, u, None, None, None).0 == Done(FindBudget(st, u).value)
    ensures FindBudget(Update(st, u, None, None, None).1, u) == FindBudget(st, u)
  {
    UpdateArchives(st, u, None, None, None);
  }

  /** Applying the same overrides twice is applying them once. */
  lemma OverriddenIdempotent(b: Budget, total: Option<BodyFigure>, start: Option<CalDate>, end: Option<CalDate>)
    ensures Overridden(Overridden(b, total, start, end), total, start, end) == Overridden(b, total, start, end)
  {
  }

  /** A 0 typed into the budget form arrives as the text "0", which is truthy:
      the total and the balance are both reset to 0. The number 0 is falsy
      and leaves the figures as they were. */
  lemma TypedZeroResets(b: Budget)
    ensures Overridden(b, Some(FormText("0", 0)), None, None) == b.(totalAmount := 0, currentAmount := 0)
    ensures Overridden(b, Some(JsonNumber(0)), None, None) == b
  {
  }

  /** The balance `/fetch` shows is the stored balance less the subscription
      rows `/all` lists, floored at zero; when the stored balance and every
      subscription amount are non-negative it lies between 0 and the stored
      balance. */
  lemma FetchBalance(st: Store, u: UserId, today: CalDate)
    requires FindBudget(st, u).Some?
    ensures var b := FindBudget(st, u).value;
            Fetch(st, u, today).value.currentAmount
            == Max(0, b.currentAmount - RowTotal(SubRows(UserSubs(st.subscriptions, u), b.startDate, b.endDate, today)))
    ensures var b := FindBudget(st, u).value;
            b.currentAmount >= 0 && (forall s :: s in st.subscriptions ==> s.amount >= 0) ==>
              0 <= Fetch(st, u, today).value.currentAmount <= b.currentAmount
  {
    var b := FindBudget(st, u).value;
    var subs := UserSubs(st.subscriptions, u);
    SubRowsTotal(subs, b.startDate, b.endDate, today);
    if b.currentAmount >= 0 && (forall s :: s in st.subscriptions ==> s.amount >= 0) {
      ProjectedTotalNonNegative(subs, b.startDate, b.endDate, Some(today));
    }
  }

  /** The loop as written only leaves payments out, so with non-negative
      amounts `/fetch` never shows less than the stored balance less every
      payment actually due up to `today`. */
  lemma FetchBalanceWithinIntended(st: Store, u: UserId, today: CalDate)
    requires FindBudget(st, u).Some?
    requires forall s :: s in st.subscriptions ==> s.amount >= 0
    ensures var b := FindBudget(st, u).value;
            Fetch(st, u, today).value.currentAmount
            >= b.currentAmount - IntendedTotal(UserSubs(st.subscriptions, u), b.startDate, b.endDate, Some(today))
  {
    var b := FindBudget(st, u).value;
    assert Fetch(st, u, today).value.currentAmount == DisplayBalance(st, b, today);
    DisplayWithinIntended(st, b, today);
  }

  lemma DisplayWithinIntended(st: Store, b: Budget, today: CalDate)
    requires forall s :: s in st.subscriptions ==> s.amount >= 0
    ensures DisplayBalance(st, b, today)
            >= b.currentAmount - IntendedTotal(UserSubs(st.subscriptions, b.user), b.startDate, b.endDate, Some(today))
  {
    var subs := UserSubs(st.subscriptions, b.user);
    ProjectedTotalWithinIntended(subs, b.startDate, b.endDate, Some(today));
  }

  /** A budget of 1000 from 31 January to 2 March 2024 and a monthly
      payment of 100 due on the 15th: on 10 March `/fetch` still shows 1000,
      although 15 February has passed; the intended projection deducts 100. */
  lemma FetchMissesShortFebruary()
    ensures var sub := Subscription(1, 1, "Gym", 100, Monthly, "", Day(2024, 0, 15));
            var b := Budget(1, 1000, 1000, Day(2024, 0, 31), Day(2024, 2, 2));
            var st := Store([User(1, "a@b.co")], [b], [], [sub], [], [], 2);
            && Fetch(st, 1, Day(2024, 2, 10)) == Done(BudgetSummary(1000, 1000, b.startDate, b.endDate))
            && IntendedTotal([sub], b.startDate, b.endDate, Some(Day(2024, 2, 10))) == 100
  {
    var sub := Subscription(1, 1, "Gym", 100, Monthly, "", Day(2024, 0, 15));
    var b := Budget(1, 1000, 1000, Day(2024, 0, 31), Day(2024, 2, 2));
    var st := Store([User(1, "a@b.co")], [b], [], [sub], [], [], 2);
    AsWrittenMissesShortFebruary();
    assert BudgetIndex(st, 1) == Some(0);
    assert UserSubs(st.subscriptions, 1) == [sub];
    assert ProjectedTotal([sub], b.startDate, b.endDate, Some(Day(2024, 2, 10))) == 0;
  }
}

=== FILE: calendar.dfy ===
/** Calendar days as the JavaScript `Date` object sees them, at day granularity.

    Months are numbered 0..11 as `getMonth()` returns them and days 1..31 as
    `getDate()` returns them. Two pieces of `Date` behaviour matter to the
    subscription projector and are modelled exactly:
    - `new Date(y, m, d)` with a day past the end of month `m` rolls the
      surplus into the following month (31 April is 1 May);
    - `setMonth(getMonth() + 1)` keeps the day of month and then rolls in the
      same way, so from 31 January it lands in March.
 */
module Calendar {

  /** A year, a month 0..11 and a day of month, not necessarily a real day. */
  datatype Day = Day(year: int, month: int, day: int)

  /** Proleptic Gregorian leap years, as `Date` uses them. */
  predicate IsLeap(y: int) {
    y % 4 == 0 && (y % 100 != 0 || y % 400 == 0)
  }

  function DaysIn(y: int, m: int): (n: int)
    requires 0 <= m < 12
    ensures 28 <= n <= 31
  {
    if m == 1 then (if IsLeap(y) then 29 else 28)
    else if m == 3 || m == 5 || m == 8 || m == 10 then 30
    else 31
  }

  /** A real calendar day. */
  predicate Valid(d: Day) {
    0 <= d.month < 12 && 1 <= d.day <= DaysIn(d.year, d.month)
  }

  /** What a `Date` object holds at day granularity: always a real day, since
      `Date` normalises every day number it is given. */
  type CalDate = d: Day | Valid(d) witness Day(1970, 0, 1)

  /** Consecutive numbering of calendar months: January of year 0 is 0. */
  function MonthIndex(d: Day): int {
    d.year * 12 + d.month
  }

  /** An integer that orders valid days chronologically; comparing `Date`
      objects at day granularity is comparing keys. */
  function Key(d: Day): int {
    d.year * 372 + d.month * 31 + d.day
  }

  predicate OnOrBefore(a: CalDate, b: CalDate) {
    Key(a) <= Key(b)
  }

  /** `new Date(y, m, d)` for a month 0..11 and a day 1..31, the only
      arguments the projector passes. */
  function MakeDate(y: int, m: int, d: int): (r: CalDate)
    requires 0 <= m < 12 && 1 <= d <= 31
    ensures d <= DaysIn(y, m) ==> r == Day(y, m, d)
    ensures d > DaysIn(y, m) ==>
              MonthIndex(r) == y * 12 + m + 1 && r.day == d - DaysIn(y, m) && r.day <= 3
  {
    if d <= DaysIn(y, m) then Day(y, m, d)
    else Day(y + (m + 1) / 12, (m + 1) % 12, d - DaysIn(y, m))
  }

  /** `temp.setMonth(temp.getMonth() + 1)`. */
  function AddMonth(t: CalDate): (r: CalDate)
    ensures MonthIndex(t) + 1 <= MonthIndex(r) <= MonthIndex(t) + 2
  {
    MakeDate(t.year + (t.month + 1) / 12, (t.month + 1) % 12, t.day)
  }

  /** Keys order valid days month by month: a later month always has a larger key. */
  lemma KeyMonthOrder(a: Day, b: Day)
    requires 1 <= a.day <= 31 && 1 <= b.day <= 31
    ensures Key(a) == MonthIndex(a) * 31 + a.day
    ensures MonthIndex(a) < MonthIndex(b) ==> Key(a) < Key(b)
    ensures Key(a) <= Key(b) ==> MonthIndex(a) <= MonthIndex(b)
  {
  }

  /** Two valid days with the same key are the same day. */
  lemma KeyInjective(a: CalDate, b: CalDate)
    requires Key(a) == Key(b)
    ensures a == b
  {
    KeyMonthOrder(a, b);
    KeyMonthOrder(b, a);
  }

  /** The calendar month with index `k`, as `(year, month)`. */
  lemma MonthOfIndex(k: int)
    ensures 0 <= k % 12 < 12
    ensures (k / 12) * 12 + k % 12 == k
  {
  }
}

=== FILE: categories.dfy ===
/** The per-category sums of `/category-percentage`: every amount is added
    onto its category (`if (!acc[c]) acc[c] = 0; acc[c] += amount`), a
    category appearing for the first time is appended, and each category's
    share of the grand total is reported as an exact ratio (the `toFixed(2)`
    rounding is not modelled).
 */
module CategoryTotals {
  import opened Common
  import opened Calendar
  import opened Entities
  import opened Projector
  import opened Seqs
  import opened Ledger

  /** One amount attributed to one category. */
  datatype Item = Item(category: string, amount: int)

  datatype CategoryTotal = CategoryTotal(category: string, amount: int)

  /** A rational `num / den`; a zero `den` stands for JavaScript's
      `Infinity` or `NaN`. */
  datatype Ratio = Ratio(num: int, den: int)

  datatype Share = Share(category: string, amount: int, percent: Ratio)

  predicate DistinctCategories(cs: seq<CategoryTotal>) {
    forall i, j :: 0 <= i < j < |cs| ==> cs[i].category != cs[j].category
  }

  function Names(cs: seq<CategoryTotal>): set<string> {
    set i | 0 <= i < |cs| :: cs[i].category
  }

  /** What the list holds for category `c` (0 when it is absent). */
  function AmountOf(cs: seq<CategoryTotal>, c: string): int {
    if cs == [] then 0
    else (if cs[0].category == c then cs[0].amount else 0) + AmountOf(cs[1..], c)
  }

  function TotalOf(cs: seq<CategoryTotal>): int {
    Sum(cs, (t: CategoryTotal) => t.amount)
  }

  function ItemNames(items: seq<Item>): set<string> {
    set i | 0 <= i < |items| :: items[i].category
  }

  /** The amounts the items attribute to category `c`. */
  function ItemSumFor(items: seq<Item>, c: string): int {
    if items == [] then 0
    else (if items[0].category == c then items[0].amount else 0) + ItemSumFor(items[1..], c)
  }

  function ItemTotal(items: seq<Item>): int {
    Sum(items, (t: Item) => t.amount)
  }

  lemma NamesCons(t: CategoryTotal, cs: seq<CategoryTotal>)
    ensures Names([t] + cs) == {t.category} + Names(cs)
  {
    var l := [t] + cs;
    forall c | c in Names(l) ensures c in {t.category} + Names(cs) {
      var i :| 0 <= i < |l| && l[i].category == c;
      if i > 0 { assert l[i] == cs[i - 1]; }
    }
    forall c | c in Names(cs) ensures c in Names(l) {
      var i :| 0 <= i < |cs| && cs[i].category == c;
      assert l[i + 1] == cs[i];
    }
    assert l[0] == t;
  }

  lemma ItemNamesCons(items: seq<Item>)
    requires items != []
    ensures ItemNames(items) == {items[0].category} + ItemNames(items[1..])
  {
    forall c | c in ItemNames(items) ensures c in {items[0].category} + ItemNames(items[1..]) {
      var i :| 0 <= i < |items| && items[i].category == c;
      if i > 0 { assert items[i] == items[1..][i - 1]; }
    }
    forall c | c in ItemNames(items[1..]) ensures c in ItemNames(items) {
      var i :| 0 <= i < |items[1..]| && items[1..][i].category == c;
      assert items[i + 1] == items[1..][i];
    }
  }

  /** `if (!acc[c]) acc[c] = 0; acc[c] += a`: add onto an existing
      category, or append a new one. */
  function Bump(cs: seq<CategoryTotal>, c: string, a: int): (r: seq<CategoryTotal>)
    ensures |cs| <= |r| <= |cs| + 1
    decreases |cs|
  {
    if cs == [] then [CategoryTotal(c, a)]
    else if cs[0].category == c then [CategoryTotal(c, cs[0].amount + a)] + cs[1..]
    else [cs[0]] + Bump(cs[1..], c, a)
  }

  /** The categories gain exactly the one added onto. */
  lemma {:induction false} BumpNames(cs: seq<CategoryTotal>, c: string, a: int)
    ensures Names(Bump(cs, c, a)) == Names(cs) + {c}
    decreases |cs|
  {
    if cs == [] {
      NamesCons(CategoryTotal(c, a), []);
    } else {
      NamesCons(cs[0], cs[1..]);
      assert [cs[0]] + cs[1..] == cs;
      if cs[0].category == c {
        NamesCons(CategoryTotal(c, cs[0].amount + a), cs[1..]);
      } else {
        BumpNames(cs[1..], c, a);
        NamesCons(cs[0], Bump(cs[1..], c, a));
      }
    }
  }

  lemma DistinctTail(cs: seq<CategoryTotal>)
    requires DistinctCategories(cs) && cs != []
    ensures DistinctCategories(cs[1..])
    ensures cs[0].category !in Names(cs[1..])
  {
    forall i | 0 <= i < |cs[1..]| ensures cs[1..][i].category != cs[0].category {
      assert cs[1..][i] == cs[i + 1];
    }
  }

  lemma DistinctCons(t: CategoryTotal, rest: seq<CategoryTotal>)
    requires DistinctCategories(rest) && t.category !in Names(rest)
    ensures DistinctCategories([t] + rest)
  {
    var l := [t] + rest;
    forall i, j | 0 <= i < j < |l| ensures l[i].category != l[j].category {
      assert l[j] == rest[j - 1];
      if i == 0 {
        assert rest[j - 1].category in Names(rest);
      } else {
        assert l[i] == rest[i - 1];
      }
    }
  }

  /** Adding onto a category never lists a category twice. */
  lemma {:induction false} BumpDistinct(cs: seq<CategoryTotal>, c: string, a: int)
    requires DistinctCategories(cs)
    ensures DistinctCategories(Bump(cs, c, a))
    decreases |cs|
  {
    if cs != [] {
      DistinctTail(cs);
      if cs[0].category == c {
        DistinctCons(CategoryTotal(c, cs[0].amount + a), cs[1..]);
      } else {
        BumpDistinct(cs[1..], c, a);
        BumpNames(cs[1..], c, a);
        DistinctCons(cs[0], Bump(cs[1..], c, a));
      }
    }
  }

  /** Adding onto a category raises it, and the grand total, by exactly the
      amount, and leaves every other category alone. */
  lemma {:induction false} BumpTotals(cs: seq<CategoryTotal>, c: string, a: int, k: string)
    ensures TotalOf(Bump(cs, c, a)) == TotalOf(cs) + a
    ensures AmountOf(Bump(cs, c, a), k) == AmountOf(cs, k) + (if k == c then a else 0)
    decreases |cs|
  {
    var r := Bump(cs, c, a);
    if cs == [] {
      assert r[1..] == [];
    } else if cs[0].category == c {
      assert r[1..] == cs[1..];
    } else {
      BumpTotals(cs[1..], c, a, k);
      assert r[1..] == Bump(cs[1..], c, a);
    }
  }

  /** Folding the items into the category list, left to right. */
  function GroupFrom(acc: seq<CategoryTotal>, items: seq<Item>): (r: seq<CategoryTotal>)
    requires DistinctCategories(acc)
    ensures DistinctCategories(r)
    ensures Names(r) == Names(acc) + ItemNames(items)
    ensures TotalOf(r) == TotalOf(acc) + ItemTotal(items)
    ensures forall k :: AmountOf(r, k) == AmountOf(acc, k) + ItemSumFor(items, k)
    decreases |items|
  {
    if items == [] then acc
    else
      BumpDistinct(acc, items[0].category, items[0].amount);
      var r := GroupFrom(Bump(acc, items[0].category, items[0].amount), items[1..]);
      ItemNamesCons(items);
      BumpNames(acc, items[0].category, items[0].amount);
      BumpTotals(acc, items[0].category, items[0].amount, "");
      assert forall k :: AmountOf(r, k) == AmountOf(acc, k) + ItemSumFor(items, k) by {
        forall k ensures AmountOf(r, k) == AmountOf(acc, k) + ItemSumFor(items, k) {
          BumpTotals(acc, items[0].category, items[0].amount, k);
        }
      }
      r
  }

  /** In a list without repeated categories, a listed category's amount is
      the amount of its one entry. */
  lemma {:induction false} AmountOfDistinct(cs: seq<CategoryTotal>, i: int)
    requires DistinctCategories(cs) && 0 <= i < |cs|
    ensures AmountOf(cs, cs[i].category) == cs[i].amount
  {
    DistinctTail(cs);
    if i == 0 {
      AmountOfAbsent(cs[1..], cs[0].category);
    } else {
      assert cs[1..][i - 1] == cs[i];
      AmountOfDistinct(cs[1..], i - 1);
    }
  }

  lemma {:induction false} AmountOfAbsent(cs: seq<CategoryTotal>, c: string)
    requires c !in Names(cs)
    ensures AmountOf(cs, c) == 0
  {
    if cs != [] {
      assert cs[0].category in Names(cs);
      assert Names(cs[1..]) <= Names(cs) by {
        forall x | x in Names(cs[1..]) ensures x in Names(cs) {
          var i :| 0 <= i < |cs[1..]| && cs[1..][i].category == x;
          assert cs[1..][i] == cs[i + 1];
        }
      }
      AmountOfAbsent(cs[1..], c);
    }
  }

  // ---------------------------------------------------------------------
  // The items of the category view

  function ExpenseItems(es: seq<Expense>): (r: seq<Item>)
    ensures |r| == |es|
    ensures forall i :: 0 <= i < |es| ==> r[i] == Item(es[i].category, es[i].amount)
  {
    seq(|es|, i requires 0 <= i < |es| => Item(es[i].category, es[i].amount))
  }

  /** One item per subscription with at least one payment due up to `today`,
      carrying `amount × count` under `category || 'Subscription'`. */
  function SubscriptionItems(subs: seq<Subscription>, start: CalDate, end: CalDate,
                             today: CalDate): seq<Item>
  {
    if subs == [] then []
    else
      var n := |ProjectAsWritten(subs[0], start, end, Some(today))|;
      (if n > 0 then [Item(SubCategory(subs[0]), subs[0].amount * n)] else [])
      + SubscriptionItems(subs[1..], start, end, today)
  }

  /** What the expenses spend in category `c`. */
  function SpentIn(es: seq<Expense>, c: string): int {
    if es == [] then 0 else (if es[0].category == c then es[0].amount else 0) + SpentIn(es[1..], c)
  }

  /** What the subscriptions filed under category `c` pay up to `today`. */
  function DueFor(subs: seq<Subscription>, start: CalDate, end: CalDate, today: CalDate, c: string): int
  {
    if subs == [] then 0
    else (if SubCategory(subs[0]) == c then subs[0].amount * |ProjectAsWritten(subs[0], start, end, Some(today))| else 0)
         + DueFor(subs[1..], start, end, today, c)
  }

  /** The categories of the subscriptions with a payment due up to `today`. */
  function DueNames(subs: seq<Subscription>, start: CalDate, end: CalDate, today: CalDate): set<string>
  {
    set s | s in subs && |ProjectAsWritten(s, start, end, Some(today))| > 0 :: SubCategory(s)
  }

  function ExpenseNames(es: seq<Expense>): set<string> {
    set e | e in es :: e.category
  }

  /** The items the view folds: the user's expenses (only those inside the
      budget window when there is a budget), then, with a budget, the
      subscriptions' payments due up to `today`. */
  function ViewItems(es: seq<Expense>, subs: seq<Subscription>, u: UserId,
                     budget: Option<Budget>, today: CalDate): seq<Item>
  {
    match budget
    case None => ExpenseItems(UserExpenses(es, u))
    case Some(b) =>
      ExpenseItems(WindowExpenses(es, u, b.startDate, b.endDate))
      + SubscriptionItems(UserSubs(subs, u), b.startDate, b.endDate, today)
  }

  /** `categorySums` of `GET /category-percentage/:user`. */
  function CategorySums(es: seq<Expense>, subs: seq<Subscription>, u: UserId,
                        budget: Option<Budget>, today: CalDate): seq<CategoryTotal>
  {
    GroupFrom([], ViewItems(es, subs, u, budget, today))
  }

  /** `totalAmount > 0 ? (amount / totalAmount) * 100 : 0` for each category. */
  function Shares(cs: seq<CategoryTotal>): (r: seq<Share>)
    ensures |r| == |cs|
    ensures forall i :: 0 <= i < |cs| ==> r[i].category == cs[i].category && r[i].amount == cs[i].amount
  {
    var total := TotalOf(cs);
    seq(|cs|, i requires 0 <= i < |cs| =>
      Share(cs[i].category, cs[i].amount, if total > 0 then Ratio(100 * cs[i].amount, total) else Ratio(0, 1)))
  }

  /** The legacy route's `(amount / totalAmount) * 100`, with no guard on the total. */
  function RawShares(cs: seq<CategoryTotal>, total: int): (r: seq<Share>)
    ensures |r| == |cs|
    ensures forall i :: 0 <= i < |cs| ==> r[i].category == cs[i].category && r[i].amount == cs[i].amount
  {
    seq(|cs|, i requires 0 <= i < |cs| => Share(cs[i].category, cs[i].amount, Ratio(100 * cs[i].amount, total)))
  }

  function PercentNumerators(ss: seq<Share>): int {
    Sum(ss, (s: Share) => s.percent.num)
  }

  /** `GET /category-percentage/:user` of the serverless function. */
  function CategoryView(es: seq<Expense>, subs: seq<Subscription>, u: UserId,
                        budget: Option<Budget>, today: CalDate): seq<Share>
  {
    Shares(CategorySums(es, subs, u, budget, today))
  }

  // ---------------------------------------------------------------------
  // Lemmas connecting the items with their sources

  lemma {:induction false} ItemSumForConcat(a: seq<Item>, b: seq<Item>, k: string)
    ensures ItemSumFor(a + b, k) == ItemSumFor(a, k) + ItemSumFor(b, k)
  {
    if a == [] {
      assert a + b == b;
    } else {
      assert (a + b)[0] == a[0];
      assert (a + b)[1..] == a[1..] + b;
      ItemSumForConcat(a[1..], b, k);
    }
  }

  lemma ItemNamesConcat(a: seq<Item>, b: seq<Item>)
    ensures ItemNames(a + b) == ItemNames(a) + ItemNames(b)
  {
    var l := a + b;
    forall c | c in ItemNames(l) ensures c in ItemNames(a) + ItemNames(b) {
      var i :| 0 <= i < |l| && l[i].category == c;
      if i >= |a| { assert l[i] == b[i - |a|]; }
    }
    forall c | c in ItemNames(a) ensures c in ItemNames(l) {
      var i :| 0 <= i < |a| && a[i].category == c;
      assert l[i] == a[i];
    }
    forall c | c in ItemNames(b) ensures c in ItemNames(l) {
      var i :| 0 <= i < |b| && b[i].category == c;
      assert l[i + |a|] == b[i];
    }
  }

  lemma {:induction false} ExpenseItemsFacts(es: seq<Expense>, k: string)
    ensures ItemTotal(ExpenseItems(es)) == Spent(es)
    ensures ItemSumFor(ExpenseItems(es), k) == SpentIn(es, k)
    ensures ItemNames(ExpenseItems(es)) == ExpenseNames(es)
  {
    var items := ExpenseItems(es);
    if es != [] {
      ExpenseItemsFacts(es[1..], k);
      assert items[1..] == ExpenseItems(es[1..]);
    }
    forall c | c in ExpenseNames(es) ensures c in ItemNames(items) {
      var e :| e in es && e.category == c;
      var i :| 0 <= i < |es| && es[i] == e;
      assert items[i].category == c;
    }
  }

  lemma {:induction false} SubscriptionItemsFacts(subs: seq<Subscription>, start: CalDate,
                                                  end: CalDate, today: CalDate, k: string)
    ensures ItemTotal(SubscriptionItems(subs, start, end, today))
            == ProjectedTotal(subs, start, end, Some(today))
    ensures ItemSumFor(SubscriptionItems(subs, start, end, today), k) == DueFor(subs, start, end, today, k)
    ensures ItemNames(SubscriptionItems(subs, start, end, today)) == DueNames(subs, start, end, today)
  {
    if subs != [] {
      var s := subs[0];
      var n := |ProjectAsWritten(s, start, end, Some(today))|;
      var here := if n > 0 then [Item(SubCategory(s), s.amount * n)] else [];
      var rest := SubscriptionItems(subs[1..], start, end, today);
      SubscriptionItemsFacts(subs[1..], start, end, today, k);
      SumConcat(here, rest, (t: Item) => t.amount);
      ItemSumForConcat(here, rest, k);
      ItemNamesConcat(here, rest);
      assert ItemNames(here) == (if n > 0 then {SubCategory(s)} else {}) by {
        if n > 0 { assert here[0].category == SubCategory(s); }
      }
      assert DueNames(subs, start, end, today)
             == (if n > 0 then {SubCategory(s)} else {}) + DueNames(subs[1..], start, end, today) by {
        assert forall x :: x in subs <==> x == s || x in subs[1..] by {
          assert subs == [s] + subs[1..];
        }
      }
    }
  }

  lemma {:induction false} SumOfShares(ss: seq<Share>, cs: seq<CategoryTotal>)
    requires |ss| == |cs|
    requires forall i :: 0 <= i < |cs| ==> ss[i].percent.num == 100 * cs[i].amount
    ensures PercentNumerators(ss) == 100 * TotalOf(cs)
  {
    if cs != [] {
      SumOfShares(ss[1..], cs[1..]);
      assert 100 * TotalOf(cs) == 100 * cs[0].amount + 100 * TotalOf(cs[1..]);
    }
  }

  lemma {:induction false} ZeroShares(ss: seq<Share>)
    requires forall i :: 0 <= i < |ss| ==> ss[i].percent.num == 0
    ensures PercentNumerators(ss) == 0
  {
    if ss != [] {
      ZeroShares(ss[1..]);
    }
  }

  /** Shares over a positive total all have that total as denominator and
      add up to 100%; over a total that is not positive every share is 0. */
  lemma SharesAddUp(cs: seq<CategoryTotal>)
    ensures TotalOf(cs) > 0 ==>
              (forall i :: 0 <= i < |cs| ==> Shares(cs)[i].percent.den == TotalOf(cs))
              && PercentNumerators(Shares(cs)) == 100 * TotalOf(cs)
    ensures TotalOf(cs) <= 0 ==> forall i :: 0 <= i < |cs| ==> Shares(cs)[i].percent == Ratio(0, 1)
  {
    if TotalOf(cs) > 0 {
      SumOfShares(Shares(cs), cs);
    }
  }

  /** The category view lists each category once: those of the expenses it
      reads and those of the subscriptions with a payment due up to `today`;
      each category holds its expenses plus `amount × count` of its
      subscriptions, so the amounts add up to the spend plus the projected
      payments up to `today`, and the percentages add up to 100 whenever
      that total is positive. */
  lemma CategoryViewContents(es: seq<Expense>, subs: seq<Subscription>, u: UserId,
                             b: Budget, today: CalDate, k: string)
    ensures var cs := CategorySums(es, subs, u, Some(b), today);
            var mine := WindowExpenses(es, u, b.startDate, b.endDate);
            var theirs := UserSubs(subs, u);
            DistinctCategories(cs)
            && Names(cs) == ExpenseNames(mine) + DueNames(theirs, b.startDate, b.endDate, today)
            && AmountOf(cs, k) == SpentIn(mine, k) + DueFor(theirs, b.startDate, b.endDate, today, k)
            && TotalOf(cs) == Spent(mine) + ProjectedTotal(theirs, b.startDate, b.endDate, Some(today))
  {
    var mine := WindowExpenses(es, u, b.startDate, b.endDate);
    var theirs := UserSubs(subs, u);
    var booked := ExpenseItems(mine);
    var due := SubscriptionItems(theirs, b.startDate, b.endDate, today);
    ExpenseItemsFacts(mine, k);
    SubscriptionItemsFacts(theirs, b.startDate, b.endDate, today, k);
    SumConcat(booked, due, (t: Item) => t.amount);
    ItemSumForConcat(booked, due, k);
    ItemNamesConcat(booked, due);
    assert TotalOf([]) == 0;
    assert AmountOf([], k) == 0;
    assert Names([]) == {};
  }

  /** Without a budget the view groups all of the user's expenses and adds
      no subscription payments. */
  lemma CategoryViewWithoutBudget(es: seq<Expense>, subs: seq<Subscription>, u: UserId,
                                  today: CalDate, k: string)
    ensures var cs := CategorySums(es, subs, u, None, today);
            DistinctCategories(cs)
            && Names(cs) == ExpenseNames(UserExpenses(es, u))
            && AmountOf(cs, k) == SpentIn(UserExpenses(es, u), k)
            && TotalOf(cs) == Spent(UserExpenses(es, u))
  {
    ExpenseItemsFacts(UserExpenses(es, u), k);
    assert TotalOf([]) == 0;
    assert AmountOf([], k) == 0;
    assert Names([]) == {};
  }

  /** The loop as written only leaves payments out: with non-negative
      amounts the category sums never add up to more than the window's spend
      plus every payment actually due up to `today`. */
  lemma CategoryViewWithinIntended(es: seq<Expense>, subs: seq<Subscription>, u: UserId,
                                   b: Budget, today: CalDate)
    requires forall s :: s in subs ==> s.amount >= 0
    ensures TotalOf(CategorySums(es, subs, u, Some(b), today))
            <= Spent(WindowExpenses(es, u, b.startDate, b.endDate))
               + IntendedTotal(UserSubs(subs, u), b.startDate, b.endDate, Some(today))
  {
    CategoryViewContents(es, subs, u, b, today, "");
    ProjectedTotalWithinIntended(UserSubs(subs, u), b.startDate, b.endDate, Some(today));
  }
}

=== FILE: common.dfy ===
/** Shared result types for the serverless functions and the legacy routes.

    Every route either answers with a value or rejects with one of the two
    client-error statuses the handlers use: 404 for a missing user, budget,
    expense or goal, and 400 for a request the guards refuse.
 */
module Common {

  /** A value that may be absent: an optional request field, or a lookup miss. */
  datatype Option<+T> = None | Some(value: T) {
    function GetOr(default: T): T {
      match this
      case Some(v) => v
      case None => default
    }
  }

  /** The rejection statuses the routes return. */
  datatype Status = NotFound | BadRequest

  /** What a route answers: a value, or a rejection that (the contracts say)
      leaves every store untouched. */
  datatype Reply<+T> = Done(value: T) | Fail(status: Status)

  /** A figure in a request body: a JSON number, or the text of a form input
      (the budget form sends what was typed) together with the number the
      database casts that text to. */
  datatype BodyFigure = JsonNumber(n: int) | FormText(typed: string, n: int)

  /** JavaScript truthiness of an optional body figure: `undefined`, `null`,
      the number `0` and the empty text are falsy; any other text, "0"
      included, is truthy. */
  predicate Truthy(x: Option<BodyFigure>) {
    x.Some? && match x.value
      case JsonNumber(n) => n != 0
      case FormText(t, _) => t != ""
  }

  function Max(a: int, b: int): int {
    if a >= b then a else b
  }
}

=== FILE: daily.dfy ===
/** The per-day series of `/daily-expenses`: real expenses grouped by day,
    every projected subscription payment added onto its day (no `today`
    cutoff: the full period), the days listed in ascending order.

    The series is kept as a list of `(day, total)` with strictly ascending
    days, which is what `Object.keys(dailyMap).sort()` yields (`YYYY-MM-DD`
    strings sort chronologically).
 */
module DailyTotals {
  import opened Common
  import opened Calendar
  import opened Entities
  import opened Projector
  import opened Seqs
  import opened Ledger

  /** One amount booked on one day: an expense or a projected payment. */
  datatype Entry = Entry(date: CalDate, amount: int)

  datatype DayTotal = DayTotal(date: CalDate, total: int)

  predicate Ascending(ds: seq<DayTotal>) {
    forall i, j :: 0 <= i < j < |ds| ==> Key(ds[i].date) < Key(ds[j].date)
  }

  function DayKeys(ds: seq<DayTotal>): set<int> {
    set i | 0 <= i < |ds| :: Key(ds[i].date)
  }

  /** What the series shows for the day with key `k` (0 when it is absent). */
  function TotalOn(ds: seq<DayTotal>, k: int): int {
    if ds == [] then 0
    else (if Key(ds[0].date) == k then ds[0].total else 0) + TotalOn(ds[1..], k)
  }

  function GrandTotal(ds: seq<DayTotal>): int {
    Sum(ds, (d: DayTotal) => d.total)
  }

  function EntryTotal(es: seq<Entry>): int {
    Sum(es, (e: Entry) => e.amount)
  }

  /** The amounts booked on the day with key `k`. */
  function EntrySumOn(es: seq<Entry>, k: int): int {
    if es == [] then 0
    else (if Key(es[0].date) == k then es[0].amount else 0) + EntrySumOn(es[1..], k)
  }

  function EntryKeys(es: seq<Entry>): set<int> {
    set i | 0 <= i < |es| :: Key(es[i].date)
  }

  lemma DayKeysCons(d: DayTotal, ds: seq<DayTotal>)
    ensures DayKeys([d] + ds) == {Key(d.date)} + DayKeys(ds)
  {
    var l := [d] + ds;
    forall k | k in DayKeys(l) ensures k in {Key(d.date)} + DayKeys(ds) {
      var i :| 0 <= i < |l| && Key(l[i].date) == k;
      if i > 0 { assert l[i] == ds[i - 1]; }
    }
    forall k | k in DayKeys(ds) ensures k in DayKeys(l) {
      var i :| 0 <= i < |ds| && Key(ds[i].date) == k;
      assert l[i + 1] == ds[i];
    }
    assert l[0] == d;
  }

  /** `dailyMap[day] = (dailyMap[day] || 0) + amount`, on the ascending list. */
  function AddOnDay(ds: seq<DayTotal>, d: CalDate, amt: int): (r: seq<DayTotal>)
    ensures |ds| <= |r| <= |ds| + 1
    decreases |ds|
  {
    if ds == [] then [DayTotal(d, amt)]
    else if Key(d) < Key(ds[0].date) then [DayTotal(d, amt)] + ds
    else if Key(d) == Key(ds[0].date) then [DayTotal(ds[0].date, ds[0].total + amt)] + ds[1..]
    else [ds[0]] + AddOnDay(ds[1..], d, amt)
  }

  /** The days of the series gain exactly the day added onto. */
  lemma {:induction false} AddOnDayKeys(ds: seq<DayTotal>, d: CalDate, amt: int)
    ensures DayKeys(AddOnDay(ds, d, amt)) == DayKeys(ds) + {Key(d)}
    decreases |ds|
  {
    if ds == [] {
      DayKeysCons(DayTotal(d, amt), []);
    } else {
      DayKeysCons(ds[0], ds[1..]);
      assert [ds[0]] + ds[1..] == ds;
      if Key(d) < Key(ds[0].date) {
        DayKeysCons(DayTotal(d, amt), ds);
      } else if Key(d) == Key(ds[0].date) {
        DayKeysCons(DayTotal(ds[0].date, ds[0].total + amt), ds[1..]);
      } else {
        AddOnDayKeys(ds[1..], d, amt);
        DayKeysCons(ds[0], AddOnDay(ds[1..], d, amt));
      }
    }
  }

  lemma AscendingTail(ds: seq<DayTotal>)
    requires Ascending(ds) && ds != []
    ensures Ascending(ds[1..])
    ensures forall k :: k in DayKeys(ds[1..]) ==> Key(ds[0].date) < k
  {
    forall k | k in DayKeys(ds[1..]) ensures Key(ds[0].date) < k {
      var i :| 0 <= i < |ds[1..]| && Key(ds[1..][i].date) == k;
      assert ds[1..][i] == ds[i + 1];
    }
  }

  /** Adding onto a day keeps the days strictly ascending. */
  lemma {:induction false} AddOnDayAscends(ds: seq<DayTotal>, d: CalDate, amt: int)
    requires Ascending(ds)
    ensures Ascending(AddOnDay(ds, d, amt))
    decreases |ds|
  {
    if ds != [] {
      AscendingTail(ds);
      if Key(d) < Key(ds[0].date) {
        DayKeysCons(ds[0], ds[1..]);
        assert [ds[0]] + ds[1..] == ds;
        AddOnDayAscending(DayTotal(d, amt), ds);
      } else if Key(d) == Key(ds[0].date) {
        AddOnDayAscending(DayTotal(ds[0].date, ds[0].total + amt), ds[1..]);
      } else {
        AddOnDayAscends(ds[1..], d, amt);
        AddOnDayKeys(ds[1..], d, amt);
        AddOnDayAscending(ds[0], AddOnDay(ds[1..], d, amt));
      }
    }
  }

  /** Adding onto a day raises that day's total, and the grand total, by
      exactly the amount, and leaves every other day alone. */
  lemma {:induction false} AddOnDayTotals(ds: seq<DayTotal>, d: CalDate, amt: int, k: int)
    requires Ascending(ds)
    ensures GrandTotal(AddOnDay(ds, d, amt)) == GrandTotal(ds) + amt
    ensures TotalOn(AddOnDay(ds, d, amt), k) == TotalOn(ds, k) + (if k == Key(d) then amt else 0)
    decreases |ds|
  {
    var r := AddOnDay(ds, d, amt);
    if ds == [] {
      assert r[1..] == [];
    } else if Key(d) < Key(ds[0].date) {
      assert r[1..] == ds;
    } else if Key(d) == Key(ds[0].date) {
      assert r[1..] == ds[1..];
    } else {
      AddOnDayTotals(ds[1..], d, amt, k);
      assert r[1..] == AddOnDay(ds[1..], d, amt);
    }
  }

  lemma AddOnDayAscending(x: DayTotal, rest: seq<DayTotal>)
    requires Ascending(rest)
    requires forall k :: k in DayKeys(rest) ==> Key(x.date) < k
    ensures Ascending([x] + rest)
  {
    var l := [x] + rest;
    forall i, j | 0 <= i < j < |l| ensures Key(l[i].date) < Key(l[j].date) {
      assert l[j] == rest[j - 1];
      if i == 0 {
        assert Key(rest[j - 1].date) in DayKeys(rest);
      } else {
        assert l[i] == rest[i - 1];
      }
    }
  }

  /** Folding the entries into the series, left to right. */
  function TallyFrom(acc: seq<DayTotal>, es: seq<Entry>): (r: seq<DayTotal>)
    requires Ascending(acc)
    ensures Ascending(r)
    ensures DayKeys(r) == DayKeys(acc) + EntryKeys(es)
    ensures GrandTotal(r) == GrandTotal(acc) + EntryTotal(es)
    ensures forall k :: TotalOn(r, k) == TotalOn(acc, k) + EntrySumOn(es, k)
    decreases |es|
  {
    if es == [] then acc
    else
      AddOnDayAscends(acc, es[0].date, es[0].amount);
      var r := TallyFrom(AddOnDay(acc, es[0].date, es[0].amount), es[1..]);
      EntryKeysCons(es);
      AddOnDayKeys(acc, es[0].date, es[0].amount);
      AddOnDayTotals(acc, es[0].date, es[0].amount, 0);
      assert forall k :: TotalOn(r, k) == TotalOn(acc, k) + EntrySumOn(es, k) by {
        forall k ensures TotalOn(r, k) == TotalOn(acc, k) + EntrySumOn(es, k) {
          AddOnDayTotals(acc, es[0].date, es[0].amount, k);
        }
      }
      r
  }

  lemma EntryKeysCons(es: seq<Entry>)
    requires es != []
    ensures EntryKeys(es) == {Key(es[0].date)} + EntryKeys(es[1..])
  {
    forall k | k in EntryKeys(es) ensures k in {Key(es[0].date)} + EntryKeys(es[1..]) {
      var i :| 0 <= i < |es| && Key(es[i].date) == k;
      if i > 0 { assert es[i] == es[1..][i - 1]; }
    }
    forall k | k in EntryKeys(es[1..]) ensures k in EntryKeys(es) {
      var i :| 0 <= i < |es[1..]| && Key(es[1..][i].date) == k;
      assert es[i + 1] == es[1..][i];
    }
  }

  // ---------------------------------------------------------------------
  // The entries of the daily view

  function ExpenseEntries(es: seq<Expense>): (r: seq<Entry>)
    ensures |r| == |es|
    ensures forall i :: 0 <= i < |es| ==> r[i] == Entry(es[i].date, es[i].amount)
  {
    seq(|es|, i requires 0 <= i < |es| => Entry(es[i].date, es[i].amount))
  }

  function DueEntries(amount: int, ds: seq<CalDate>): (r: seq<Entry>)
    ensures |r| == |ds|
    ensures forall i :: 0 <= i < |ds| ==> r[i] == Entry(ds[i], amount)
  {
    seq(|ds|, i requires 0 <= i < |ds| => Entry(ds[i], amount))
  }

  /** One entry per projected payment of every subscription, in subscription order. */
  function SubscriptionEntries(subs: seq<Subscription>, start: CalDate, end: CalDate,
                               cutoff: Option<CalDate>): seq<Entry>
  {
    if subs == [] then []
    else DueEntries(subs[0].amount, ProjectAsWritten(subs[0], start, end, cutoff))
         + SubscriptionEntries(subs[1..], start, end, cutoff)
  }

  /** Number of days in `ds` with key `k`. */
  function CountOn(ds: seq<CalDate>, k: int): nat {
    if ds == [] then 0 else (if Key(ds[0]) == k then 1 else 0) + CountOn(ds[1..], k)
  }

  /** What the subscriptions put on the day with key `k`. */
  function DueOn(subs: seq<Subscription>, start: CalDate, end: CalDate, k: int): int
  {
    if subs == [] then 0
    else subs[0].amount * CountOn(ProjectAsWritten(subs[0], start, end, None), k)
         + DueOn(subs[1..], start, end, k)
  }

  /** What the expenses put on the day with key `k`. */
  function SpentOn(es: seq<Expense>, k: int): int {
    if es == [] then 0 else (if Key(es[0].date) == k then es[0].amount else 0) + SpentOn(es[1..], k)
  }

  /** `GET /daily-expenses/:userId` once the budget is found. */
  function DailyView(es: seq<Expense>, subs: seq<Subscription>, b: Budget): seq<DayTotal>
  {
    TallyFrom([], ExpenseEntries(WindowExpenses(es, b.user, b.startDate, b.endDate))
                  + SubscriptionEntries(UserSubs(subs, b.user), b.startDate, b.endDate, None))
  }

  // ---------------------------------------------------------------------
  // Lemmas connecting the entries with their sources

  lemma {:induction false} EntryTotalConcat(a: seq<Entry>, b: seq<Entry>)
    ensures EntryTotal(a + b) == EntryTotal(a) + EntryTotal(b)
  {
    SumConcat(a, b, (e: Entry) => e.amount);
  }

  lemma {:induction false} EntrySumOnConcat(a: seq<Entry>, b: seq<Entry>, k: int)
    ensures EntrySumOn(a + b, k) == EntrySumOn(a, k) + EntrySumOn(b, k)
  {
    if a == [] {
      assert a + b == b;
    } else {
      assert (a + b)[0] == a[0];
      assert (a + b)[1..] == a[1..] + b;
      EntrySumOnConcat(a[1..], b, k);
    }
  }

  lemma {:induction false} ExpenseEntriesTotal(es: seq<Expense>, k: int)
    ensures EntryTotal(ExpenseEntries(es)) == Spent(es)
    ensures EntrySumOn(ExpenseEntries(es), k) == SpentOn(es, k)
  {
    if es != [] {
      ExpenseEntriesTotal(es[1..], k);
      assert ExpenseEntries(es)[1..] == ExpenseEntries(es[1..]);
    }
  }

  lemma {:induction false} DueEntriesTotal(amount: int, ds: seq<CalDate>, k: int)
    ensures EntryTotal(DueEntries(amount, ds)) == amount * |ds|
    ensures EntrySumOn(DueEntries(amount, ds), k) == amount * CountOn(ds, k)
  {
    if ds != [] {
      DueEntriesTotal(amount, ds[1..], k);
      assert DueEntries(amount, ds)[1..] == DueEntries(amount, ds[1..]);
      assert amount * |ds| == amount + amount * |ds[1..]|;
      assert amount * CountOn(ds, k) == amount * (if Key(ds[0]) == k then 1 else 0) + amount * CountOn(ds[1..], k);
    }
  }

  lemma {:induction false} SubscriptionEntriesTotal(subs: seq<Subscription>, start: CalDate,
                                                    end: CalDate, k: int)
    ensures EntryTotal(SubscriptionEntries(subs, start, end, None)) == ProjectedTotal(subs, start, end, None)
    ensures EntrySumOn(SubscriptionEntries(subs, start, end, None), k) == DueOn(subs, start, end, k)
  {
    if subs != [] {
      var here := DueEntries(subs[0].amount, ProjectAsWritten(subs[0], start, end, None));
      SubscriptionEntriesTotal(subs[1..], start, end, k);
      DueEntriesTotal(subs[0].amount, ProjectAsWritten(subs[0], start, end, None), k);
      EntryTotalConcat(here, SubscriptionEntries(subs[1..], start, end, None));
      EntrySumOnConcat(here, SubscriptionEntries(subs[1..], start, end, None), k);
    }
  }

  /** A strictly increasing list of days holds each day at most once. */
  lemma {:induction false} CountOnIncreasing(ds: seq<CalDate>, k: int)
    requires StrictlyIncreasing(ds)
    ensures CountOn(ds, k) <= 1
  {
    if ds != [] {
      CountOnIncreasing(ds[1..], k);
      if Key(ds[0]) == k {
        CountOnAbove(ds[1..], k);
      }
    }
  }

  lemma {:induction false} CountOnAbove(ds: seq<CalDate>, k: int)
    requires forall i :: 0 <= i < |ds| ==> k < Key(ds[i])
    ensures CountOn(ds, k) == 0
  {
    if ds != [] {
      CountOnAbove(ds[1..], k);
    }
  }

  /** A subscription pays at most once on any given day. */
  lemma AtMostOncePerDay(sub: Subscription, start: CalDate, end: CalDate, k: int)
    ensures CountOn(ProjectAsWritten(sub, start, end, None), k) <= 1
  {
    ProjectAsWrittenIncreasing(sub, start, end, None);
    CountOnIncreasing(ProjectAsWritten(sub, start, end, None), k);
  }

  /** The daily series is in ascending day order, and each day shows exactly
      the real in-window expenses of that day plus the subscription payments
      due that day, with no `today` cutoff; so its totals add up to the
      in-window spend plus the whole period's projected payments. */
  lemma DailyViewContents(es: seq<Expense>, subs: seq<Subscription>, b: Budget, k: int)
    ensures Ascending(DailyView(es, subs, b))
    ensures TotalOn(DailyView(es, subs, b), k)
            == SpentOn(WindowExpenses(es, b.user, b.startDate, b.endDate), k)
               + DueOn(UserSubs(subs, b.user), b.startDate, b.endDate, k)
    ensures GrandTotal(DailyView(es, subs, b))
            == Spent(WindowExpenses(es, b.user, b.startDate, b.endDate))
               + ProjectedTotal(UserSubs(subs, b.user), b.startDate, b.endDate, None)
  {
    var booked := ExpenseEntries(WindowExpenses(es, b.user, b.startDate, b.endDate));
    var due := SubscriptionEntries(UserSubs(subs, b.user), b.startDate, b.endDate, None);
    ExpenseEntriesTotal(WindowExpenses(es, b.user, b.startDate, b.endDate), k);
    SubscriptionEntriesTotal(UserSubs(subs, b.user), b.startDate, b.endDate, k);
    EntryTotalConcat(booked, due);
    EntrySumOnConcat(booked, due, k);
    assert TotalOn([], k) == 0;
    assert GrandTotal([]) == 0;
  }

  /** The loop as written only leaves payments out: with non-negative
      amounts the series never adds up to more than the window's spend plus
      every payment actually due in the window. */
  lemma DailyViewWithinIntended(es: seq<Expense>, subs: seq<Subscription>, b: Budget)
    requires forall s :: s in subs ==> s.amount >= 0
    ensures GrandTotal(DailyView(es, subs, b))
            <= Spent(WindowExpenses(es, b.user, b.startDate, b.endDate))
               + IntendedTotal(UserSubs(subs, b.user), b.startDate, b.endDate, None)
  {
    DailyViewContents(es, subs, b, 0);
    ProjectedTotalWithinIntended(UserSubs(subs, b.user), b.startDate, b.endDate, None);
  }
}

=== FILE: entities.dfy ===
/** The persisted records the budget, expense, subscription and goal handlers
    read and write. Identifiers (`_id` in the store) are natural numbers;
    amounts are integers (the handlers do no rounding on them).
 */
module Entities {
  import opened Common
  import opened Calendar

  type UserId = nat

  datatype User = User(id: UserId, email: string)

  datatype Expense = Expense(
    id: nat,
    user: UserId,
    category: string,
    name: string,
    amount: int,
    date: CalDate,
    description: string)

  /** Any stored cycle string other than the two the projector recognises. */
  type OtherCycleText = t: string | t != "Monthly" && t != "Yearly" witness ""

  /** `cycle` holds the stored string; only "Monthly" and "Yearly" are
      recognised by the projector, any other value projects nothing. */
  datatype Cycle = Monthly | Yearly | OtherCycle(text: OtherCycleText)

  datatype Subscription = Subscription(
    id: nat,
    user: UserId,
    name: string,
    amount: int,
    cycle: Cycle,
    category: string,
    startDate: CalDate)

  /** The live budget period of a user. */
  datatype Budget = Budget(
    user: UserId,
    totalAmount: int,
    currentAmount: int,
    startDate: CalDate,
    endDate: CalDate)

  /** One transaction copied into a history record. */
  datatype ArchivedTx = ArchivedTx(
    category: string,
    name: string,
    amount: int,
    date: CalDate,
    description: string)

  /** A closed budget period. The archival timestamp is the wall clock at
      save time and is represented by the record's position in the store. */
  datatype History = History(
    user: UserId,
    totalAmount: int,
    remainingAmount: int,
    startDate: CalDate,
    endDate: CalDate,
    expenses: seq<ArchivedTx>,
    achievement: Option<string>)

  datatype Goal = Goal(
    id: nat,
    user: UserId,
    name: string,
    amount: int,
    saved: int,
    description: string,
    startDate: CalDate,
    endDate: CalDate)

  /** The stored cycle string. It reads "Monthly" or "Yearly" exactly for
      the two cycles the handlers' `===` tests recognise. */
  function CycleName(c: Cycle): (r: string)
    ensures r == "Monthly" <==> c.Monthly?
    ensures r == "Yearly" <==> c.Yearly?
  {
    match c
    case Monthly => "Monthly"
    case Yearly => "Yearly"
    case OtherCycle(t) => t
  }

  /** `sub.category || 'Subscription'`: the empty string is falsy. */
  function SubCategory(s: Subscription): (c: string)
    ensures c != ""
    ensures s.category != "" ==> c == s.category
  {
    if s.category == "" then "Subscription" else s.category
  }
}

=== FILE: expenses.dfy ===
/** The expense handlers of the serverless `expense` function: the balance
    rules of `/add`, `/delete` and `/edit`, the `/duration` filter, and the
    three read views taken from the store.
 */
module ExpenseService {
  import opened Common
  import opened Calendar
  import opened Entities
  import opened Projector
  import opened Seqs
  import opened Ledger
  import opened Store
  import opened DailyTotals
  import opened CategoryTotals
  import opened MergedLedger

  /** The fields of an `/add` body. */
  datatype NewExpense = NewExpense(user: UserId, category: string, name: string, amount: int,
                                   date: CalDate, description: string)

  /** The fields an `/edit` body may carry; an absent field keeps its value. */
  datatype ExpensePatch = ExpensePatch(
    user: Option<UserId>,
    category: Option<string>,
    name: Option<string>,
    amount: Option<int>,
    date: Option<CalDate>,
    description: Option<string>)

  /** Every budget balance and every expense amount is non-negative. */
  predicate NonNegative(st: Store) {
    (forall b :: b in st.budgets ==> b.currentAmount >= 0)
    && (forall e :: e in st.expenses ==> e.amount >= 0)
  }

  // ---------------------------------------------------------------------
  // POST /add

  /** `POST /add`: 404 without a budget, 400 when the balance is below the
      amount, otherwise the expense is stored and the balance lowered. */
  function AddExpense(st: Store, x: NewExpense): (r: (Reply<Expense>, Store))
    requires Wf(st)
    ensures r.0 == Fail(NotFound) <==> FindBudget(st, x.user).None?
    ensures r.0 == Fail(BadRequest) <==>
              FindBudget(st, x.user).Some? && FindBudget(st, x.user).value.currentAmount < x.amount
    ensures r.0.Fail? ==> r.1 == st
    ensures r.0.Done? ==>
              var e := r.0.value;
              e == Expense(st.nextId, x.user, x.category, x.name, x.amount, x.date, x.description)
              && Wf(r.1)
              && r.1.expenses == st.expenses + [e]
              && FindBudget(r.1, x.user).Some?
              && FindBudget(r.1, x.user).value.currentAmount
                 == FindBudget(st, x.user).value.currentAmount - x.amount >= 0
              && |r.1.budgets| == |st.budgets|
              && (forall j :: 0 <= j < |st.budgets| && j != BudgetIndex(st, x.user).value ==>
                                r.1.budgets[j] == st.budgets[j])
              && r.1.histories == st.histories && r.1.subscriptions == st.subscriptions
              && r.1.users == st.users && r.1.goals == st.goals
  {
    match BudgetIndex(st, x.user)
    case None => (Fail(NotFound), st)
    case Some(i) =>
      var b := st.budgets[i];
      if b.currentAmount < x.amount then (Fail(BadRequest), st)
      else
        var e := Expense(st.nextId, x.user, x.category, x.name, x.amount, x.date, x.description);
        var st' := SetBudget(st, i, b.(currentAmount := b.currentAmount - x.amount))
                     .(expenses := st.expenses + [e], nextId := st.nextId + 1);
        assert BudgetIndex(st', x.user) == Some(i) by {
          assert forall j :: 0 <= j < i ==> st'.budgets[j] == st.budgets[j];
          FirstIndexAt(st'.budgets, (y: Budget) => y.user == x.user, i);
        }
        (Done(e), st')
  }

  // ---------------------------------------------------------------------
  // DELETE /delete/:id

  /** `DELETE /delete/:id`: 404 for an unknown id; otherwise the amount goes
      back onto the owner's budget, if there is one, and the expense is
      removed. The reply is only a message; the deleted record is returned
      here for the lemmas' use. */
  function DeleteExpense(st: Store, id: nat): (r: (Reply<Expense>, Store))
    requires Wf(st)
    ensures r.0.Fail? <==> ExpenseIndex(st, id).None?
    ensures r.0.Fail? ==> r.0.status == NotFound && r.1 == st
    ensures r.0.Done? ==>
              var i := ExpenseIndex(st, id).value;
              var e := st.expenses[i];
              r.0.value == e
              && Wf(r.1)
              && r.1.expenses == RemoveAt(st.expenses, i)
              && |r.1.budgets| == |st.budgets|
              && (FindBudget(st, e.user).None? ==> r.1.budgets == st.budgets)
              && (FindBudget(st, e.user).Some? ==>
                    FindBudget(r.1, e.user).Some?
                    && FindBudget(r.1, e.user).value.currentAmount
                       == FindBudget(st, e.user).value.currentAmount + e.amount
                    && forall j :: 0 <= j < |st.budgets| && j != BudgetIndex(st, e.user).value ==>
                                     r.1.budgets[j] == st.budgets[j])
              && r.1.histories == st.histories && r.1.subscriptions == st.subscriptions
              && r.1.users == st.users && r.1.goals == st.goals && r.1.nextId == st.nextId
  {
    match ExpenseIndex(st, id)
    case None => (Fail(NotFound), st)
    case Some(i) =>
      var e := st.expenses[i];
      var restored :=
        match BudgetIndex(st, e.user)
        case None => st
        case Some(k) =>
          var b := st.budgets[k];
          var st' := SetBudget(st, k, b.(currentAmount := b.currentAmount + e.amount));
          assert BudgetIndex(st', e.user) == Some(k) by {
            assert forall j :: 0 <= j < k ==> st'.budgets[j] == st.budgets[j];
            FirstIndexAt(st'.budgets, (y: Budget) => y.user == e.user, k);
          }
          st';
      (Done(e), restored.(expenses := RemoveAt(st.expenses, i)))
  }

  // ---------------------------------------------------------------------
  // PUT /edit/:id

  function Patched(e: Expense, p: ExpensePatch): (r: Expense)
    ensures r.id == e.id
  {
    Expense(e.id, p.user.GetOr(e.user), p.category.GetOr(e.category), p.name.GetOr(e.name),
            p.amount.GetOr(e.amount), p.date.GetOr(e.date), p.description.GetOr(e.description))
  }

  /** `PUT /edit/:id`: 404 for an unknown id; otherwise the fields supplied
      replace those of the stored expense and nothing else changes; in
      particular no budget balance moves, whatever the new amount. */
  function EditExpense(st: Store, id: nat, p: ExpensePatch): (r: (Reply<Expense>, Store))
    requires Wf(st)
    ensures r.0.Fail? <==> ExpenseIndex(st, id).None?
    ensures r.0.Fail? ==> r.0.status == NotFound && r.1 == st
    ensures r.0.Done? ==>
              var i := ExpenseIndex(st, id).value;
              Wf(r.1)
              && r.0.value.id == id
              && |r.1.expenses| == |st.expenses| && r.1.expenses[i] == r.0.value
              && (forall j :: 0 <= j < |st.expenses| && j != i ==> r.1.expenses[j] == st.expenses[j])
              && r.1.budgets == st.budgets
              && r.1.histories == st.histories && r.1.subscriptions == st.subscriptions
              && r.1.users == st.users && r.1.goals == st.goals && r.1.nextId == st.nextId
  {
    match ExpenseIndex(st, id)
    case None => (Fail(NotFound), st)
    case Some(i) =>
      var e := Patched(st.expenses[i], p);
      (Done(e), st.(expenses := st.expenses[i := e]))
  }

  // ---------------------------------------------------------------------
  // Read views

  /** `GET /daily-expenses/:userId`. */
  function DailyExpenses(st: Store, u: UserId): (r: Reply<seq<DayTotal>>)
    ensures r.Fail? <==> FindBudget(st, u).None?
    ensures r.Fail? ==> r.status == NotFound
    ensures r.Done? ==> Ascending(r.value)
  {
    match FindBudget(st, u)
    case None => Fail(NotFound)
    case Some(b) =>
      DailyViewContents(st.expenses, st.subscriptions, b, 0);
      Done(DailyView(st.expenses, st.subscriptions, b))
  }

  /** `GET /all/:user`: never rejects. */
  function AllExpenses(st: Store, u: UserId, today: CalDate): (r: seq<Row>)
    ensures Descending(r)
  {
    AllView(st.expenses, st.subscriptions, u, FindBudget(st, u), today)
  }

  /** `GET /category-percentage/:user`: never rejects. */
  function CategoryPercentage(st: Store, u: UserId, today: CalDate): (r: seq<Share>)
    ensures forall i, j :: 0 <= i < j < |r| ==> r[i].category != r[j].category
  {
    CategoryView(st.expenses, st.subscriptions, u, FindBudget(st, u), today)
  }

  /** `GET /duration/:user?startDate&endDate`: 400 when a bound is missing,
      404 when no expense of the user falls between them, otherwise exactly
      those expenses, in store order. */
  function Duration(st: Store, u: UserId, start: Option<CalDate>, end: Option<CalDate>): (r: Reply<seq<Expense>>)
    ensures r == Fail(BadRequest) <==> start.None? || end.None?
    ensures r == Fail(NotFound) <==>
              start.Some? && end.Some?
              && forall e :: e in st.expenses && e.user == u ==> !InWindow(e.date, start.value, end.value)
    ensures r.Done? ==> forall e :: e in r.value <==>
              e in st.expenses && e.user == u && InWindow(e.date, start.value, end.value)
  {
    if start.None? || end.None? then Fail(BadRequest)
    else
      var found := WindowExpenses(st.expenses, u, start.value, end.value);
      if found == [] then Fail(NotFound)
      else
        assert found[0] in found;
        Done(found)
  }

  // ---------------------------------------------------------------------
  // Lemmas

  /** Adding an expense and then deleting it restores the store, except
      that the id counter has moved on. */
  lemma AddThenDelete(st: Store, x: NewExpense)
    requires Wf(st)
    requires AddExpense(st, x).0.Done?
    ensures var s1 := AddExpense(st, x).1;
            DeleteExpense(s1, st.nextId).0.Done?
            && DeleteExpense(s1, st.nextId).1 == st.(nextId := st.nextId + 1)
  {
    var s1 := AddExpense(st, x).1;
    var e := AddExpense(st, x).0.value;
    var i := BudgetIndex(st, x.user).value;
    assert ExpenseIndex(s1, st.nextId) == Some(|st.expenses|) by {
      assert s1.expenses[|st.expenses|] == e;
      forall j | 0 <= j < |st.expenses| ensures s1.expenses[j].id != st.nextId {
        assert s1.expenses[j] == st.expenses[j];
      }
      FirstIndexAt(s1.expenses, (y: Expense) => y.id == st.nextId, |st.expenses|);
    }
    assert BudgetIndex(s1, x.user) == Some(i) by {
      forall j | 0 <= j < i ensures s1.budgets[j].user != x.user {
        assert s1.budgets[j] == st.budgets[j];
      }
      FirstIndexAt(s1.budgets, (y: Budget) => y.user == x.user, i);
    }
    var s2 := DeleteExpense(s1, st.nextId).1;
    assert RemoveAt(s1.expenses, |st.expenses|) == st.expenses;
    assert s2.budgets == st.budgets;
  }

  /** `/add` keeps balances and amounts non-negative when the amount added
      is: the handler never overdraws. */
  lemma AddStaysNonNegative(st: Store, x: NewExpense)
    requires Wf(st) && NonNegative(st) && x.amount >= 0
    ensures NonNegative(AddExpense(st, x).1)
  {
    var a := AddExpense(st, x);
    if a.0.Done? {
      var i := BudgetIndex(st, x.user).value;
      forall b | b in a.1.budgets ensures b.currentAmount >= 0 {
        var j :| 0 <= j < |a.1.budgets| && a.1.budgets[j] == b;
        if j != i { assert st.budgets[j] in st.budgets; }
      }
    }
  }

  /** `/delete` keeps balances and amounts non-negative: it only gives back. */
  lemma DeleteStaysNonNegative(st: Store, id: nat)
    requires Wf(st) && NonNegative(st)
    ensures NonNegative(DeleteExpense(st, id).1)
  {
    var d := DeleteExpense(st, id);
    if d.0.Done? {
      var i := ExpenseIndex(st, id).value;
      var e := st.expenses[i];
      assert e in st.expenses;
      forall b | b in d.1.budgets ensures b.currentAmount >= 0 {
        var j :| 0 <= j < |d.1.budgets| && d.1.budgets[j] == b;
        if FindBudget(st, e.user).None? || j != BudgetIndex(st, e.user).value {
          assert st.budgets[j] in st.budgets;
        }
      }
      forall y | y in d.1.expenses ensures y.amount >= 0 {
        var j :| 0 <= j < |d.1.expenses| && d.1.expenses[j] == y;
        if j < i { assert st.expenses[j] in st.expenses; }
        else { assert st.expenses[j + 1] in st.expenses; }
      }
    }
  }

  /** `/edit` keeps balances and amounts non-negative when the new amount, if
      any, is: it never touches a balance. */
  lemma EditStaysNonNegative(st: Store, id: nat, p: ExpensePatch)
    requires Wf(st) && NonNegative(st)
    requires p.amount.None? || p.amount.value >= 0
    ensures NonNegative(EditExpense(st, id, p).1)
  {
    var ed := EditExpense(st, id, p);
    if ed.0.Done? {
      var i := ExpenseIndex(st, id).value;
      assert st.expenses[i] in st.expenses;
      forall y | y in ed.1.expenses ensures y.amount >= 0 {
        var j :| 0 <= j < |ed.1.expenses| && ed.1.expenses[j] == y;
        if j != i { assert st.expenses[j] in st.expenses; }
      }
    }
  }

  /** An `/edit` with an empty body leaves the store as it was. */
  lemma EditWithEmptyPatch(st: Store, id: nat)
    requires Wf(st)
    ensures EditExpense(st, id, ExpensePatch(None, None, None, None, None, None)).1 == st
  {
    var r := EditExpense(st, id, ExpensePatch(None, None, None, None, None, None));
    if r.0.Done? {
      var i := ExpenseIndex(st, id).value;
      assert r.1.expenses == st.expenses;
    }
  }

  /** Sending the same `/edit` twice has the effect of sending it once, and
      the stored expense then carries every field the body supplied. */
  lemma EditIdempotent(st: Store, id: nat, p: ExpensePatch)
    requires Wf(st)
    ensures var r1 := EditExpense(st, id, p);
            EditExpense(r1.1, id, p).1 == r1.1
            && (r1.0.Done? ==>
                  (p.user.Some? ==> r1.0.value.user == p.user.value)
                  && (p.category.Some? ==> r1.0.value.category == p.category.value)
                  && (p.name.Some? ==> r1.0.value.name == p.name.value)
                  && (p.amount.Some? ==> r1.0.value.amount == p.amount.value)
                  && (p.date.Some? ==> r1.0.value.date == p.date.value)
                  && (p.description.Some? ==> r1.0.value.description == p.description.value))
  {
    var r1 := EditExpense(st, id, p);
    if r1.0.Done? {
      var i := ExpenseIndex(st, id).value;
      assert ExpenseIndex(r1.1, id) == Some(i) by {
        forall j | 0 <= j < i ensures r1.1.expenses[j].id != id {
          assert r1.1.expenses[j] == st.expenses[j];
        }
        FirstIndexAt(r1.1.expenses, (y: Expense) => y.id == id, i);
      }
      assert r1.1.expenses[i := Patched(r1.1.expenses[i], p)] == r1.1.expenses;
    }
  }

  /** A budget of 1000: an expense of 200 leaves 800; a further 900 is
      refused with 400 and the balance stays 800. */
  lemma BalanceScenario()
    ensures var st := Store([User(1, "a@b.co")], [Budget(1, 1000, 1000, Day(2024, 0, 1), Day(2024, 0, 31))],
                            [], [], [], [], 0);
            var s1 := AddExpense(st, NewExpense(1, "Food", "Groceries", 200, Day(2024, 0, 5), "")).1;
            var r2 := AddExpense(s1, NewExpense(1, "Travel", "Train", 900, Day(2024, 0, 6), ""));
            s1.budgets[0].currentAmount == 800
            && r2.0 == Fail(BadRequest) && r2.1.budgets[0].currentAmount == 800
  {
    var st := Store([User(1, "a@b.co")], [Budget(1, 1000, 1000, Day(2024, 0, 1), Day(2024, 0, 31))],
                    [], [], [], [], 0);
    assert BudgetIndex(st, 1) == Some(0);
    var s1 := AddExpense(st, NewExpense(1, "Food", "Groceries", 200, Day(2024, 0, 5), "")).1;
    assert BudgetIndex(s1, 1) == Some(0);
  }

  /** Once the budget window has closed (`end <= today`), the three views
      agree: the daily series, the category sums and the merged ledger all
      add up to the in-window spend plus every payment of the window. */
  lemma ViewsAgree(st: Store, u: UserId, today: CalDate)
    requires FindBudget(st, u).Some?
    requires Key(FindBudget(st, u).value.endDate) <= Key(today)
    ensures var b := FindBudget(st, u).value;
            var total := Spent(WindowExpenses(st.expenses, u, b.startDate, b.endDate))
                         + ProjectedTotal(UserSubs(st.subscriptions, u), b.startDate, b.endDate, None);
            GrandTotal(DailyExpenses(st, u).value) == total
            && TotalOf(CategorySums(st.expenses, st.subscriptions, u, Some(b), today)) == total
            && RowTotal(AllExpenses(st, u, today)) == total
  {
    var b := FindBudget(st, u).value;
    DailyViewContents(st.expenses, st.subscriptions, b, 0);
    CategoryViewContents(st.expenses, st.subscriptions, u, b, today, "");
    AllViewMatchesCategories(st.expenses, st.subscriptions, u, Some(b), today);
    ProjectedTotalCutoffAfterWindow(UserSubs(st.subscriptions, u), b.startDate, b.endDate, today);
  }

  /** Before the window closes the daily series may run ahead of the other
      two views, never behind, when amounts are non-negative: it counts the
      whole window's payments, they count those due up to `today`. */
  lemma DailyRunsAhead(st: Store, u: UserId, today: CalDate)
    requires FindBudget(st, u).Some?
    requires forall s :: s in st.subscriptions ==> s.amount >= 0
    ensures var b := FindBudget(st, u).value;
            TotalOf(CategorySums(st.expenses, st.subscriptions, u, Some(b), today))
            <= GrandTotal(DailyExpenses(st, u).value)
  {
    var b := FindBudget(st, u).value;
    DailyViewContents(st.expenses, st.subscriptions, b, 0);
    CategoryViewContents(st.expenses, st.subscriptions, u, b, today, "");
    ProjectedTotalCutoffBelow(UserSubs(st.subscriptions, u), b.startDate, b.endDate, today);
  }
}

=== FILE: goal_page.dfy ===
/** The pure logic of the goals page: the edit form's `remaining`
    bookkeeping, the two guards of a save, the congratulations rule, the
    local list updates after a save or delete, and the accomplished / not
    accomplished split. Numbers are integers here; `parseFloat` of text that
    is not a number is `NaN`.
 */
module GoalPage {
  import opened Common
  import opened Entities
  import opened Seqs

  /** A parsed number, or `NaN`. */
  datatype Num = Fin(v: int) | NaN

  /** `a - b` where either side may be `NaN`. */
  function Minus(a: Num, b: Num): (r: Num)
    ensures r.Fin? <==> a.Fin? && b.Fin?
    ensures r.Fin? ==> r.v + b.v == a.v
  {
    if a.Fin? && b.Fin? then Fin(a.v - b.v) else NaN
  }

  /** The goal being edited: its id, the two editable fields, and `remaining`. */
  datatype Editor = Editor(id: nat, amount: int, saved: int, remaining: Num)

  /** The two inputs of the edit form. */
  datatype Field = AmountField | SavedField

  /** `remaining` agrees with the two fields. */
  predicate Consistent(e: Editor) {
    e.remaining == Fin(e.amount - e.saved)
  }

  /** `handleEditGoal`: open the form on a goal. */
  function StartEdit(g: Goal): (e: Editor)
    ensures Consistent(e) && e.id == g.id && e.amount == g.amount && e.saved == g.saved
  {
    Editor(g.id, g.amount, g.saved, Fin(g.amount - g.saved))
  }

  /** `handleInputChange`: the field takes `parseFloat(value) || 0`, and
      `remaining` is recomputed from the raw parse against the other field. */
  function Typed(e: Editor, f: Field, x: Num): (r: Editor)
    ensures r.id == e.id
    ensures f == AmountField ==> r.saved == e.saved && r.amount == (if x.Fin? then x.v else 0)
    ensures f == SavedField ==> r.amount == e.amount && r.saved == (if x.Fin? then x.v else 0)
    ensures x.Fin? ==> Consistent(r)
    ensures x.NaN? ==> r.remaining == NaN
  {
    var value := if x.Fin? then x.v else 0;
    match f
    case AmountField => e.(amount := value, remaining := Minus(x, Fin(e.saved)))
    case SavedField => e.(saved := value, remaining := Minus(Fin(e.amount), x))
  }

  /** A sequence of keystrokes into the form. */
  function TypedAll(e: Editor, inputs: seq<(Field, Num)>): Editor
    decreases |inputs|
  {
    if inputs == [] then e
    else TypedAll(Typed(e, inputs[0].0, inputs[0].1), inputs[1..])
  }

  /** What a click on "Save" does. */
  datatype SaveOutcome =
    | SavedOverTotal       // "Saved amount cannot be greater than the total goal amount."
    | SavedOverRemaining   // "Saved amount cannot exceed the remaining amount."
    | Sent(id: nat, amount: int, saved: int, congrats: bool)

  /** `handleSaveChanges`: two guards, then the update is sent, and the
      congratulations modal opens when the goal is reached. */
  function Save(e: Editor): (r: SaveOutcome)
    ensures r == SavedOverTotal <==> e.saved > e.amount
    ensures r.Sent? ==> r.id == e.id && r.amount == e.amount && r.saved == e.saved && r.saved <= r.amount
  {
    if e.saved > e.amount then SavedOverTotal
    else if e.remaining.Fin? && e.saved > e.amount - e.remaining.v then SavedOverRemaining
    else Sent(e.id, e.amount, e.saved, e.saved >= e.amount)
  }

  // ---------------------------------------------------------------------
  // The local goal list

  /** The list after a save: only goals with that id take the new figures. */
  function AfterSave(gs: seq<Goal>, id: nat, amount: int, saved: int): (r: seq<Goal>)
    ensures |r| == |gs|
    ensures forall i :: 0 <= i < |gs| ==>
              r[i] == if gs[i].id == id then gs[i].(amount := amount, saved := saved) else gs[i]
  {
    seq(|gs|, i requires 0 <= i < |gs| =>
      if gs[i].id == id then gs[i].(amount := amount, saved := saved) else gs[i])
  }

  /** The list after a delete: exactly the goals with that id go. */
  function AfterDelete(gs: seq<Goal>, id: nat): (r: seq<Goal>)
    ensures forall g :: g in r <==> g in gs && g.id != id
  {
    Filter(gs, (g: Goal) => g.id != id)
  }

  function Accomplished(gs: seq<Goal>): seq<Goal> {
    Filter(gs, (g: Goal) => g.saved >= g.amount)
  }

  function NotAccomplished(gs: seq<Goal>): seq<Goal> {
    Filter(gs, (g: Goal) => g.saved < g.amount)
  }

  // ---------------------------------------------------------------------
  // Lemmas

  /** Whatever is typed, `remaining` either agrees with the fields or is
      `NaN` (after text that is not a number). */
  lemma {:induction false} TypingKeepsRemaining(e: Editor, inputs: seq<(Field, Num)>)
    requires Consistent(e) || e.remaining == NaN
    ensures var r := TypedAll(e, inputs);
            (Consistent(r) || r.remaining == NaN) && r.id == e.id
    decreases |inputs|
  {
    if inputs != [] {
      TypingKeepsRemaining(Typed(e, inputs[0].0, inputs[0].1), inputs[1..]);
    }
  }

  /** So, for integer figures, the second guard of a save never fires on a
      form opened on a goal, whatever was typed into it: a save is refused
      only for `saved > amount`, and otherwise sent. The model's numbers are
      integers; IEEE doubles can round `amount - remaining` below `saved`. */
  lemma SecondGuardNeverFires(g: Goal, inputs: seq<(Field, Num)>)
    ensures var e := TypedAll(StartEdit(g), inputs);
            Save(e) != SavedOverRemaining
            && (Save(e).Sent? <==> e.saved <= e.amount)
  {
    TypingKeepsRemaining(StartEdit(g), inputs);
  }

  /** The modal opens after a sent save exactly when the goal is reached;
      since larger savings were refused, that is when `saved == amount`. */
  lemma CongratsExactly(e: Editor)
    requires Save(e).Sent?
    ensures Save(e).congrats <==> e.saved >= e.amount
    ensures Save(e).congrats <==> e.saved == e.amount
  {
  }

  /** Two complementary filters split a sequence's length. */
  lemma {:induction false} FilterSplitLength<T(!new)>(xs: seq<T>, p: T -> bool, q: T -> bool)
    requires forall x :: q(x) == !p(x)
    ensures |Filter(xs, p)| + |Filter(xs, q)| == |xs|
  {
    if xs != [] {
      FilterSplitLength(xs[1..], p, q);
    }
  }

  /** The two lists partition the goals: every goal is in exactly one of
      them, and together they are as long as the list. */
  lemma Partition(gs: seq<Goal>)
    ensures forall g :: g in gs <==> g in Accomplished(gs) || g in NotAccomplished(gs)
    ensures forall g :: !(g in Accomplished(gs) && g in NotAccomplished(gs))
    ensures |Accomplished(gs)| + |NotAccomplished(gs)| == |gs|
  {
    FilterSplitLength(gs, (g: Goal) => g.saved >= g.amount, (g: Goal) => g.saved < g.amount);
  }

  /** A save that brings up the modal moves the saved goal into the
      accomplished list. */
  lemma CongratsMeansAccomplished(gs: seq<Goal>, e: Editor, i: nat)
    requires Save(e).Sent? && Save(e).congrats
    requires i < |gs| && gs[i].id == e.id
    ensures AfterSave(gs, e.id, e.amount, e.saved)[i] in Accomplished(AfterSave(gs, e.id, e.amount, e.saved))
  {
    var r := AfterSave(gs, e.id, e.amount, e.saved);
    assert r[i] in r;
  }

  /** Deleting a goal leaves the rest in their order and removes nothing else. */
  lemma DeleteKeepsOthers(gs: seq<Goal>, id: nat)
    ensures |AfterDelete(gs, id)| <= |gs|
    ensures (forall g :: g in gs ==> g.id != id) ==> AfterDelete(gs, id) == gs
  {
    if forall g :: g in gs ==> g.id != id {
      FilterAll(gs, (g: Goal) => g.id != id);
    }
  }
}

=== FILE: goals.dfy ===
/** The savings-goal handlers: the serverless `goal` function and the older
    Express `Goal` router, over the same store. A goal's `saved` is only
    ever moved by these handlers; nothing caps it at `amount`.
 */
module GoalService {
  import opened Common
  import opened Calendar
  import opened Entities
  import opened Seqs
  import opened Store

  /** The goal fields of a create body. */
  datatype GoalFields = GoalFields(name: string, amount: int, saved: int, description: string,
                                   startDate: CalDate, endDate: CalDate)

  function NewGoal(st: Store, u: UserId, f: GoalFields): Goal {
    Goal(st.nextId, u, f.name, f.amount, f.saved, f.description, f.startDate, f.endDate)
  }

  /** No two stored goals share an id. */
  predicate UniqueGoalIds(st: Store) {
    forall i, j :: 0 <= i < j < |st.goals| ==> st.goals[i].id != st.goals[j].id
  }

  // ---------------------------------------------------------------------
  // Creation

  /** `POST /create` (both routers): 404 for an unknown user; otherwise the
      goal is stored under a new id. */
  function CreateGoal(st: Store, u: UserId, f: GoalFields): (r: (Reply<Goal>, Store))
    requires Wf(st)
    ensures r.0.Fail? <==> FindUser(st, u).None?
    ensures r.0.Fail? ==> r.0.status == NotFound && r.1 == st
    ensures r.0.Done? ==>
              var g := r.0.value;
              g.id == st.nextId && g.user == u
              && g.name == f.name && g.amount == f.amount && g.saved == f.saved
              && g.description == f.description && g.startDate == f.startDate && g.endDate == f.endDate
              && r.1 == st.(goals := st.goals + [g], nextId := st.nextId + 1)
              && Wf(r.1)
              && (UniqueGoalIds(st) ==> UniqueGoalIds(r.1))
  {
    match FindUser(st, u)
    case None => (Fail(NotFound), st)
    case Some(_) =>
      var g := NewGoal(st, u, f);
      (Done(g), st.(goals := st.goals + [g], nextId := st.nextId + 1))
  }

  /** `POST /create-user-goal` (serverless) and `POST /usercreate` (legacy):
      the owner is looked up by email; 404 when no user has it. */
  function CreateUserGoal(st: Store, email: string, f: GoalFields): (r: (Reply<Goal>, Store))
    requires Wf(st)
    ensures r.0.Fail? <==> FindUserByEmail(st, email).None?
    ensures r.0.Fail? ==> r.0.status == NotFound && r.1 == st
    ensures r.0.Done? ==> r == CreateGoal(st, FindUserByEmail(st, email).value.id, f)
  {
    match FindUserByEmail(st, email)
    case None => (Fail(NotFound), st)
    case Some(user) =>
      assert FindUser(st, user.id).Some?;
      CreateGoal(st, user.id, f)
  }

  // ---------------------------------------------------------------------
  // Listing

  function GoalsOf(st: Store, u: UserId): (r: seq<Goal>)
    ensures forall g :: g in r <==> g in st.goals && g.user == u
  {
    Filter(st.goals, (g: Goal) => g.user == u)
  }

  /** `GET /by-email/:email` (serverless): 404 for an unknown email,
      otherwise the owner's goals, possibly none. */
  function GoalsByEmail(st: Store, email: string): (r: Reply<seq<Goal>>)
    ensures r.Fail? <==> FindUserByEmail(st, email).None?
    ensures r.Fail? ==> r.status == NotFound
    ensures r.Done? ==> forall g :: g in r.value <==>
              g in st.goals && g.user == FindUserByEmail(st, email).value.id
  {
    match FindUserByEmail(st, email)
    case None => Fail(NotFound)
    case Some(user) => Done(GoalsOf(st, user.id))
  }

  /** `GET /email/:email` (legacy): as the serverless route, but an owner
      with no goals is also 404. */
  function LegacyGoalsByEmail(st: Store, email: string): (r: Reply<seq<Goal>>)
    ensures r.Fail? <==> FindUserByEmail(st, email).None? || GoalsByEmail(st, email) == Done([])
    ensures r.Fail? ==> r.status == NotFound
    ensures r.Done? ==> r == GoalsByEmail(st, email) && r.value != []
  {
    match GoalsByEmail(st, email)
    case Fail(s) => Fail(s)
    case Done(gs) => if gs == [] then Fail(NotFound) else Done(gs)
  }

  /** `GET /goals` (legacy), for the authenticated user `u`. */
  function LegacyGoals(st: Store, u: UserId): (r: Reply<seq<Goal>>)
    ensures r.Fail? <==> FindUser(st, u).None?
    ensures r.Fail? ==> r.status == NotFound
    ensures r.Done? ==> forall g :: g in r.value <==> g in st.goals && g.user == u
  {
    match FindUser(st, u)
    case None => Fail(NotFound)
    case Some(_) => Done(GoalsOf(st, u))
  }

  // ---------------------------------------------------------------------
  // Updates

  /** The store with the goal at position `i` replaced. */
  function SetGoal(st: Store, i: nat, g: Goal): (r: Store)
    requires i < |st.goals|
    ensures |r.goals| == |st.goals| && r.goals[i] == g
    ensures forall j :: 0 <= j < |st.goals| && j != i ==> r.goals[j] == st.goals[j]
  {
    st.(goals := st.goals[i := g])
  }

  /** `PUT /update-saved/:id` (serverless): 404 for an unknown goal;
      otherwise a supplied `saved` is added to what the goal holds. */
  function UpdateSaved(st: Store, id: nat, delta: Option<int>): (r: (Reply<Goal>, Store))
    requires Wf(st)
    ensures r.0.Fail? <==> GoalIndex(st, id).None?
    ensures r.0.Fail? ==> r.0.status == NotFound && r.1 == st
    ensures r.0.Done? ==>
              var i := GoalIndex(st, id).value;
              var g := st.goals[i];
              r.0.value == g.(saved := g.saved + delta.GetOr(0))
              && r.1 == SetGoal(st, i, r.0.value) && Wf(r.1)
  {
    match GoalIndex(st, id)
    case None => (Fail(NotFound), st)
    case Some(i) =>
      var g := st.goals[i];
      var g' := if delta.Some? then g.(saved := g.saved + delta.value) else g;
      (Done(g'), SetGoal(st, i, g'))
  }

  /** `PATCH /goals/:id` (legacy): as `UpdateSaved`, but also 404 when the
      goal's owner no longer exists. */
  function LegacyPatchSaved(st: Store, id: nat, delta: Option<int>): (r: (Reply<Goal>, Store))
    requires Wf(st)
    ensures r.0.Fail? <==>
              GoalIndex(st, id).None? || FindUser(st, st.goals[GoalIndex(st, id).value].user).None?
    ensures r.0.Fail? ==> r.0.status == NotFound && r.1 == st
    ensures r.0.Done? ==> r == UpdateSaved(st, id, delta)
  {
    match GoalIndex(st, id)
    case None => (Fail(NotFound), st)
    case Some(i) =>
      if FindUser(st, st.goals[i].user).None? then (Fail(NotFound), st)
      else UpdateSaved(st, id, delta)
  }

  /** `PUT /update/:id` (serverless) and `PUT /:id` (legacy): 404 for an
      unknown goal; otherwise `saved` and `amount` are replaced when given. */
  function UpdateGoal(st: Store, id: nat, saved: Option<int>, amount: Option<int>): (r: (Reply<Goal>, Store))
    requires Wf(st)
    ensures r.0.Fail? <==> GoalIndex(st, id).None?
    ensures r.0.Fail? ==> r.0.status == NotFound && r.1 == st
    ensures r.0.Done? ==>
              var i := GoalIndex(st, id).value;
              var g := st.goals[i];
              r.0.value == g.(saved := saved.GetOr(g.saved), amount := amount.GetOr(g.amount))
              && r.1 == SetGoal(st, i, r.0.value) && Wf(r.1)
  {
    match GoalIndex(st, id)
    case None => (Fail(NotFound), st)
    case Some(i) =>
      var g := st.goals[i];
      var g' := g.(saved := if saved.Some? then saved.value else g.saved,
                   amount := if amount.Some? then amount.value else g.amount);
      (Done(g'), SetGoal(st, i, g'))
  }

  /** `DELETE /delete/:id` (serverless) and `DELETE /:id` (legacy): 404 for
      an unknown goal; otherwise it is removed. The reply is only a message;
      the deleted goal is returned here for the lemmas' use. */
  function DeleteGoal(st: Store, id: nat): (r: (Reply<Goal>, Store))
    requires Wf(st)
    ensures r.0.Fail? <==> GoalIndex(st, id).None?
    ensures r.0.Fail? ==> r.0.status == NotFound && r.1 == st
    ensures r.0.Done? ==>
              var i := GoalIndex(st, id).value;
              r.0.value == st.goals[i]
              && r.1 == st.(goals := RemoveAt(st.goals, i)) && Wf(r.1)
  {
    match GoalIndex(st, id)
    case None => (Fail(NotFound), st)
    case Some(i) =>
      var st' := st.(goals := RemoveAt(st.goals, i));
      assert forall j :: 0 <= j < |st'.goals| ==> st'.goals[j] in st.goals;
      (Done(st.goals[i]), st')
  }

  // ---------------------------------------------------------------------
  // Lemmas

  /** A goal created for an email is listed for that email afterwards. */
  lemma CreatedGoalIsListed(st: Store, email: string, f: GoalFields)
    requires Wf(st) && CreateUserGoal(st, email, f).0.Done?
    ensures var r := CreateUserGoal(st, email, f);
            GoalsByEmail(r.1, email).Done? && r.0.value in GoalsByEmail(r.1, email).value
            && LegacyGoalsByEmail(r.1, email).Done?
  {
    var r := CreateUserGoal(st, email, f);
    assert r.1.users == st.users;
    assert r.0.value in r.1.goals;
  }

  /** Two deposits add up: saving `a` then `b` is saving `a + b`. */
  lemma DepositsAdd(st: Store, id: nat, a: int, b: int)
    requires Wf(st)
    ensures var s1 := UpdateSaved(st, id, Some(a)).1;
            UpdateSaved(s1, id, Some(b)).1 == UpdateSaved(st, id, Some(a + b)).1
  {
    var r1 := UpdateSaved(st, id, Some(a));
    if r1.0.Done? {
      var i := GoalIndex(st, id).value;
      GoalIndexAfterSet(st, i, r1.0.value);
      assert r1.1.goals[i := r1.1.goals[i].(saved := r1.1.goals[i].saved + b)]
             == st.goals[i := st.goals[i].(saved := st.goals[i].saved + (a + b))];
    }
  }

  /** Replacing a goal with one of the same id keeps it where lookups find it. */
  lemma GoalIndexAfterSet(st: Store, i: nat, g: Goal)
    requires i < |st.goals| && GoalIndex(st, st.goals[i].id) == Some(i) && g.id == st.goals[i].id
    ensures GoalIndex(SetGoal(st, i, g), g.id) == Some(i)
  {
    var s := SetGoal(st, i, g);
    forall j | 0 <= j < i ensures s.goals[j].id != g.id {
      assert s.goals[j] == st.goals[j];
    }
    FirstIndexAt(s.goals, (y: Goal) => y.id == g.id, i);
  }

  /** Sending the same `/update` twice has the effect of sending it once. */
  lemma UpdateGoalIdempotent(st: Store, id: nat, saved: Option<int>, amount: Option<int>)
    requires Wf(st)
    ensures var s1 := UpdateGoal(st, id, saved, amount).1;
            UpdateGoal(s1, id, saved, amount).1 == s1
  {
    var r1 := UpdateGoal(st, id, saved, amount);
    if r1.0.Done? {
      var i := GoalIndex(st, id).value;
      GoalIndexAfterSet(st, i, r1.0.value);
      assert r1.1.goals[i := r1.1.goals[i]] == r1.1.goals;
    }
  }

  /** With unique ids, a deleted goal is gone: a second delete is 404. */
  lemma DeleteIsFinal(st: Store, id: nat)
    requires Wf(st) && UniqueGoalIds(st) && DeleteGoal(st, id).0.Done?
    ensures GoalIndex(DeleteGoal(st, id).1, id).None?
    ensures DeleteGoal(DeleteGoal(st, id).1, id).0 == Fail(NotFound)
  {
    var i := GoalIndex(st, id).value;
    var s := DeleteGoal(st, id).1;
    forall g | g in s.goals ensures g.id != id {
      var j :| 0 <= j < |s.goals| && s.goals[j] == g;
      if j < i {
        assert g == st.goals[j];
      } else {
        assert g == st.goals[j + 1];
      }
    }
  }
}

=== FILE: ledger.dfy ===
/** What every read path shares: the user's expenses (all, or those inside
    the budget window), the user's subscriptions, and the total that the
    projected subscription payments add, always obtained from the handlers'
    loop `Projector.ProjectAsWritten`. `IntendedTotal` is the same total over
    the intended projector `Projector.Occurrences`, and the loop's total
    never exceeds it.
 */
module Ledger {
  import opened Common
  import opened Calendar
  import opened Entities
  import opened Projector
  import opened Seqs

  /** `Expense.find({ user })`. */
  function UserExpenses(es: seq<Expense>, u: UserId): seq<Expense> {
    Filter(es, (e: Expense) => e.user == u)
  }

  /** `Expense.find({ user, date: { $gte: start, $lte: end } })`. */
  function WindowExpenses(es: seq<Expense>, u: UserId, start: CalDate, end: CalDate): seq<Expense> {
    Filter(es, (e: Expense) => e.user == u && InWindow(e.date, start, end))
  }

  /** `Subscription.find({ user })`. */
  function UserSubs(subs: seq<Subscription>, u: UserId): (r: seq<Subscription>)
    ensures forall s :: s in r <==> s in subs && s.user == u
  {
    Filter(subs, (s: Subscription) => s.user == u)
  }

  function Spent(es: seq<Expense>): int {
    Sum(es, (e: Expense) => e.amount)
  }

  /** What the subscriptions' projected payments add up to:
      each subscription contributes `amount × (number of due days)`. */
  function ProjectedTotal(subs: seq<Subscription>, start: CalDate, end: CalDate,
                          cutoff: Option<CalDate>): int
  {
    if subs == [] then 0
    else subs[0].amount * |ProjectAsWritten(subs[0], start, end, cutoff)|
         + ProjectedTotal(subs[1..], start, end, cutoff)
  }

  /** The same total over the intended projector: every due day of the window. */
  function IntendedTotal(subs: seq<Subscription>, start: CalDate, end: CalDate,
                         cutoff: Option<CalDate>): int
  {
    if subs == [] then 0
    else subs[0].amount * |Occurrences(subs[0], start, end, cutoff)|
         + IntendedTotal(subs[1..], start, end, cutoff)
  }

  /** With non-negative amounts, the payments the loop as written projects
      never add up to more than the payments actually due. */
  lemma {:induction false} ProjectedTotalWithinIntended(subs: seq<Subscription>, start: CalDate,
                                                        end: CalDate, cutoff: Option<CalDate>)
    requires forall s :: s in subs ==> s.amount >= 0
    ensures ProjectedTotal(subs, start, end, cutoff) <= IntendedTotal(subs, start, end, cutoff)
  {
    if subs != [] {
      var s := subs[0];
      assert s in subs;
      AsWrittenShorter(s, start, end, cutoff);
      ScaleMonotone(s.amount, |ProjectAsWritten(s, start, end, cutoff)|, |Occurrences(s, start, end, cutoff)|);
      ProjectedTotalWithinIntended(subs[1..], start, end, cutoff);
    }
  }

  /** With no negative subscription amounts, the projected total is not negative. */
  lemma {:induction false} ProjectedTotalNonNegative(subs: seq<Subscription>, start: CalDate,
                                                     end: CalDate, cutoff: Option<CalDate>)
    requires forall s :: s in subs ==> s.amount >= 0
    ensures ProjectedTotal(subs, start, end, cutoff) >= 0
  {
    if subs != [] {
      ProjectedTotalNonNegative(subs[1..], start, end, cutoff);
      var n := |ProjectAsWritten(subs[0], start, end, cutoff)|;
      assert subs[0].amount * n >= 0 by {
        assert subs[0] in subs;
      }
    }
  }

  /** When the window closes no later than the cutoff, the `<= today` total
      equals the full-window total. */
  lemma {:induction false} ProjectedTotalCutoffAfterWindow(subs: seq<Subscription>, start: CalDate,
                                                           end: CalDate, t: CalDate)
    requires Key(end) <= Key(t)
    ensures ProjectedTotal(subs, start, end, Some(t)) == ProjectedTotal(subs, start, end, None)
  {
    if subs != [] {
      ProjectAsWrittenAfterWindow(subs[0], start, end, t);
      ProjectedTotalCutoffAfterWindow(subs[1..], start, end, t);
    }
  }

  /** A cutoff never raises the total of non-negative payments. */
  lemma {:induction false} ProjectedTotalCutoffBelow(subs: seq<Subscription>, start: CalDate,
                                                     end: CalDate, t: CalDate)
    requires forall s :: s in subs ==> s.amount >= 0
    ensures ProjectedTotal(subs, start, end, Some(t)) <= ProjectedTotal(subs, start, end, None)
  {
    if subs != [] {
      var s := subs[0];
      assert s in subs;
      ProjectAsWrittenCutoff(s, start, end, t);
      UpToShorter(ProjectAsWritten(s, start, end, None), t);
      ScaleMonotone(s.amount, |ProjectAsWritten(s, start, end, Some(t))|, |ProjectAsWritten(s, start, end, None)|);
      ProjectedTotalCutoffBelow(subs[1..], start, end, t);
    }
  }

  lemma ScaleMonotone(x: int, a: int, b: int)
    requires x >= 0 && a <= b
    ensures x * a <= x * b
  {
    assert x * b - x * a == x * (b - a);
  }

  lemma {:induction false} UpToShorter(ds: seq<CalDate>, t: CalDate)
    ensures |UpTo(ds, t)| <= |ds|
  {
    if ds != [] {
      UpToShorter(ds[1..], t);
    }
  }
}

=== FILE: legacy_budget.dfy ===
/** The older Express `Budget` router: a create that appends without
    archiving, an update that only overrides fields, and a plain fetch.
 */
module LegacyBudget {
  import opened Common
  import opened Calendar
  import opened Entities
  import opened Seqs
  import opened Store
  import opened BudgetService

  /** `POST /create`: 404 for an unknown user; otherwise a new budget is
      appended with the balance exactly as the body gives it. Nothing is
      archived and an earlier budget of the user stays in place. */
  function LegacyCreate(st: Store, u: UserId, total: int, current: int,
                        start: CalDate, end: CalDate): (r: (Reply<Budget>, Store))
    ensures r.0.Fail? <==> FindUser(st, u).None?
    ensures r.0.Fail? ==> r.0.status == NotFound && r.1 == st
    ensures r.0.Done? ==>
              r.0.value == Budget(u, total, current, start, end)
              && r.1 == st.(budgets := st.budgets + [r.0.value])
  {
    match FindUser(st, u)
    case None => (Fail(NotFound), st)
    case Some(_) =>
      var b := Budget(u, total, current, start, end);
      (Done(b), st.(budgets := st.budgets + [b]))
  }

  /** Because `findOne` returns the first match, a second `/create` for a
      user who already has a budget is invisible to every later lookup: the
      old budget keeps answering. */
  lemma LegacyCreateShadowed(st: Store, u: UserId, total: int, current: int,
                             start: CalDate, end: CalDate)
    requires FindBudget(st, u).Some?
    ensures FindBudget(LegacyCreate(st, u, total, current, start, end).1, u) == FindBudget(st, u)
  {
    var r := LegacyCreate(st, u, total, current, start, end).1;
    var i := BudgetIndex(st, u).value;
    forall j | 0 <= j < i ensures r.budgets[j].user != u {
      assert r.budgets[j] == st.budgets[j];
    }
    assert r.budgets[i] == st.budgets[i];
    FirstIndexAt(r.budgets, (y: Budget) => y.user == u, i);
  }

  /** The first `/create` for a user is what later lookups find. */
  lemma LegacyCreateFirst(st: Store, u: UserId, total: int, current: int,
                          start: CalDate, end: CalDate)
    requires FindUser(st, u).Some? && FindBudget(st, u).None?
    ensures FindBudget(LegacyCreate(st, u, total, current, start, end).1, u)
            == Some(Budget(u, total, current, start, end))
  {
    var r := LegacyCreate(st, u, total, current, start, end).1;
    forall j | 0 <= j < |st.budgets| ensures r.budgets[j].user != u {
      assert r.budgets[j] == st.budgets[j];
      assert st.budgets[j] in st.budgets;
    }
    FirstIndexAt(r.budgets, (y: Budget) => y.user == u, |st.budgets|);
  }

  /** `PUT /update/:id`, where `id` is the user: 404 without a budget; 400
      when both dates are given and the start is not before the end;
      otherwise the supplied fields override the stored budget in place. No
      history is written and no expense is touched. */
  function LegacyUpdate(st: Store, u: UserId, total: Option<BodyFigure>, start: Option<CalDate>,
                        end: Option<CalDate>): (r: (Reply<Budget>, Store))
    ensures r.0 == Fail(NotFound) <==> FindBudget(st, u).None?
    ensures r.0 == Fail(BadRequest) <==>
              FindBudget(st, u).Some? && start.Some? && end.Some? && Key(start.value) >= Key(end.value)
    ensures r.0.Fail? ==> r.1 == st
    ensures r.0.Done? ==>
              var b := FindBudget(st, u).value;
              r.0.value == Overridden(b, total, start, end)
              && FindBudget(r.1, u) == Some(r.0.value)
              && r.1 == SetBudget(st, BudgetIndex(st, u).value, r.0.value)
  {
    match BudgetIndex(st, u)
    case None => (Fail(NotFound), st)
    case Some(i) =>
      if start.Some? && end.Some? && Key(start.value) >= Key(end.value) then (Fail(BadRequest), st)
      else
        var b := Overridden(st.budgets[i], total, start, end);
        var st' := SetBudget(st, i, b);
        assert BudgetIndex(st', u) == Some(i) by {
          assert forall j :: 0 <= j < i ==> st'.budgets[j] == st.budgets[j];
          FirstIndexAt(st'.budgets, (y: Budget) => y.user == u, i);
        }
        (Done(b), st')
  }

  /** `GET /fetch/:userId`: the stored figures, or 404. */
  function LegacyFetch(st: Store, u: UserId): (r: Reply<BudgetSummary>)
    ensures r.Fail? <==> FindBudget(st, u).None?
    ensures r.Fail? ==> r.status == NotFound
    ensures r.Done? ==>
              var b := FindBudget(st, u).value;
              r.value == BudgetSummary(b.totalAmount, b.currentAmount, b.startDate, b.endDate)
  {
    match FindBudget(st, u)
    case None => Fail(NotFound)
    case Some(b) => Done(BudgetSummary(b.totalAmount, b.currentAmount, b.startDate, b.endDate))
  }

  /** A fetch after a successful update reports the overridden figures: a
      truthy total resets the balance to it, and a date pair the update
      accepted is in order. */
  lemma LegacyUpdateThenFetch(st: Store, u: UserId, total: Option<BodyFigure>, start: Option<CalDate>,
                              end: Option<CalDate>)
    requires LegacyUpdate(st, u, total, start, end).0.Done?
    ensures var s := LegacyFetch(LegacyUpdate(st, u, total, start, end).1, u).value;
            var b := FindBudget(st, u).value;
            (Truthy(total) ==> s.totalAmount == total.value.n && s.currentAmount == total.value.n)
            && (!Truthy(total) ==> s.totalAmount == b.totalAmount && s.currentAmount == b.currentAmount)
            && s.startDate == start.GetOr(b.startDate) && s.endDate == end.GetOr(b.endDate)
            && (start.Some? && end.Some? ==> Key(s.startDate) < Key(s.endDate))
  {
  }
}

=== FILE: legacy_expense.dfy ===
/** The read routes of the older Express `Expense` router, which know nothing
    of subscriptions. Its `/add`, `/duration` and `/edit` handlers behave as
    the serverless ones (`ExpenseService.AddExpense`, `Duration`,
    `EditExpense`); it has no `/delete`.
 */
module LegacyExpense {
  import opened Common
  import opened Calendar
  import opened Entities
  import opened Seqs
  import opened Ledger
  import opened Store
  import opened DailyTotals
  import opened CategoryTotals
  import opened ExpenseService

  /** `GET /daily-expenses/:userId`: 404 without a budget; otherwise the
      in-window expenses grouped by day, ascending. */
  function LegacyDaily(st: Store, u: UserId): (r: Reply<seq<DayTotal>>)
    ensures r.Fail? <==> FindBudget(st, u).None?
    ensures r.Fail? ==> r.status == NotFound
    ensures r.Done? ==>
              var b := FindBudget(st, u).value;
              var mine := WindowExpenses(st.expenses, u, b.startDate, b.endDate);
              Ascending(r.value)
              && GrandTotal(r.value) == Spent(mine)
              && (forall k :: TotalOn(r.value, k) == SpentOn(mine, k))
              && DayKeys(r.value) == set e | e in mine :: Key(e.date)
  {
    match FindBudget(st, u)
    case None => Fail(NotFound)
    case Some(b) =>
      var mine := WindowExpenses(st.expenses, u, b.startDate, b.endDate);
      var r := TallyFrom([], ExpenseEntries(mine));
      assert forall k :: TotalOn(r, k) == SpentOn(mine, k) by {
        forall k ensures TotalOn(r, k) == SpentOn(mine, k) {
          ExpenseEntriesTotal(mine, k);
        }
      }
      ExpenseEntriesTotal(mine, 0);
      assert DayKeys(r) == set e | e in mine :: Key(e.date) by {
        ExpenseEntryKeys(mine);
      }
      Done(r)
  }

  lemma ExpenseEntryKeys(es: seq<Expense>)
    ensures EntryKeys(ExpenseEntries(es)) == set e | e in es :: Key(e.date)
  {
    var xs := ExpenseEntries(es);
    forall k | k in EntryKeys(xs) ensures k in set e | e in es :: Key(e.date) {
      var i :| 0 <= i < |xs| && Key(xs[i].date) == k;
      assert es[i] in es;
    }
    forall k | k in (set e | e in es :: Key(e.date)) ensures k in EntryKeys(xs) {
      var e :| e in es && Key(e.date) == k;
      var i :| 0 <= i < |es| && es[i] == e;
      assert xs[i].date == e.date;
    }
  }

  /** For a user without subscriptions the old daily route and the serverless
      one return the same series. */
  lemma LegacyDailyWithoutSubscriptions(st: Store, u: UserId)
    requires forall s :: s in st.subscriptions ==> s.user != u
    ensures LegacyDaily(st, u) == DailyExpenses(st, u)
  {
    if FindBudget(st, u).Some? {
      var b := FindBudget(st, u).value;
      FilterNone(st.subscriptions, (s: Subscription) => s.user == u);
      var booked := ExpenseEntries(WindowExpenses(st.expenses, u, b.startDate, b.endDate));
      assert booked + [] == booked;
    }
  }

  /** `GET /all/:user`: 404 when the user has no expense; otherwise all of
      them, in store order, with no window. */
  function LegacyAll(st: Store, u: UserId): (r: Reply<seq<Expense>>)
    ensures r.Fail? <==> forall e :: e in st.expenses ==> e.user != u
    ensures r.Fail? ==> r.status == NotFound
    ensures r.Done? ==> forall e :: e in r.value <==> e in st.expenses && e.user == u
  {
    var mine := UserExpenses(st.expenses, u);
    if mine == [] then Fail(NotFound)
    else
      assert mine[0] in mine;
      Done(mine)
  }

  /** `GET /category-percentage/:user`: 404 when the user has no expense;
      otherwise every category of the user's expenses with its sum and
      `sum / total * 100`, with no guard on the total. */
  function LegacyCategory(st: Store, u: UserId): (r: Reply<seq<Share>>)
    ensures r.Fail? <==> forall e :: e in st.expenses ==> e.user != u
    ensures r.Fail? ==> r.status == NotFound
  {
    var mine := UserExpenses(st.expenses, u);
    if mine == [] then Fail(NotFound)
    else
      assert mine[0] in mine;
      Done(RawShares(GroupFrom([], ExpenseItems(mine)), Spent(mine)))
  }

  lemma {:induction false} SpentPositive(es: seq<Expense>)
    requires es != [] && forall e :: e in es ==> e.amount > 0
    ensures Spent(es) > 0
  {
    assert es[0] in es;
    if |es| > 1 {
      forall e | e in es[1..] ensures e.amount > 0 {
        assert e in es;
      }
      SpentPositive(es[1..]);
    } else {
      assert Spent(es[1..]) == 0;
    }
  }

  /** The old category route lists each category of the user's expenses once
      with what was spent in it; the sums add up to the total spend. When
      every amount is positive the percentages share the total as
      denominator and add up to 100; over a total of 0 they are `0 / 0`,
      which JavaScript turns into `NaN`. */
  lemma LegacyCategoryContents(st: Store, u: UserId, k: string)
    requires LegacyCategory(st, u).Done?
    ensures var mine := UserExpenses(st.expenses, u);
            var ss := LegacyCategory(st, u).value;
            (forall i, j :: 0 <= i < j < |ss| ==> ss[i].category != ss[j].category)
            && (set s | s in ss :: s.category) == ExpenseNames(mine)
            && (forall i :: 0 <= i < |ss| && ss[i].category == k ==> ss[i].amount == SpentIn(mine, k))
            && (forall i :: 0 <= i < |ss| ==> ss[i].percent.den == Spent(mine))
            && PercentNumerators(ss) == 100 * Spent(mine)
            && ((forall e :: e in mine ==> e.amount > 0) ==> Spent(mine) > 0)
  {
    var mine := UserExpenses(st.expenses, u);
    var cs := GroupFrom([], ExpenseItems(mine));
    var ss := LegacyCategory(st, u).value;
    ExpenseItemsFacts(mine, k);
    assert Names([]) == {};
    assert TotalOf([]) == 0;
    assert AmountOf([], k) == 0;
    forall i | 0 <= i < |ss| && ss[i].category == k ensures ss[i].amount == SpentIn(mine, k) {
      AmountOfDistinct(cs, i);
    }
    assert (set s | s in ss :: s.category) == Names(cs) by {
      forall c | c in Names(cs) ensures c in set s | s in ss :: s.category {
        var i :| 0 <= i < |cs| && cs[i].category == c;
        assert ss[i] in ss;
      }
      forall c | c in (set s | s in ss :: s.category) ensures c in Names(cs) {
        var s :| s in ss && s.category == c;
        var i :| 0 <= i < |ss| && ss[i] == s;
        assert cs[i].category == c;
      }
    }
    SumOfShares(ss, cs);
    if forall e :: e in mine ==> e.amount > 0 {
      SpentPositive(mine);
    }
  }
}

=== FILE: projector.dfy ===
/** The recurrence projector: a subscription stores only its start date,
    cycle and amount, and every read path expands it into the concrete days
    it falls due inside a budget window `[start, end]`, sometimes with a
    further cutoff `<= today`.

    Two definitions live here.
    - `MonthlyLoop`, `MonthlyAsWritten`, `YearlyAsWritten` and
      `ProjectAsWritten` follow the handlers' loop exactly: `temp` walks from
      `start` by `setMonth(+1)` while `temp <= end`, and a yearly
      subscription is tried in `start`'s year only. This is what the ledger
      views, the balance and the archiver run.
    - `Occurrences` visits every calendar month (every year) of the window:
      the projection the handlers evidently intend. The loop as written
      only ever omits days this one finds (`AsWrittenWithinCorrected`,
      `AsWrittenShorter`); the lemmas at the end exhibit the inputs where
      it does.
    Both build each candidate the same way: `new Date(y, m, anchorDay)`, with
    the roll-over `MakeDate` models.
 */
module Projector {
  import opened Common
  import opened Calendar
  import opened Entities

  predicate InWindow(d: CalDate, start: CalDate, end: CalDate) {
    Key(start) <= Key(d) <= Key(end)
  }

  /** The emission test of every call site: inside the window and, when a
      cutoff is given, not after it. */
  predicate Emits(d: CalDate, start: CalDate, end: CalDate, cutoff: Option<CalDate>) {
    InWindow(d, start, end) && (cutoff.None? || Key(d) <= Key(cutoff.value))
  }

  predicate StrictlyIncreasing(ds: seq<CalDate>) {
    forall i, j :: 0 <= i < j < |ds| ==> Key(ds[i]) < Key(ds[j])
  }

  // ---------------------------------------------------------------------
  // The loop as written

  /** One pass of `while (temp <= end) { ...; temp.setMonth(temp.getMonth() + 1) }`
      with candidate `new Date(temp.getFullYear(), temp.getMonth(), anchor)`.
      The walk ends because `temp` gains at least one month per pass; a pass
      emits at most one day, and only a day the emission test accepts. */
  function MonthlyLoop(temp: CalDate, start: CalDate, end: CalDate, anchor: int,
                       cutoff: Option<CalDate>): (r: seq<CalDate>)
    requires 1 <= anchor <= 31
    ensures forall i :: 0 <= i < |r| ==> Emits(r[i], start, end, cutoff)
    ensures Key(temp) > Key(end) ==> r == []
    ensures Key(temp) <= Key(end) ==> |r| <= MonthIndex(end) - MonthIndex(temp) + 1
    decreases MonthIndex(end) - MonthIndex(temp)
  {
    if Key(temp) > Key(end) then []
    else
      KeyMonthOrder(temp, end);
      var c := MakeDate(temp.year, temp.month, anchor);
      var next := AddMonth(temp);
      KeyMonthOrder(next, end);
      (if Emits(c, start, end, cutoff) then [c] else []) + MonthlyLoop(next, start, end, anchor, cutoff)
  }

  /** The monthly branch as written: `temp` starts at the window start and
      the anchor is the day of month of the subscription's start date. */
  function MonthlyAsWritten(sub: Subscription, start: CalDate, end: CalDate,
                            cutoff: Option<CalDate>): seq<CalDate>
  {
    MonthlyLoop(start, start, end, sub.startDate.day, cutoff)
  }

  /** The yearly branch as written: the anniversary in `start`'s year only. */
  function YearlyAsWritten(sub: Subscription, start: CalDate, end: CalDate,
                           cutoff: Option<CalDate>): (r: seq<CalDate>)
    ensures |r| <= 1
    ensures forall i :: 0 <= i < |r| ==> r[i].year == start.year && Emits(r[i], start, end, cutoff)
  {
    var c := MakeDate(start.year, sub.startDate.month, sub.startDate.day);
    if Emits(c, start, end, cutoff) then [c] else []
  }

  /** The `if`/`else if` on the cycle: the monthly loop, the yearly
      candidate, and nothing for any other cycle. */
  function ProjectAsWritten(sub: Subscription, start: CalDate, end: CalDate,
                            cutoff: Option<CalDate>): (r: seq<CalDate>)
    ensures forall i :: 0 <= i < |r| ==> Emits(r[i], start, end, cutoff)
    ensures sub.cycle.Monthly? ==> r == MonthlyLoop(start, start, end, sub.startDate.day, cutoff)
    ensures sub.cycle.Yearly? ==> r == YearlyAsWritten(sub, start, end, cutoff)
    ensures !Periodic(sub.cycle) ==> r == []
  {
    match sub.cycle
    case Monthly => MonthlyAsWritten(sub, start, end, cutoff)
    case Yearly => YearlyAsWritten(sub, start, end, cutoff)
    case OtherCycle(_) => []
  }

  // ---------------------------------------------------------------------
  // The intended projector

  predicate Periodic(c: Cycle) {
    c.Monthly? || c.Yearly?
  }

  /** The due day of period `k`: month `k` (counted by `MonthIndex`) for a
      monthly subscription, year `k` for a yearly one. */
  function Candidate(sub: Subscription, k: int): (c: CalDate)
    requires Periodic(sub.cycle)
  {
    if sub.cycle.Monthly? then MakeDate(k / 12, k % 12, sub.startDate.day)
    else MakeDate(k, sub.startDate.month, sub.startDate.day)
  }

  /** The due days of periods `k..last` that pass the emission test, in period order. */
  function Scan(sub: Subscription, k: int, last: int, start: CalDate, end: CalDate,
                cutoff: Option<CalDate>): (r: seq<CalDate>)
    requires Periodic(sub.cycle)
    ensures forall i :: 0 <= i < |r| ==> Emits(r[i], start, end, cutoff)
    ensures |r| <= if k <= last then last - k + 1 else 0
    decreases last - k + 1
  {
    if k > last then []
    else
      var c := Candidate(sub, k);
      (if Emits(c, start, end, cutoff) then [c] else []) + Scan(sub, k + 1, last, start, end, cutoff)
  }

  function FirstPeriod(sub: Subscription, start: CalDate): int {
    if sub.cycle.Monthly? then MonthIndex(start) else start.year
  }

  function LastPeriod(sub: Subscription, end: CalDate): int {
    if sub.cycle.Monthly? then MonthIndex(end) else end.year
  }

  /** The days a subscription falls due in `[start, end]` (and not after
      `cutoff`, when one is given), in chronological order. */
  function Occurrences(sub: Subscription, start: CalDate, end: CalDate,
                       cutoff: Option<CalDate>): (r: seq<CalDate>)
    ensures forall i :: 0 <= i < |r| ==> Emits(r[i], start, end, cutoff)
  {
    if Periodic(sub.cycle) then
      Scan(sub, FirstPeriod(sub, start), LastPeriod(sub, end), start, end, cutoff)
    else []
  }

  /** The due days of a subscription: its candidates over all periods. */
  ghost predicate DueIn(sub: Subscription, d: CalDate, lo: int, hi: int)
    requires Periodic(sub.cycle)
  {
    exists k :: lo <= k <= hi && d == Candidate(sub, k)
  }

  // ---------------------------------------------------------------------
  // Properties of the projector

  lemma MonthlyCandidateMonth(sub: Subscription, k: int)
    requires sub.cycle.Monthly?
    ensures var c := Candidate(sub, k);
            (MonthIndex(c) == k && c.day == sub.startDate.day) ||
            (MonthIndex(c) == k + 1 && c.day <= 3 && c.day < sub.startDate.day)
  {
    MonthOfIndex(k);
  }

  lemma YearlyCandidateYear(sub: Subscription, k: int)
    requires sub.cycle.Yearly?
    ensures Candidate(sub, k).year == k
  {
  }

  /** Due days strictly increase with the period. */
  lemma CandidateStep(sub: Subscription, k: int)
    requires Periodic(sub.cycle)
    ensures Key(Candidate(sub, k)) < Key(Candidate(sub, k + 1))
  {
    var a, b := Candidate(sub, k), Candidate(sub, k + 1);
    KeyMonthOrder(a, b);
    KeyMonthOrder(b, a);
    if sub.cycle.Monthly? {
      MonthlyCandidateMonth(sub, k);
      MonthlyCandidateMonth(sub, k + 1);
    } else {
      YearlyCandidateYear(sub, k);
      YearlyCandidateYear(sub, k + 1);
    }
  }

  lemma {:induction false} CandidateMonotone(sub: Subscription, i: int, j: int)
    requires Periodic(sub.cycle) && i < j
    ensures Key(Candidate(sub, i)) < Key(Candidate(sub, j))
    decreases j - i
  {
    CandidateStep(sub, i);
    if i + 1 < j {
      CandidateMonotone(sub, i + 1, j);
    }
  }

  /** Exactly the due days of periods `k..last` that pass the emission test. */
  lemma {:induction false} ScanMembers(sub: Subscription, k: int, last: int, start: CalDate,
                                       end: CalDate, cutoff: Option<CalDate>, d: CalDate)
    requires Periodic(sub.cycle)
    ensures d in Scan(sub, k, last, start, end, cutoff) <==>
              Emits(d, start, end, cutoff) && DueIn(sub, d, k, last)
    decreases last - k + 1
  {
    if k <= last {
      ScanMembers(sub, k + 1, last, start, end, cutoff, d);
      if Emits(d, start, end, cutoff) && DueIn(sub, d, k, last) {
        var j :| k <= j <= last && d == Candidate(sub, j);
        if j != k {
          assert DueIn(sub, d, k + 1, last);
        }
      }
      if DueIn(sub, d, k + 1, last) {
        var j :| k + 1 <= j <= last && d == Candidate(sub, j);
        assert DueIn(sub, d, k, last);
      }
    }
  }

  /** Every element of a scan is the due day of some period not before `k`. */
  lemma {:induction false} ScanFrom(sub: Subscription, k: int, last: int, start: CalDate,
                                    end: CalDate, cutoff: Option<CalDate>)
    requires Periodic(sub.cycle)
    ensures forall d :: d in Scan(sub, k, last, start, end, cutoff) ==> Key(Candidate(sub, k)) <= Key(d)
    decreases last - k + 1
  {
    if k <= last {
      ScanFrom(sub, k + 1, last, start, end, cutoff);
      CandidateStep(sub, k);
    }
  }

  lemma {:induction false} ScanIncreasing(sub: Subscription, k: int, last: int, start: CalDate,
                                          end: CalDate, cutoff: Option<CalDate>)
    requires Periodic(sub.cycle)
    ensures StrictlyIncreasing(Scan(sub, k, last, start, end, cutoff))
    decreases last - k + 1
  {
    if k <= last {
      ScanIncreasing(sub, k + 1, last, start, end, cutoff);
      ScanFrom(sub, k + 1, last, start, end, cutoff);
      CandidateStep(sub, k);
      var rest := Scan(sub, k + 1, last, start, end, cutoff);
      forall i | 0 <= i < |rest| ensures Key(Candidate(sub, k)) < Key(rest[i]) {
        assert rest[i] in rest;
      }
    }
  }

  /** A day is projected exactly when it passes the emission test and is the
      due day of one of the window's calendar months (years). */
  lemma OccurrencesExact(sub: Subscription, start: CalDate, end: CalDate,
                         cutoff: Option<CalDate>, d: CalDate)
    requires Periodic(sub.cycle)
    ensures d in Occurrences(sub, start, end, cutoff) <==>
              Emits(d, start, end, cutoff) && DueIn(sub, d, FirstPeriod(sub, start), LastPeriod(sub, end))
  {
    ScanMembers(sub, FirstPeriod(sub, start), LastPeriod(sub, end), start, end, cutoff, d);
  }

  /** Projected days are in chronological order and never repeat. */
  lemma OccurrencesIncreasing(sub: Subscription, start: CalDate, end: CalDate, cutoff: Option<CalDate>)
    ensures StrictlyIncreasing(Occurrences(sub, start, end, cutoff))
  {
    if Periodic(sub.cycle) {
      ScanIncreasing(sub, FirstPeriod(sub, start), LastPeriod(sub, end), start, end, cutoff);
    }
  }

  /** No more days than the calendar months (years) the window touches. A
      single month can still hold two: a due day of 31 rolls April's payment
      into 1 May. */
  lemma OccurrencesCount(sub: Subscription, start: CalDate, end: CalDate, cutoff: Option<CalDate>)
    requires Key(start) <= Key(end)
    ensures sub.cycle.Monthly? ==>
              |Occurrences(sub, start, end, cutoff)| <= MonthIndex(end) - MonthIndex(start) + 1
    ensures sub.cycle.Yearly? ==>
              |Occurrences(sub, start, end, cutoff)| <= end.year - start.year + 1
  {
    KeyMonthOrder(start, end);
  }

  /** The days up to and including `t`, in order. */
  function UpTo(ds: seq<CalDate>, t: CalDate): (r: seq<CalDate>)
    ensures forall i :: 0 <= i < |r| ==> Key(r[i]) <= Key(t)
    ensures forall d :: d in r <==> d in ds && Key(d) <= Key(t)
  {
    if ds == [] then []
    else (if Key(ds[0]) <= Key(t) then [ds[0]] else []) + UpTo(ds[1..], t)
  }

  lemma {:induction false} ScanCutoff(sub: Subscription, k: int, last: int, start: CalDate,
                                      end: CalDate, t: CalDate)
    requires Periodic(sub.cycle)
    ensures Scan(sub, k, last, start, end, Some(t)) == UpTo(Scan(sub, k, last, start, end, None), t)
    decreases last - k + 1
  {
    if k <= last {
      ScanCutoff(sub, k + 1, last, start, end, t);
      var c := Candidate(sub, k);
      var tail := Scan(sub, k + 1, last, start, end, None);
      var all := (if Emits(c, start, end, None) then [c] else []) + tail;
      if Emits(c, start, end, None) {
        assert all[0] == c && all[1..] == tail;
      } else {
        assert all == tail;
      }
    }
  }

  /** The `<= today` views see exactly the full-window projection cut at `today`. */
  lemma CutoffIsFilter(sub: Subscription, start: CalDate, end: CalDate, t: CalDate)
    ensures Occurrences(sub, start, end, Some(t)) == UpTo(Occurrences(sub, start, end, None), t)
  {
    if Periodic(sub.cycle) {
      ScanCutoff(sub, FirstPeriod(sub, start), LastPeriod(sub, end), start, end, t);
    }
  }

  /** When the window closes no later than the cutoff, the cutoff removes nothing. */
  lemma CutoffAfterWindow(sub: Subscription, start: CalDate, end: CalDate, t: CalDate)
    requires Key(end) <= Key(t)
    ensures Occurrences(sub, start, end, Some(t)) == Occurrences(sub, start, end, None)
  {
    CutoffIsFilter(sub, start, end, t);
    var all := Occurrences(sub, start, end, None);
    UpToAll(all, t);
  }

  lemma {:induction false} UpToAll(ds: seq<CalDate>, t: CalDate)
    requires forall i :: 0 <= i < |ds| ==> Key(ds[i]) <= Key(t)
    ensures UpTo(ds, t) == ds
  {
    if ds != [] {
      UpToAll(ds[1..], t);
      assert [ds[0]] + ds[1..] == ds;
    }
  }

  // ---------------------------------------------------------------------
  // The loop as written against the intended projector

  lemma KeyYearOrder(a: CalDate, b: CalDate)
    requires Key(a) <= Key(b)
    ensures a.year <= b.year
  {
    KeyMonthOrder(a, b);
  }

  /** One pass of the loop as written. */
  lemma LoopStep(temp: CalDate, start: CalDate, end: CalDate, anchor: int, cutoff: Option<CalDate>)
    requires 1 <= anchor <= 31 && Key(temp) <= Key(end)
    ensures var c := MakeDate(temp.year, temp.month, anchor);
            MonthlyLoop(temp, start, end, anchor, cutoff)
            == (if Emits(c, start, end, cutoff) then [c] else []) + MonthlyLoop(AddMonth(temp), start, end, anchor, cutoff)
  {
  }

  /** The due day of the month a loop pass sits in. */
  lemma CandidateAtMonth(sub: Subscription, t: CalDate)
    requires sub.cycle.Monthly?
    ensures Candidate(sub, MonthIndex(t)) == MakeDate(t.year, t.month, sub.startDate.day)
  {
    MonthOfIndex(MonthIndex(t));
  }

  lemma {:induction false} MonthlyLoopDue(sub: Subscription, temp: CalDate, start: CalDate,
                                          end: CalDate, cutoff: Option<CalDate>)
    requires sub.cycle.Monthly?
    ensures forall d :: d in MonthlyLoop(temp, start, end, sub.startDate.day, cutoff) ==>
              DueIn(sub, d, MonthIndex(temp), MonthIndex(end))
    decreases MonthIndex(end) - MonthIndex(temp)
  {
    if Key(temp) <= Key(end) {
      KeyMonthOrder(temp, end);
      var next := AddMonth(temp);
      KeyMonthOrder(next, end);
      MonthlyLoopDue(sub, next, start, end, cutoff);
      LoopStep(temp, start, end, sub.startDate.day, cutoff);
      CandidateAtMonth(sub, temp);
      var c := MakeDate(temp.year, temp.month, sub.startDate.day);
      var rest := MonthlyLoop(next, start, end, sub.startDate.day, cutoff);
      forall d | d in rest
        ensures DueIn(sub, d, MonthIndex(temp), MonthIndex(end))
      {
        var j :| MonthIndex(next) <= j <= MonthIndex(end) && d == Candidate(sub, j);
      }
      if Emits(c, start, end, cutoff) {
        assert DueIn(sub, c, MonthIndex(temp), MonthIndex(end));
      }
    }
  }

  /** The loop as written only ever omits due days: everything it emits, the
      intended projector emits too. */
  lemma AsWrittenWithinCorrected(sub: Subscription, start: CalDate, end: CalDate,
                                 cutoff: Option<CalDate>, d: CalDate)
    requires d in ProjectAsWritten(sub, start, end, cutoff)
    ensures d in Occurrences(sub, start, end, cutoff)
  {
    if sub.cycle.Monthly? {
      MonthlyLoopDue(sub, start, start, end, cutoff);
      OccurrencesExact(sub, start, end, cutoff, d);
    } else {
      assert d == Candidate(sub, start.year);
      KeyYearOrder(start, end);
      OccurrencesExact(sub, start, end, cutoff, d);
    }
  }

  // ---------------------------------------------------------------------
  // Properties of the loop as written, which every view runs

  /** Each pass of the loop sits in a later month than the one before, and
      due days grow with the month, so the loop emits days in strictly
      increasing order. */
  lemma {:induction false} MonthlyLoopIncreasing(sub: Subscription, temp: CalDate, start: CalDate,
                                                 end: CalDate, cutoff: Option<CalDate>)
    requires sub.cycle.Monthly?
    ensures StrictlyIncreasing(MonthlyLoop(temp, start, end, sub.startDate.day, cutoff))
    decreases MonthIndex(end) - MonthIndex(temp)
  {
    if Key(temp) <= Key(end) {
      KeyMonthOrder(temp, end);
      var next := AddMonth(temp);
      KeyMonthOrder(next, end);
      MonthlyLoopIncreasing(sub, next, start, end, cutoff);
      MonthlyLoopDue(sub, next, start, end, cutoff);
      LoopStep(temp, start, end, sub.startDate.day, cutoff);
      CandidateAtMonth(sub, temp);
      var c := MakeDate(temp.year, temp.month, sub.startDate.day);
      var rest := MonthlyLoop(next, start, end, sub.startDate.day, cutoff);
      forall i | 0 <= i < |rest| ensures Key(c) < Key(rest[i]) {
        assert rest[i] in rest;
        var j :| MonthIndex(next) <= j <= MonthIndex(end) && rest[i] == Candidate(sub, j);
        CandidateMonotone(sub, MonthIndex(temp), j);
      }
    }
  }

  /** The handlers' projection never repeats a day and lists days in order. */
  lemma ProjectAsWrittenIncreasing(sub: Subscription, start: CalDate, end: CalDate, cutoff: Option<CalDate>)
    ensures StrictlyIncreasing(ProjectAsWritten(sub, start, end, cutoff))
  {
    if sub.cycle.Monthly? {
      MonthlyLoopIncreasing(sub, start, start, end, cutoff);
    }
  }

  /** The loop's walk does not depend on the cutoff; the cutoff only filters
      what a pass emits. */
  lemma {:induction false} LoopCutoff(temp: CalDate, start: CalDate, end: CalDate, anchor: int, t: CalDate)
    requires 1 <= anchor <= 31
    ensures MonthlyLoop(temp, start, end, anchor, Some(t)) == UpTo(MonthlyLoop(temp, start, end, anchor, None), t)
    decreases MonthIndex(end) - MonthIndex(temp)
  {
    if Key(temp) <= Key(end) {
      KeyMonthOrder(temp, end);
      var next := AddMonth(temp);
      KeyMonthOrder(next, end);
      LoopCutoff(next, start, end, anchor, t);
      LoopStep(temp, start, end, anchor, Some(t));
      LoopStep(temp, start, end, anchor, None);
      var c := MakeDate(temp.year, temp.month, anchor);
      var tail := MonthlyLoop(next, start, end, anchor, None);
      var all := (if Emits(c, start, end, None) then [c] else []) + tail;
      if Emits(c, start, end, None) {
        assert all[0] == c && all[1..] == tail;
      } else {
        assert all == tail;
      }
    }
  }

  /** The `subDate <= today` projection of the category and merged views is
      the `/daily-expenses` projection cut at `today`. */
  lemma ProjectAsWrittenCutoff(sub: Subscription, start: CalDate, end: CalDate, t: CalDate)
    ensures ProjectAsWritten(sub, start, end, Some(t)) == UpTo(ProjectAsWritten(sub, start, end, None), t)
  {
    match sub.cycle
    case Monthly =>
      LoopCutoff(start, start, end, sub.startDate.day, t);
    case Yearly =>
      var c := MakeDate(start.year, sub.startDate.month, sub.startDate.day);
      assert [c][1..] == [];
    case OtherCycle(_) =>
  }

  /** Once the window has closed by `today`, the cutoff removes nothing. */
  lemma ProjectAsWrittenAfterWindow(sub: Subscription, start: CalDate, end: CalDate, t: CalDate)
    requires Key(end) <= Key(t)
    ensures ProjectAsWritten(sub, start, end, Some(t)) == ProjectAsWritten(sub, start, end, None)
  {
    ProjectAsWrittenCutoff(sub, start, end, t);
    UpToAll(ProjectAsWritten(sub, start, end, None), t);
  }

  /** An increasing list of days all found in another increasing list is no longer. */
  lemma {:induction false} IncreasingWithinShorter(a: seq<CalDate>, b: seq<CalDate>)
    requires StrictlyIncreasing(a) && StrictlyIncreasing(b)
    requires forall x :: x in a ==> x in b
    ensures |a| <= |b|
    decreases |b|
  {
    if a != [] {
      assert a[0] in a;
      var b0 := b[0];
      assert StrictlyIncreasing(b[1..]);
      if a[0] == b0 {
        assert StrictlyIncreasing(a[1..]);
        forall x | x in a[1..] ensures x in b[1..] {
          var i :| 0 <= i < |a[1..]| && a[1..][i] == x;
          assert Key(a[0]) < Key(a[i + 1]) && a[i + 1] in a;
          var j :| 0 <= j < |b| && b[j] == x;
          assert b[1..][j - 1] == x;
        }
        IncreasingWithinShorter(a[1..], b[1..]);
      } else {
        var j0 :| 0 <= j0 < |b| && b[j0] == a[0];
        assert Key(b0) < Key(a[0]);
        forall x | x in a ensures x in b[1..] {
          var i :| 0 <= i < |a| && a[i] == x;
          assert Key(a[0]) <= Key(x);
          var j :| 0 <= j < |b| && b[j] == x;
          assert b[1..][j - 1] == x;
        }
        IncreasingWithinShorter(a, b[1..]);
      }
    }
  }

  /** The loop as written never projects more payments than are due. */
  lemma AsWrittenShorter(sub: Subscription, start: CalDate, end: CalDate, cutoff: Option<CalDate>)
    ensures |ProjectAsWritten(sub, start, end, cutoff)| <= |Occurrences(sub, start, end, cutoff)|
  {
    ProjectAsWrittenIncreasing(sub, start, end, cutoff);
    OccurrencesIncreasing(sub, start, end, cutoff);
    forall d | d in ProjectAsWritten(sub, start, end, cutoff) ensures d in Occurrences(sub, start, end, cutoff) {
      AsWrittenWithinCorrected(sub, start, end, cutoff, d);
    }
    IncreasingWithinShorter(ProjectAsWritten(sub, start, end, cutoff), Occurrences(sub, start, end, cutoff));
  }

  /** A monthly subscription from 15 January 2024, over the first quarter of
      2024, falls due on the 15th of each month, under both definitions. */
  lemma QuarterOfMonthlyPayments()
    ensures var sub := Subscription(1, 1, "Gym", 50, Monthly, "", Day(2024, 0, 15));
            var start, end := Day(2024, 0, 1), Day(2024, 2, 31);
            var due := [Day(2024, 0, 15), Day(2024, 1, 15), Day(2024, 2, 15)];
            Occurrences(sub, start, end, None) == due && ProjectAsWritten(sub, start, end, None) == due
  {
    QuarterScan();
    QuarterLoop();
    var sub := Subscription(1, 1, "Gym", 50, Monthly, "", Day(2024, 0, 15));
    assert ProjectAsWritten(sub, Day(2024, 0, 1), Day(2024, 2, 31), None)
           == MonthlyLoop(Day(2024, 0, 1), Day(2024, 0, 1), Day(2024, 2, 31), 15, None);
  }

  lemma QuarterScan()
    ensures Occurrences(Subscription(1, 1, "Gym", 50, Monthly, "", Day(2024, 0, 15)),
                        Day(2024, 0, 1), Day(2024, 2, 31), None)
            == [Day(2024, 0, 15), Day(2024, 1, 15), Day(2024, 2, 15)]
  {
    var sub := Subscription(1, 1, "Gym", 50, Monthly, "", Day(2024, 0, 15));
    var start, end := Day(2024, 0, 1), Day(2024, 2, 31);
    var a, b, c := Day(2024, 0, 15), Day(2024, 1, 15), Day(2024, 2, 15);
    assert MonthIndex(start) == 24288 && MonthIndex(end) == 24290;
    assert Candidate(sub, 24290) == c;
    assert Scan(sub, 24290, 24290, start, end, None) == [c];
    assert Candidate(sub, 24289) == b;
    assert Scan(sub, 24289, 24290, start, end, None) == [b, c];
    assert Candidate(sub, 24288) == a;
  }

  lemma QuarterDates()
    ensures AddMonth(Day(2024, 0, 1)) == Day(2024, 1, 1)
    ensures AddMonth(Day(2024, 1, 1)) == Day(2024, 2, 1)
    ensures AddMonth(Day(2024, 2, 1)) == Day(2024, 3, 1)
    ensures MakeDate(2024, 0, 15) == Day(2024, 0, 15)
    ensures MakeDate(2024, 1, 15) == Day(2024, 1, 15)
    ensures MakeDate(2024, 2, 15) == Day(2024, 2, 15)
  {
    assert DaysIn(2024, 1) == 29 && DaysIn(2024, 2) == 31 && DaysIn(2024, 3) == 30;
  }

  lemma QuarterLoop()
    ensures MonthlyLoop(Day(2024, 0, 1), Day(2024, 0, 1), Day(2024, 2, 31), 15, None)
            == [Day(2024, 0, 15), Day(2024, 1, 15), Day(2024, 2, 15)]
  {
    var start, end := Day(2024, 0, 1), Day(2024, 2, 31);
    var a, b, c := Day(2024, 0, 15), Day(2024, 1, 15), Day(2024, 2, 15);
    var feb, mar, apr := Day(2024, 1, 1), Day(2024, 2, 1), Day(2024, 3, 1);
    QuarterDates();
    assert Emits(a, start, end, None) && Emits(b, start, end, None) && Emits(c, start, end, None);
    assert MonthlyLoop(apr, start, end, 15, None) == [] by { assert Key(apr) > Key(end); }
    LoopStep(mar, start, end, 15, None);
    LoopStep(feb, start, end, 15, None);
    LoopStep(start, start, end, 15, None);
  }

  lemma AsWrittenMissesLastMonth()
    ensures var sub := Subscription(1, 1, "Rent", 500, Monthly, "", Day(2023, 5, 5));
            var start, end := Day(2024, 0, 20), Day(2024, 2, 10);
            && InWindow(Day(2024, 2, 5), start, end)
            && ProjectAsWritten(sub, start, end, None) == [Day(2024, 1, 5)]
            && Occurrences(sub, start, end, None) == [Day(2024, 1, 5), Day(2024, 2, 5)]
  {
    var sub := Subscription(1, 1, "Rent", 500, Monthly, "", Day(2023, 5, 5));
    var start, end := Day(2024, 0, 20), Day(2024, 2, 10);
    var b, c := Day(2024, 1, 5), Day(2024, 2, 5);
    assert MonthIndex(start) == 24288 && MonthIndex(end) == 24290;
    assert Candidate(sub, 24290) == c;
    assert Scan(sub, 24290, 24290, start, end, None) == [c];
    assert Candidate(sub, 24289) == b;
    assert Scan(sub, 24289, 24290, start, end, None) == [b, c];
    assert Candidate(sub, 24288) == Day(2024, 0, 5);
    assert Scan(sub, 24288, 24290, start, end, None) == [b, c];
    var feb, mar := Day(2024, 1, 20), Day(2024, 2, 20);
    assert AddMonth(start) == feb && AddMonth(feb) == mar;
    assert MonthlyLoop(mar, start, end, 5, None) == [];
    assert MonthlyLoop(feb, start, end, 5, None) == [b];
    assert MonthlyLoop(start, start, end, 5, None) == [b];
  }

  lemma FebruaryLoopTail()
    ensures MonthlyLoop(Day(2024, 2, 2), Day(2024, 0, 31), Day(2024, 2, 31), 28, None)
            == [Day(2024, 2, 28)]
  {
    assert AddMonth(Day(2024, 2, 2)) == Day(2024, 3, 2);
  }

  lemma FebruaryLoop()
    ensures MonthlyLoop(Day(2024, 0, 31), Day(2024, 0, 31), Day(2024, 2, 31), 28, None)
            == [Day(2024, 2, 28)]
  {
    FebruaryLoopTail();
    assert MakeDate(2024, 1, 31) == Day(2024, 2, 2);
    assert AddMonth(Day(2024, 0, 31)) == Day(2024, 2, 2);
  }

  /** From 31 January `setMonth(+1)` lands on 2 March (2024 is a leap year),
      so February is never visited and 28 February 2024 is missed. */
  lemma AsWrittenSkipsFebruary()
    ensures var sub := Subscription(1, 1, "Phone", 30, Monthly, "", Day(2023, 8, 28));
            var start, end := Day(2024, 0, 31), Day(2024, 2, 31);
            && AddMonth(start) == Day(2024, 2, 2)
            && ProjectAsWritten(sub, start, end, None) == [Day(2024, 2, 28)]
            && Occurrences(sub, start, end, None) == [Day(2024, 1, 28), Day(2024, 2, 28)]
  {
    var sub := Subscription(1, 1, "Phone", 30, Monthly, "", Day(2023, 8, 28));
    var start, end := Day(2024, 0, 31), Day(2024, 2, 31);
    var b, c := Day(2024, 1, 28), Day(2024, 2, 28);
    assert MonthIndex(start) == 24288 && MonthIndex(end) == 24290;
    assert Candidate(sub, 24290) == c;
    assert Scan(sub, 24290, 24290, start, end, None) == [c];
    assert Candidate(sub, 24289) == b;
    assert Scan(sub, 24289, 24290, start, end, None) == [b, c];
    assert Candidate(sub, 24288) == Day(2024, 0, 28);
    assert Scan(sub, 24288, 24290, start, end, None) == [b, c];
    assert MakeDate(2024, 1, 31) == Day(2024, 2, 2);
    FebruaryLoop();
  }

  /** A yearly subscription is tried in the window's first year only: a
      window across New Year misses a 1 January anniversary. */
  lemma AsWrittenYearlyMissesNewYear()
    ensures var sub := Subscription(1, 1, "Domain", 12, Yearly, "", Day(2020, 0, 1));
            var start, end := Day(2024, 11, 15), Day(2025, 0, 14);
            && ProjectAsWritten(sub, start, end, None) == []
            && Occurrences(sub, start, end, None) == [Day(2025, 0, 1)]
  {
    var sub := Subscription(1, 1, "Domain", 12, Yearly, "", Day(2020, 0, 1));
    var start, end := Day(2024, 11, 15), Day(2025, 0, 14);
    assert Candidate(sub, 2025) == Day(2025, 0, 1);
    assert Scan(sub, 2025, 2025, start, end, None) == [Day(2025, 0, 1)];
    assert Candidate(sub, 2024) == Day(2024, 0, 1);
  }

  /** A window from 31 January to 2 March 2024, the one the budget form sets
      for a start on 31 January: the loop's only passes sit in January and
      March, so a payment due on the 15th is never projected, although 15
      February is in the window. */
  lemma AsWrittenMissesShortFebruary()
    ensures var sub := Subscription(1, 1, "Gym", 100, Monthly, "", Day(2024, 0, 15));
            var start, end, today := Day(2024, 0, 31), Day(2024, 2, 2), Day(2024, 2, 10);
            && ProjectAsWritten(sub, start, end, Some(today)) == []
            && Occurrences(sub, start, end, Some(today)) == [Day(2024, 1, 15)]
  {
    var sub := Subscription(1, 1, "Gym", 100, Monthly, "", Day(2024, 0, 15));
    var start, end, today := Day(2024, 0, 31), Day(2024, 2, 2), Day(2024, 2, 10);
    var mar, apr := Day(2024, 2, 2), Day(2024, 3, 2);
    assert MakeDate(2024, 1, 31) == mar;
    assert AddMonth(start) == mar && AddMonth(mar) == apr;
    assert MonthlyLoop(apr, start, end, 15, Some(today)) == [] by { assert Key(apr) > Key(end); }
    LoopStep(mar, start, end, 15, Some(today));
    LoopStep(start, start, end, 15, Some(today));
    assert MonthIndex(start) == 24288 && MonthIndex(end) == 24290;
    assert Candidate(sub, 24290) == Day(2024, 2, 15);
    assert Scan(sub, 24290, 24290, start, end, Some(today)) == [];
    assert Candidate(sub, 24289) == Day(2024, 1, 15);
    assert Scan(sub, 24289, 24290, start, end, Some(today)) == [Day(2024, 1, 15)];
    assert Candidate(sub, 24288) == Day(2024, 0, 15);
  }
}

=== FILE: reward.dfy ===
/** The rewards page's `getCoupenImage`: the coupon shown beside each of the
    user's goals, accomplished or not, chosen by the goal's amount.
 */
module Reward {

  datatype Coupon = Coupon1 | Coupon2 | Coupon3

  /** The coupons' order, smallest first. */
  function Level(c: Coupon): nat {
    match c
    case Coupon1 => 1
    case Coupon2 => 2
    case Coupon3 => 3
  }

  /** Up to 10000 the first coupon, up to 50000 the second, above that the third. */
  function CouponFor(amount: int): (c: Coupon)
    ensures c == Coupon1 <==> amount <= 10000
    ensures c == Coupon2 <==> 10000 < amount <= 50000
    ensures c == Coupon3 <==> amount > 50000
  {
    if amount <= 10000 then Coupon1
    else if amount > 10000 && amount <= 50000 then Coupon2
    else Coupon3
  }

  /** A larger goal never earns a lesser coupon. */
  lemma CouponMonotone(a: int, b: int)
    requires a <= b
    ensures Level(CouponFor(a)) <= Level(CouponFor(b))
  {
  }

  /** The band edges. */
  lemma CouponEdges()
    ensures CouponFor(10000) == Coupon1 && CouponFor(10001) == Coupon2
    ensures CouponFor(50000) == Coupon2 && CouponFor(50001) == Coupon3
  {
  }
}

=== FILE: seqs.dfy ===
/** Sequence helpers shared by the views and the stores: order-preserving
    filtering and summing a numeric field. */
module Seqs {
  import opened Common

  /** `array.filter(p)`: the elements satisfying `p`, in their original order. */
  function Filter<T(!new)>(xs: seq<T>, p: T -> bool): (r: seq<T>)
    ensures |r| <= |xs|
    ensures forall x :: x in r <==> x in xs && p(x)
    ensures forall i :: 0 <= i < |r| ==> p(r[i])
  {
    if xs == [] then []
    else (if p(xs[0]) then [xs[0]] else []) + Filter(xs[1..], p)
  }

  /** The total of `f` over the elements, as `reduce((t, x) => t + f(x), 0)`. */
  function Sum<T>(xs: seq<T>, f: T -> int): int {
    if xs == [] then 0 else f(xs[0]) + Sum(xs[1..], f)
  }

  lemma {:induction false} SumConcat<T>(a: seq<T>, b: seq<T>, f: T -> int)
    ensures Sum(a + b, f) == Sum(a, f) + Sum(b, f)
  {
    if a == [] {
      assert a + b == b;
    } else {
      assert (a + b)[0] == a[0];
      assert (a + b)[1..] == a[1..] + b;
      SumConcat(a[1..], b, f);
    }
  }

  /** Filtering splits a total: the kept part and the dropped part add up to the whole. */
  lemma {:induction false} SumFilterSplit<T(!new)>(xs: seq<T>, p: T -> bool, f: T -> int)
    ensures Sum(Filter(xs, p), f) + Sum(Filter(xs, x => !p(x)), f) == Sum(xs, f)
  {
    if xs != [] {
      SumFilterSplit(xs[1..], p, f);
      var keep := (if p(xs[0]) then [xs[0]] else []);
      var drop := (if !p(xs[0]) then [xs[0]] else []);
      SumConcat(keep, Filter(xs[1..], p), f);
      SumConcat(drop, Filter(xs[1..], x => !p(x)), f);
    }
  }

  /** Two filters that agree on every element give the same result. */
  lemma {:induction false} FilterCongruent<T(!new)>(xs: seq<T>, p: T -> bool, q: T -> bool)
    requires forall x :: x in xs ==> p(x) == q(x)
    ensures Filter(xs, p) == Filter(xs, q)
  {
    if xs != [] {
      FilterCongruent(xs[1..], p, q);
    }
  }

  /** A filter that keeps every element is the identity. */
  lemma {:induction false} FilterAll<T(!new)>(xs: seq<T>, p: T -> bool)
    requires forall x :: x in xs ==> p(x)
    ensures Filter(xs, p) == xs
  {
    if xs != [] {
      FilterAll(xs[1..], p);
      assert [xs[0]] + xs[1..] == xs;
    }
  }

  /** A filter that keeps no element gives the empty sequence. */
  lemma {:induction false} FilterNone<T(!new)>(xs: seq<T>, p: T -> bool)
    requires forall x :: x in xs ==> !p(x)
    ensures Filter(xs, p) == []
  {
    if xs != [] {
      FilterNone(xs[1..], p);
    }
  }

  lemma {:induction false} FilterAppend<T(!new)>(xs: seq<T>, x: T, p: T -> bool)
    ensures Filter(xs + [x], p) == Filter(xs, p) + (if p(x) then [x] else [])
  {
    if xs != [] {
      assert (xs + [x])[1..] == xs[1..] + [x];
      FilterAppend(xs[1..], x, p);
    } else {
      assert [x][1..] == [];
    }
  }

  /** `findOne`: the position of the first element satisfying `p`. */
  function FirstIndex<T>(xs: seq<T>, p: T -> bool): (r: Option<nat>)
    ensures r.Some? ==> r.value < |xs| && p(xs[r.value]) && forall j :: 0 <= j < r.value ==> !p(xs[j])
    ensures r.None? ==> forall j :: 0 <= j < |xs| ==> !p(xs[j])
  {
    if xs == [] then None
    else if p(xs[0]) then Some(0)
    else match FirstIndex(xs[1..], p)
         case None => None
         case Some(i) => Some(i + 1)
  }

  /** The first match is the one position that matches with no match before it. */
  lemma FirstIndexAt<T>(xs: seq<T>, p: T -> bool, i: nat)
    requires i < |xs| && p(xs[i])
    requires forall j :: 0 <= j < i ==> !p(xs[j])
    ensures FirstIndex(xs, p) == Some(i)
  {
  }

  /** The sequence without its element at position `i`. */
  function RemoveAt<T>(xs: seq<T>, i: nat): (r: seq<T>)
    requires i < |xs|
    ensures |r| == |xs| - 1
    ensures forall j :: 0 <= j < i ==> r[j] == xs[j]
    ensures forall j :: i <= j < |r| ==> r[j] == xs[j + 1]
  {
    xs[..i] + xs[i + 1..]
  }
}

=== FILE: signup.dfy ===
/** The sign-up form's `isFormValid`, which enables the submit button:
    username of at least 3 and password of at least 6 UTF-16 code units, an
    email matching `^[^\s@]+@[^\s@]+\.[^\s@]+$`, an age from 18 to 100, and
    a chosen gender and working status. The date of birth is not checked.
 */
module SignUpForm {
  import opened Common

  /** A character of the regular-expression class `\s` (ECMAScript
      WhiteSpace and LineTerminator). */
  predicate IsSpace(c: char) {
    c == '\t' || c == '\n' || c == '\U{B}' || c == '\U{C}' || c == '\r' || c == ' '
    || c == '\U{A0}' || c == '\U{1680}' || ('\U{2000}' <= c <= '\U{200A}')
    || c == '\U{2028}' || c == '\U{2029}' || c == '\U{202F}' || c == '\U{205F}'
    || c == '\U{3000}' || c == '\U{FEFF}'
  }

  /** Text matching `[^\s@]+` once it is known to be non-empty. */
  predicate Plain(t: string) {
    forall i :: 0 <= i < |t| ==> !IsSpace(t[i]) && t[i] != '@'
  }

  /** The pattern `^[^\s@]+@[^\s@]+\.[^\s@]+$`, piece by piece: a non-empty
      local part, `@`, a non-empty text, `.`, and a non-empty text, none of
      the three holding `@` or white space. */
  predicate EmailShape(s: string) {
    exists k, j :: 0 < k && k + 1 < j && j + 1 < |s| && s[k] == '@' && s[j] == '.'
                   && Plain(s[..k]) && Plain(s[k + 1..j]) && Plain(s[j + 1..])
  }

  /** The same condition stated over the whole string: no white space,
      exactly one `@` and not at the front, and a `.` after it with text on
      both sides. */
  predicate EmailFacts(s: string) {
    (forall i :: 0 <= i < |s| ==> !IsSpace(s[i]))
    && exists k :: 0 < k < |s| && s[k] == '@'
                   && (forall i :: 0 <= i < |s| && s[i] == '@' ==> i == k)
                   && exists j :: k + 1 < j < |s| - 1 && s[j] == '.'
  }

  lemma ShapeGivesFacts(s: string)
    requires EmailShape(s)
    ensures EmailFacts(s)
  {
    var k, j :| 0 < k && k + 1 < j && j + 1 < |s| && s[k] == '@' && s[j] == '.'
                && Plain(s[..k]) && Plain(s[k + 1..j]) && Plain(s[j + 1..]);
    forall i | 0 <= i < |s| ensures !IsSpace(s[i]) && (s[i] == '@' ==> i == k) {
      if i < k { assert s[..k][i] == s[i]; }
      else if k < i < j { assert s[k + 1..j][i - k - 1] == s[i]; }
      else if j < i { assert s[j + 1..][i - j - 1] == s[i]; }
    }
    assert k + 1 < j < |s| - 1 && s[j] == '.';
  }

  lemma FactsGiveShape(s: string)
    requires EmailFacts(s)
    ensures EmailShape(s)
  {
    var k :| 0 < k < |s| && s[k] == '@'
             && (forall i :: 0 <= i < |s| && s[i] == '@' ==> i == k)
             && exists j :: k + 1 < j < |s| - 1 && s[j] == '.';
    var j :| k + 1 < j < |s| - 1 && s[j] == '.';
    var head, mid, tail := s[..k], s[k + 1..j], s[j + 1..];
    assert Plain(head) by {
      forall i | 0 <= i < |head| ensures !IsSpace(head[i]) && head[i] != '@' {
        assert head[i] == s[i];
      }
    }
    assert Plain(mid) by {
      forall i | 0 <= i < |mid| ensures !IsSpace(mid[i]) && mid[i] != '@' {
        assert mid[i] == s[k + 1 + i];
      }
    }
    assert Plain(tail) by {
      forall i | 0 <= i < |tail| ensures !IsSpace(tail[i]) && tail[i] != '@' {
        assert tail[i] == s[j + 1 + i];
      }
    }
  }

  lemma EmailShapeIsFacts(s: string)
    ensures EmailShape(s) <==> EmailFacts(s)
  {
    if EmailShape(s) {
      ShapeGivesFacts(s);
    }
    if EmailFacts(s) {
      FactsGiveShape(s);
    }
  }

  /** `/^[^\s@]+@[^\s@]+\.[^\s@]+$/.test(email)`, as one scan for white
      space and `@` signs and a second scan for the dot. */
  method CheckEmail(s: string) returns (ok: bool)
    ensures ok <==> EmailShape(s)
  {
    EmailShapeIsFacts(s);
    var clean := true;
    var ats := 0;
    var at := 0;
    var at2 := 0;
    var i := 0;
    while i < |s|
      invariant 0 <= i <= |s|
      invariant clean <==> forall t :: 0 <= t < i ==> !IsSpace(s[t])
      invariant 0 <= ats <= 2
      invariant ats == 0 ==> forall t :: 0 <= t < i ==> s[t] != '@'
      invariant ats == 1 ==> 0 <= at < i && s[at] == '@' && forall t :: 0 <= t < i && s[t] == '@' ==> t == at
      invariant ats == 2 ==> 0 <= at < at2 < i && s[at] == '@' && s[at2] == '@'
    {
      if IsSpace(s[i]) {
        clean := false;
      }
      if s[i] == '@' {
        if ats == 0 {
          ats, at := 1, i;
        } else if ats == 1 {
          ats, at2 := 2, i;
        }
      }
      i := i + 1;
    }
    if !clean || ats != 1 || at == 0 {
      return false;
    }
    var found := false;
    var j := at + 2;
    while j < |s| - 1
      invariant at + 2 <= j
      invariant found <==> exists t :: at + 1 < t < j && t < |s| - 1 && s[t] == '.'
    {
      if s[j] == '.' {
        found := true;
      }
      j := j + 1;
    }
    ok := found;
  }

  /** JavaScript's `.length`: characters outside the Basic Multilingual
      Plane take two UTF-16 code units. */
  function Utf16Length(s: string): (n: nat)
    ensures |s| <= n <= 2 * |s|
  {
    if s == [] then 0 else (if s[0] as int > 0xFFFF then 2 else 1) + Utf16Length(s[1..])
  }

  /** The form state. `age` is the number the text field converts to, or
      `None` for text that is not a number. */
  datatype SignUp = SignUp(username: string, email: string, password: string, age: Option<int>,
                           gender: string, dob: string, workingStatus: string)

  predicate FormValid(f: SignUp) {
    Utf16Length(f.username) >= 3
    && EmailShape(f.email)
    && Utf16Length(f.password) >= 6
    && f.age.Some? && 18 <= f.age.value <= 100
    && f.gender != ""
    && f.workingStatus != ""
  }

  /** `isFormValid()`, evaluated left to right as the component does. */
  method IsFormValid(f: SignUp) returns (ok: bool)
    ensures ok <==> FormValid(f)
  {
    if Utf16Length(f.username) < 3 {
      return false;
    }
    var emailOk := CheckEmail(f.email);
    ok := emailOk && Utf16Length(f.password) >= 6 && f.age.Some? && 18 <= f.age.value <= 100
          && f.gender != "" && f.workingStatus != "";
  }

  /** The submit button's `disabled={!isFormValid()}`. */
  method SubmitDisabled(f: SignUp) returns (disabled: bool)
    ensures disabled <==> !FormValid(f)
    ensures disabled ==> Utf16Length(f.username) < 3 || !EmailShape(f.email)
                         || Utf16Length(f.password) < 6 || f.age.None? || f.age.value < 18
                         || f.age.value > 100 || f.gender == "" || f.workingStatus == ""
  {
    var ok := IsFormValid(f);
    disabled := !ok;
  }

  /** The date of birth plays no part. */
  lemma DobNotChecked(f: SignUp, dob: string)
    ensures FormValid(f) <==> FormValid(f.(dob := dob))
  {
  }

  lemma PlainAddress()
    ensures EmailShape("ana@mail.com")
  {
    var s := "ana@mail.com";
    assert s[3] == '@' && s[8] == '.';
    assert s[..3] == "ana" && s[4..8] == "mail" && s[9..] == "com";
  }

  lemma DottedLastPart()
    ensures EmailShape("a@b.c.d")
  {
    var s := "a@b.c.d";
    assert s[1] == '@' && s[3] == '.';
    assert s[..1] == "a" && s[2..3] == "b" && s[4..] == "c.d";
  }

  /** Addresses the pattern accepts: dots may also sit inside the last part. */
  lemma EmailAccepted()
    ensures EmailShape("ana@mail.com")
    ensures EmailShape("a@b.c.d")
  {
    PlainAddress();
    DottedLastPart();
  }

  /** No dot after the `@`. */
  lemma EmailWithoutDot()
    ensures !EmailShape("ana@mail")
  {
    EmailShapeIsFacts("ana@mail");
    var s := "ana@mail";
    assert s[3] == '@';
    assert forall j :: 4 < j < 7 ==> s[j] != '.';
  }

  /** Nothing before the `@`. */
  lemma EmailWithoutLocalPart()
    ensures !EmailShape("@mail.com")
  {
    var s := "@mail.com";
    EmailShapeIsFacts(s);
    assert s[0] == '@';
  }

  /** Two `@` signs. */
  lemma EmailWithTwoAts()
    ensures !EmailShape("ana@@mail.com")
  {
    var s := "ana@@mail.com";
    EmailShapeIsFacts(s);
    assert s[3] == '@' && s[4] == '@';
  }

  /** White space. */
  lemma EmailWithSpace()
    ensures !EmailShape("ana @mail.com")
  {
    var s := "ana @mail.com";
    EmailShapeIsFacts(s);
    assert IsSpace(s[3]);
  }
}

=== FILE: store.dfy ===
/** The collections the handlers read and write, as one immutable value.
    `findOne` / `findById` return the first matching record; `save` of a new
    record appends it; a new record's `_id` is the counter `nextId`, which
    every creation advances, so ids are never reused.
 */
module Store {
  import opened Common
  import opened Calendar
  import opened Entities
  import opened Seqs
  import opened Ledger

  datatype Store = Store(
    users: seq<User>,
    budgets: seq<Budget>,
    expenses: seq<Expense>,
    subscriptions: seq<Subscription>,
    histories: seq<History>,
    goals: seq<Goal>,
    nextId: nat)

  /** What every store the handlers see satisfies: every expense and goal id
      was handed out already. */
  predicate Wf(st: Store) {
    (forall i :: 0 <= i < |st.expenses| ==> st.expenses[i].id < st.nextId)
    && (forall i :: 0 <= i < |st.goals| ==> st.goals[i].id < st.nextId)
  }

  /** `User.findById(id)`. */
  function FindUser(st: Store, id: UserId): (r: Option<User>)
    ensures r.Some? ==> r.value in st.users && r.value.id == id
    ensures r.None? ==> forall x :: x in st.users ==> x.id != id
  {
    match FirstIndex(st.users, (x: User) => x.id == id)
    case None => None
    case Some(i) => Some(st.users[i])
  }

  /** `User.findOne({ email })`: nothing here makes emails unique, so this is
      the first stored user with that email. */
  function FindUserByEmail(st: Store, email: string): (r: Option<User>)
    ensures r.Some? ==> exists i :: 0 <= i < |st.users| && st.users[i] == r.value && r.value.email == email
                                    && forall j :: 0 <= j < i ==> st.users[j].email != email
    ensures r.None? ==> forall x :: x in st.users ==> x.email != email
  {
    match FirstIndex(st.users, (x: User) => x.email == email)
    case None => None
    case Some(i) => Some(st.users[i])
  }

  /** `Budget.findOne({ user })`: where the user's first budget is stored. */
  function BudgetIndex(st: Store, u: UserId): (r: Option<nat>)
    ensures r.Some? ==> r.value < |st.budgets| && st.budgets[r.value].user == u
    ensures r.Some? ==> forall j :: 0 <= j < r.value ==> st.budgets[j].user != u
    ensures r.None? ==> forall b :: b in st.budgets ==> b.user != u
  {
    FirstIndex(st.budgets, (b: Budget) => b.user == u)
  }

  function FindBudget(st: Store, u: UserId): (r: Option<Budget>)
    ensures r.Some? ==> r.value in st.budgets && r.value.user == u
    ensures r.None? ==> forall b :: b in st.budgets ==> b.user != u
  {
    match BudgetIndex(st, u)
    case None => None
    case Some(i) => Some(st.budgets[i])
  }

  /** `Expense.findById(id)`: where that expense is stored. */
  function ExpenseIndex(st: Store, id: nat): (r: Option<nat>)
    ensures r.Some? ==> r.value < |st.expenses| && st.expenses[r.value].id == id
    ensures r.None? ==> forall e :: e in st.expenses ==> e.id != id
  {
    FirstIndex(st.expenses, (e: Expense) => e.id == id)
  }

  /** `Goal.findById(id)`: where that goal is stored. */
  function GoalIndex(st: Store, id: nat): (r: Option<nat>)
    ensures r.Some? ==> r.value < |st.goals| && st.goals[r.value].id == id
    ensures r.None? ==> forall g :: g in st.goals ==> g.id != id
  {
    FirstIndex(st.goals, (g: Goal) => g.id == id)
  }

  /** The store with the budget at position `i` replaced. */
  function SetBudget(st: Store, i: nat, b: Budget): Store
    requires i < |st.budgets|
  {
    st.(budgets := st.budgets[i := b])
  }

  /** `Expense.deleteMany({ user })`. */
  function DropExpensesOf(es: seq<Expense>, u: UserId): (r: seq<Expense>)
    ensures forall e :: e in r <==> e in es && e.user != u
  {
    Filter(es, (e: Expense) => e.user != u)
  }
}
